=== FILE: README.md ===
# jquants-stock-collector — a Dafny model of the trading core

This project models the decision logic of a Japanese equity dip-buying
system. The system collects daily prices for Tokyo-listed stocks, derives
moving averages, and uses them in several places:

- the 25-day and 75-day moving averages;
- a "golden cross" trend filter (25-day above 75-day);
- an entry signal for a close below a fraction of the 25-day average;
- a priority score (close / 25-day average), where cheapest comes first.

On top of these indicators the model covers:

- **Portfolio simulation** (`Portfolio`). A shared cash pool holds at most
  15 positions. Each trading day runs in this order:
  - exits on a 7% hard stop or a 20% trailing stop, filled at the trigger;
  - entries ranked by priority score, with cash split evenly over the free
    slots and whole shares bought;
  - one equity point, after which the drawdown of the equity curve is
    reported.
- **Per-stock strategy and walk-forward analysis** (`Strategy`,
  `WalkForward`):
  - the stop-loss / trailing-stop strategy is run on each stock separately;
  - the dates are split into consecutive train/test windows;
  - on each train window, one parameter set is chosen from a four-entry
    grid by mean trade return;
  - the chosen set is applied to the following test window;
  - the out-of-sample trades are summarised as KPIs: count, average return,
    win rate, drawdown of the cumulative return, and annualised return.
- **Daily scan** (`Scan`):
  - market breadth is the share of stocks above their 75-day average on
    the latest date;
  - a red/green gate is set at 40%;
  - at most 20 pullback candidates are listed.
- **Signal evaluation** (`Evaluate`):
  - the return, best gain and worst loss over the 20 trading days after a
    signal;
  - hit and avoidance rates per verdict;
  - file-name sanitising;
  - recognition of `Signals_YYYYMMDD` sheet titles.
- **News filter** (`News`): a stock is rejected on a killer keyword in its
  news. Otherwise the index move separates three cases, each entered or
  watched:
  - a sector sell-off;
  - a stock-specific fall;
  - a normal dip.

  Batch analysis uses one index move for all signals.
- **Ticker conversion** (`Ticker`): the 5-digit J-Quants code maps to a
  Yahoo Finance `XXXX.T` ticker.

Supporting modules: `Wrappers` (`Option`), `Seqs` (filter, take, count,
sum, mean, sort, unique), `Text` (substring test, Python
`str.replace`) and `Indicators`.

Prices are `real`. A pandas NaN (an undefined moving average, a missing
metric) is `Option.None`. Dates are day numbers (`int`). Share quantities
are `nat`; `int(a // p)` is `(a / p).Floor`.

## Model

| member | source | states |
|---|---|---|
| Indicators.RollingMean | src/backtest.py:95-100 | A rolling mean exists exactly when at least `window` values are available (`min_periods = window`), and it lies between the smallest and largest of the last `window` values |
| Indicators.Annotate | src/backtest_portfolio.py:51-52 | One annotated row per bar, carrying that bar. The 75-day (25-day) average is defined exactly when the bar's code has at least 75 (25) closes up to and including that bar |
| Indicators.CodeClosesAppend | src/backtest.py:95-100 | Grouping by code commutes with concatenation: a code's closes in a joined panel are its closes in each part, in order |
| Indicators.MovingAverageIgnoresOtherCodes | src/backtest_portfolio.py:51-52 | Because the averages are computed per code, inserting a bar of another code anywhere earlier does not change a bar's moving average |
| Indicators.MovingAveragePositive | src/backtest_portfolio.py:51-52 | With positive closes, every defined moving average is positive |
| Indicators.ShortHistoryNoSignal | src/backtest_portfolio.py:55-56 | A bar whose code has fewer than 75 closes so far has no trend and no entry signal, because NaN comparisons are false |
| Indicators.PriorityScore | src/backtest_portfolio.py:59 | The priority score is defined exactly when the 25-day average is defined and non-zero. It is below 1 exactly when the close is below that average |
| Indicators.EntrySignalHasScore | src/backtest_portfolio.py:56-59 | A signalled row with a positive close has a positive 25-day average, and its ranking key close/MA25 is below the dip threshold |
| Portfolio.FindRow | src/backtest_portfolio.py:88-89 | The row found for a held code is a row of the day with that code; none is found exactly when no row of the day has the code |
| Portfolio.FindRowFirst | src/backtest_portfolio.py:88-93 | The row found is the first row of the day with that code, as `iloc[0]` takes it |
| Portfolio.RaiseHigh | src/backtest_portfolio.py:96-97 | The high-water mark becomes the larger of the old mark and today's high; nothing else in the position changes |
| Portfolio.ExitTrigger | src/backtest_portfolio.py:100-102 | The exit trigger is the larger of the hard stop and the trailing stop: at least both, and equal to one of them |
| Portfolio.FateSpec | src/backtest_portfolio.py:87-122 | The exit rule for one holding. A code with no row today is kept untouched. Otherwise the holding closes exactly when today's low is at most the trigger computed from the raised high. A close is filled at that trigger, never below the hard stop, and carries the position's entry date, price and quantity with today as exit date. A kept holding changes only its high-water mark, which does not fall |
| Portfolio.Exits | src/backtest_portfolio.py:85-126 | The exit pass accounts for every holding: the kept holdings and the logged trades together number the holdings |
| Portfolio.ExitsKeptOrigin | src/backtest_portfolio.py:85-126 | The holdings kept are exactly the holdings whose exit rule keeps them |
| Portfolio.ExitsTradeOrigin | src/backtest_portfolio.py:104-122 | The trades logged are exactly the trades produced by the holdings whose exit rule closes them |
| Portfolio.ExitsKeepCodes | src/backtest_portfolio.py:124-126 | Deleting sold codes leaves a subset of the held codes, still without duplicates |
| Portfolio.ExitsTradesBounded | src/backtest_portfolio.py:100-112 | Every trade of the pass is sound: it exits today, has a positive entry price and quantity, and fills at or above the 7% stop |
| Portfolio.StopBound | src/backtest_portfolio.py:100-112 | A trade filled at or above the hard stop returns at least -7% |
| Portfolio.ProceedsPositive | src/backtest_portfolio.py:107-109 | The cash raised by sound sells is non-negative, and positive when anything was sold |
| Portfolio.Put | src/backtest_portfolio.py:161-166 | Assigning a position to `positions[code]` keeps codes unique and adds the code to the key set. The size grows only for a new code. Every other holding survives, and the only new element is the one put |
| Portfolio.QuantityFits | src/backtest_portfolio.py:156-159 | `int(allocation // price)` buys a non-negative number of shares costing no more than the allocation |
| Portfolio.QuantityMaximal | src/backtest_portfolio.py:156 | One more share would exceed the allocation, so the quantity is the largest affordable |
| Portfolio.Orders | src/backtest_portfolio.py:152-159 | One order per target, in order, each with a non-negative quantity costing between 0 and the allocation |
| Portfolio.OrdersPriced | src/backtest_portfolio.py:154-159 | Each order buys the largest affordable whole number of shares at the target's close and costs quantity times close |
| Portfolio.FillCash | src/backtest_portfolio.py:154-160 | Filling the orders spends no more than the number of orders times the allocation, and never adds cash |
| Portfolio.FillProvenance | src/backtest_portfolio.py:154-166 | After filling, every holding was held before or was opened by an order with a positive quantity. Every holding whose code no order targets survives |
| Portfolio.Buy | src/backtest_portfolio.py:158-166 | An order for no shares changes nothing. Otherwise cash falls by exactly its cost and the position opened at the row's close is held. The held codes gain the order's code, and the count grows only for a code not held. Every other holding is kept, and nothing else is added |
| Portfolio.FillUnchanged | src/backtest_portfolio.py:154-166 | When no order names a held code, the fill loop leaves cash and holdings as they were exactly when it adds no holding |
| Portfolio.TargetsAreCandidates | src/backtest_portfolio.py:134-144 | The targets number at most the open slots. Each is a row of the day with an entry signal at 0.95 and a code not held |
| Portfolio.TargetsRankFirst | src/backtest_portfolio.py:141-144 | The targets are ascending in priority score and number min(slots, candidates). They are drawn from the candidates, and no candidate left out ranks better than one taken |
| Portfolio.AllocationsFit | src/backtest_portfolio.py:151-152 | Spending `cash / open_slots` at most `open_slots` times never exceeds the cash |
| Portfolio.BuysCash | src/backtest_portfolio.py:151-160 | The entry pass leaves the cash between 0 and its value before the pass |
| Portfolio.BuysKeep | src/backtest_portfolio.py:154-166 | The entry pass adds at most one holding per target, keeps codes unique, and keeps every holding no target names |
| Portfolio.BuysOrigin | src/backtest_portfolio.py:154-166 | Every holding after the entry pass was held before or was opened today from a target's close |
| Portfolio.BuysValid | src/backtest_portfolio.py:144-166 | An entry pass over at most the free slots' worth of signalled rows of the day, none of a held code, keeps the account valid. It never raises cash, keeps every held position, and adds only positions entered today |
| Portfolio.BuysEntered | src/backtest_portfolio.py:130-166 | With free slots and positive cash, entering keeps the state valid: codes are unique, there are at most 15 positions, and cash is non-negative. Entering does not raise cash and keeps every held position. Every new holding was entered today from a signalled row |
| Portfolio.Enter | src/backtest_portfolio.py:130-166 | Entry processing keeps the state valid, never raises cash and keeps every held position. New holdings come from today's signalled rows. Without a free slot or positive cash nothing changes |
| Portfolio.EnterUnchanged | src/backtest_portfolio.py:130-166 | Entry processing changes the account only by opening a position: if the number of holdings is unchanged, cash and holdings are exactly as before |
| Portfolio.MarketValuePositive | src/backtest_portfolio.py:170-180 | Marking the holdings to today's close, or to the high-water mark when a code has no row, gives a non-negative value, positive when anything is held |
| Portfolio.ExitsKeepEntryDates | src/backtest_portfolio.py:114-121 | Trades and survivors carry entry dates of positions held before the pass |
| Portfolio.AfterExits | src/backtest_portfolio.py:85-126 | The exit pass keeps the state valid. Cash rises by exactly the proceeds of the logged trades (exit price × quantity each), and the holdings become the survivors. It never adds holdings and introduces no new entry date |
| Portfolio.Step | src/backtest_portfolio.py:78-181 | One trading day keeps the state valid. Its trades are those of the exit pass, and the cash after exits is the opening cash plus their proceeds. The entry pass then starts from that state, so the closing cash is at most opening cash plus proceeds. The equity recorded is today's cash plus the market value of the holdings, at least the cash, which is non-negative. All of today's trades are sound and close positions entered earlier. New positions are dated today |
| Portfolio.StepFromCash | src/backtest_portfolio.py:85-181 | A day that starts with nothing held and positive cash logs no trade and records a positive equity |
| Portfolio.DatesIncreasing | src/backtest_portfolio.py:44-71 | On a panel sorted by date, the unique dates come out strictly increasing |
| Portfolio.DayRowsNonEmpty | src/backtest_portfolio.py:78-79 | A date taken from the panel has rows, so the empty-day skip never fires on it |
| Portfolio.DayRowsPositive | src/backtest_portfolio.py:78 | The day slice holds only that date's rows, with positive prices when the panel has them |
| Portfolio.RunCurve | src/backtest_portfolio.py:75-181 | The equity curve has one point per simulated date, in order, each non-negative |
| Portfolio.RunTrades | src/backtest_portfolio.py:75-126 | Every logged trade is sound, and its entry and exit dates are simulated dates. Open positions are dated on simulated dates |
| Portfolio.RunExtend | src/backtest_portfolio.py:75-181 | Simulating one more day leaves the earlier trade log as a prefix. The new trades exit on the new day and close positions that were open before it |
| Portfolio.RunEntryDatesBounded | src/backtest_portfolio.py:161-166 | No open position is dated after the last simulated day |
| Portfolio.RunChronology | src/backtest_portfolio.py:114-116 | Over strictly increasing dates, every trade exits strictly after it was entered |
| Portfolio.SimulateCurve | src/backtest_portfolio.py:44-183 | The simulation of a date-sorted panel yields one non-negative equity point per unique date, strictly ascending by date |
| Portfolio.RunStart | src/backtest_portfolio.py:64-79 | Until a date with rows has been simulated, the account is the initial 3,000,000 in cash with no trade and no equity point. The first equity point is positive |
| Portfolio.SimulateTrades | src/backtest_portfolio.py:44-183 | Every simulated trade exits strictly after entry, has a positive entry price and quantity, and fills no lower than the 7% stop, so it returns at least −7% |
| Portfolio.PeakBounds | src/backtest_portfolio.py:196 | `cummax()`: the running peak at a point bounds every equity value up to it and is attained by one of them |
| Portfolio.DrawdownRange | src/backtest_portfolio.py:197 | Each drawdown is a fraction in [-1, 0] |
| Portfolio.DrawdownAtMostFall | src/backtest_portfolio.py:196-197 | The drawdown at a point is at least as deep as the relative fall from any earlier point |
| Portfolio.MaxDrawdownBelowFalls | src/backtest_portfolio.py:196-198 | The maximum drawdown is at least as deep as every relative fall from an earlier to a later equity value |
| Portfolio.MaxDrawdownIsAFall | src/backtest_portfolio.py:196-198 | The maximum drawdown is the relative fall between some earlier and later equity values |
| Portfolio.MaxDrawdownRange | src/backtest_portfolio.py:196-198 | The maximum drawdown of a non-negative curve is in [-1, 0] |
| Portfolio.MaxDrawdownZeroIff | src/backtest_portfolio.py:196-198 | The maximum drawdown is zero exactly when the equity curve never falls |
| Portfolio.SimulateDrawdown | src/backtest_portfolio.py:183-198 | On the curve the simulation returns, the first equity (the denominator of the total return and of the first drawdown) is positive, and the maximum drawdown lies in [-1, 0] |
| Strategy.StepSkipsUndefined | src/backtest.py:131-132 | A row with either moving average undefined changes nothing and logs nothing |
| Strategy.StepWhenFlat | src/backtest.py:135-141 | Without a position no trade is logged. A position is opened exactly on an entry signal, at the close, dated today, with the high-water mark at the close |
| Strategy.StepWhenLong | src/backtest.py:144-175 | The high-water mark is raised first. The stop loss fires exactly when the low reaches entry×(1−stop), filled at that level. Otherwise the trailing stop fires exactly when the low reaches high×(1−trail), filled there. A trade is logged exactly when the position is closed, with the position's entry date and price. Otherwise the position is kept with the raised high |
| Strategy.StopLossReturn | src/backtest.py:150-158 | A stop-loss exit returns exactly −stop |
| Strategy.AboveStopReturn | src/backtest.py:164-172 | An exit above the stop level, as every trailing exit is, returns more than −stop |
| Strategy.StepSound | src/backtest.py:135-175 | A step keeps the position sane, keeps its entry price, and never lowers its high-water mark. Every trade is sound: positive prices and a return of at least −stop |
| Strategy.RunCodeSound | src/backtest.py:130-175 | Over one code's rows with positive prices, every trade is sound |
| Strategy.StepChronological | src/backtest.py:130-175 | On a later date, a step keeps the trades disjoint in time and each exit after its entry |
| Strategy.RunCodeChronology | src/backtest.py:124-175 | Over strictly increasing dates, the trades of one code do not overlap, and each exits strictly after entry |
| Strategy.CodeRowsFromPanel | src/backtest.py:123-124 | A code's sub-frame holds only rows of that code from the panel, sorted by date |
| Strategy.CodeRowsIncreasing | src/backtest.py:123-124 | With at most one row per code and date, a code's sorted rows have strictly increasing dates |
| Strategy.RunCodesSound | src/backtest.py:123-177 | Concatenating the per-code trade lists keeps every trade sound |
| Strategy.RunStrategySound | src/backtest.py:110-177 | Every trade of `run_strategy` is sound, so its return is at least −stop_loss |
| Strategy.RunCodesChronology | src/backtest.py:123-177 | Every trade of the per-code runs exits strictly after entry |
| Strategy.RunStrategyChronology | src/backtest.py:110-177 | Every trade of `run_strategy` on a panel with one row per code and date exits strictly after entry |
| Strategy.RunCodeWithin | src/backtest.py:130-175 | On rows dated in [lo, hi), every trade and any open position are dated in [lo, hi) |
| Strategy.RunCodesWithin | src/backtest.py:123-177 | The same holds for the trades of all codes |
| Strategy.RunStrategyWithin | src/backtest.py:110-177 | `run_strategy` on a date slice trades only inside that slice |
| WalkForward.SortedDatesSpec | src/backtest.py:196 | The sorted unique dates are strictly increasing and are exactly the dates of the panel |
| WalkForward.WindowsNone | src/backtest.py:198-206 | Windows returns None (split size 0) exactly when there are fewer than 2 dates and no more dates than requested splits |
| WalkForward.SplitsCount | src/backtest.py:198-202 | With more dates than splits the requested count is kept. Otherwise at least one split is made and, with at least two dates, at most half the dates' worth |
| WalkForward.WindowAtSpec | src/backtest.py:218-227 | A window trains on `size` dates, tests from the train end, and ends its test at most `size` dates later and within the date list. Its test end is the next window's train end |
| WalkForward.WindowsSpec | src/backtest.py:198-227 | One window per split. Window i trains on dates [i·size, (i+1)·size), and its test window starts at the train end and is at most `size` long, capped at the last date index. Consecutive windows chain: each test window is the next train window. The last test window ends at (splits+1)·size, or at the last date index when that is smaller, so later dates are in no window |
| WalkForward.WindowsFit | src/backtest.py:218-227 | Every window index is a valid position in the date list |
| WalkForward.Between | src/backtest.py:233 | The slice holds only rows dated in [lo, hi) and every such row |
| WalkForward.GridStops | src/backtest.py:211-216 | Every stop loss of the grid is between 0 and 12% |
| WalkForward.ScoreBound | src/backtest.py:239-243 | A parameter set's score, the mean trade return or 0 without trades, is at least −stop_loss |
| WalkForward.ScoresBound | src/backtest.py:238-243 | Every grid score on a training slice is at least −12% |
| WalkForward.SelectSpec | src/backtest.py:235-247 | Selection with initial best −999 and strict `>` picks the first index attaining the maximum score. It picks nothing exactly when every score is at most −999 |
| WalkForward.SelectAlwaysChooses | src/backtest.py:235-249 | Because every score is at least −12%, a parameter set is always chosen |
| WalkForward.NoLookAhead | src/backtest.py:220-255 | Every training row is dated strictly before every test row |
| WalkForward.SplitTradesWithin | src/backtest.py:255-258 | The out-of-sample trades of a split lie within its test dates |
| WalkForward.SplitTradesSound | src/backtest.py:237-258 | Every out-of-sample trade of a split has a positive entry price and returns at least −12% |
| WalkForward.BetweenOneRowPerDay | src/backtest.py:233 | A date slice of a table with one row per code and date also has one row per code and date |
| WalkForward.OutOfSampleSpec | src/backtest.py:218-271 | Every collected out-of-sample trade returns at least −12% and lies within the test dates of some window |
| WalkForward.OutOfSampleChronology | src/backtest.py:218-271 | On a table with one row per code and date, every collected out-of-sample trade exits strictly after it entered |
| WalkForward.WinRateRange | src/backtest.py:285 | The win rate is a fraction in [0, 1]: zero exactly when no trade won, and one exactly when every trade won |
| WalkForward.AvgReturnBound | src/backtest.py:284 | A lower bound on every trade return bounds the average return |
| WalkForward.MaxDrawdownNonPositive | src/backtest.py:288-292 | The maximum drawdown of the cumulative return is never positive |
| WalkForward.MaxDrawdownBelowFalls | src/backtest.py:288-292 | The maximum drawdown is at least as deep as every fall of the cumulative return from an earlier to a later trade |
| WalkForward.MaxDrawdownIsAFall | src/backtest.py:288-292 | The maximum drawdown equals the fall between some earlier and later cumulative returns |
| WalkForward.CumSumRises | src/backtest.py:289 | When no return after the first is negative, the cumulative return never falls |
| WalkForward.MaxDrawdownZeroIff | src/backtest.py:288-292 | The drawdown is zero exactly when no trade after the first loses, so a losing first trade is never counted as a drawdown |
| WalkForward.AnnualiseSign | src/backtest.py:310-311 | With a positive holding period, the annualised return is avg×(252/hold) and has the sign of the average return |
| WalkForward.HoldAtLeastOneDay | src/backtest.py:308-309 | When each trade exits after entry, the mean holding period is at least one day, so the `avg_hold_days > 0` guard passes |
| WalkForward.AnnualReturnSign | src/backtest.py:306-311 | The annualised return is the average return times 252 over the mean holding days, and it has the sign of the average return |
| WalkForward.SummariseBounds | src/backtest.py:277-292 | The KPI of a non-empty log counts its trades and has a win rate in [0, 1]. When every trade returns at least some bound, so does the average, and the maximum drawdown is never positive |
| WalkForward.ReportSpec | src/backtest.py:270-311 | When any out-of-sample trades were collected, their KPI counts at least one trade, has a win rate in [0, 1] and an average return of at least −12%, and its drawdown is never positive. On a table with one row per code and date the mean holding period is at least one day, and the annualised return has the sign of the average return |
| WalkForward.AnalyzeSpec | src/backtest.py:179-322 | A walk-forward result has at least one trade, a win rate in [0, 1], an average return of at least −12%, and a non-positive maximum drawdown. On a table with one row per code and date its annualised return has the sign of its average return |
| WalkForward.AnalyzeNeedsTwoDates | src/backtest.py:196-206 | Fewer than two dates, and no more than the requested splits, give no result |
| Scan.LatestDate | src/scan.py:68 | The latest date is the date of some row and no row is later |
| Scan.OnDate | src/scan.py:82 | The latest slice holds exactly the panel's rows on that date |
| Scan.BreadthRange | src/scan.py:84-86 | Breadth is a fraction in [0, 1] |
| Scan.YoungStockDilutes | src/scan.py:78-86 | A stock without 75 closes counts toward the number of stocks but never as bullish, so it never raises breadth, and lowers it whenever some stock of the day is bullish |
| Scan.DecideGate | src/scan.py:82-105 | The reported breadth is the latest date's. The report is red exactly when breadth is below 40% |
| Scan.AnalyzeNoData | src/scan.py:64-66 | Only an empty panel gives no report |
| Scan.ShortlistSpec | src/scan.py:108-129 | At most 20 rows are listed, ascending in dip ratio, each a row of the day with an entry signal at 0.97 and a dip ratio below 0.97. With at most 20 candidates all are listed |
| Scan.ShortlistRanksFirst | src/scan.py:122-129 | No candidate cut by the 20-row limit ranks better than a listed one |
| Scan.DecideCandidates | src/scan.py:82-129 | On a green day every listed candidate is a row of the panel on its latest date with an entry signal |
| Evaluate.WindowSpec | src/evaluate.py:124-136 | The evaluation window holds at most `eval_days` of the code's bars, each strictly after the signal date. It is empty exactly when no such bar exists or no days are asked for, and full when enough exist |
| Evaluate.WindowIsFirst | src/evaluate.py:77-136 | On a price table ordered by code and date, the window is the first `eval_days` bars after the signal: it is in date order, and no later bar of the code dated before the window's last bar is left out |
| Evaluate.WindowStart | src/evaluate.py:136-150 | A non-empty window starts at the first bar of the table that is a later bar of the signal's code |
| Evaluate.MeasureMissing | src/evaluate.py:124-150 | Metrics are missing exactly when no days are asked for, the code has no bar after the signal date, or the signal price is not positive and the first such bar opens at 0. Otherwise the price evaluated is the close of a bar of the code after the signal date |
| Evaluate.BasePositive | src/evaluate.py:148-150 | With positive opens, a non-empty window has a positive reference price |
| Evaluate.MeasureOrdered | src/evaluate.py:153-160 | For sane bars (low ≤ close ≤ high) and a positive reference, worst loss ≤ return ≤ best gain |
| Evaluate.Performance | src/evaluate.py:117-170 | One result per signal, in input order, each carrying its signal |
| Evaluate.ValidReturnsSpec | src/evaluate.py:196-200 | A verdict group has no valid return exactly when each of its signals lacks metrics |
| Evaluate.RateRange | src/evaluate.py:200-218 | Every rate is a percentage in [0, 100]. There is none exactly when the group has no signal with metrics |
| Evaluate.SafeVerdictSpec | src/evaluate.py:325 | The sanitised verdict has the same length, contains no `/`, `\` or `:`, and keeps every other character in place |
| Evaluate.SheetDateSpec | src/evaluate.py:367-378 | For a 16-character `Signals_` title the date part is its last 8 characters. The one exception is `Signals_Signals_`, whose date part is empty |
| Evaluate.SheetDatesCount | src/evaluate.py:367-378 | Exactly the titles passing the filter are imported, in workbook order: a passing title contributes its date part at the position given by the number of passing titles before it, and every imported date is the date part of a passing title |
| News.FirstKeywordSpec | src/news_analyzer.py:109-116 | The keyword recorded for an item is the earliest in the list that occurs in it. None is recorded exactly when no keyword occurs |
| News.HitsSpec | src/news_analyzer.py:103-116 | Every hit names a killer keyword occurring in some item with that title, the first keyword that item holds. There are no hits exactly when no item mentions any keyword. The first hit comes from the earliest item holding a keyword and names that item's first keyword |
| News.ShortenSpec | src/news_analyzer.py:162 | A title of at most 50 characters is kept. A longer one becomes its first 50 characters followed by `...` |
| News.AnalyzeTable | src/news_analyzer.py:156-187 | The stock is rejected exactly when there are hits, naming the first hit's keyword and shortened title. A title is reported only on rejection. Otherwise the stock is watched exactly when the market is above −1% and the stock fell 3% or more. In a market down 2% or more with such a fall it is entered as a sector sell-off |
| News.SmallDropNeverWatched | src/news_analyzer.py:167-187 | A stock that fell less than 3% is never watched. Without news it is entered as a normal dip |
| News.CleanNewsNotRejected | src/news_analyzer.py:103-163 | Results mentioning no killer keyword never reject |
| News.BatchSpec | src/news_analyzer.py:200-215 | One result per signal, in order, each with its code. Each equals the analysis of that signal alone against the same index move |
| News.BatchAppend | src/news_analyzer.py:204-215 | Analysing two signal lists one after the other equals analysing the joined list |
| Ticker.ToTickerSpec | src/update_yfinance.py:38-43 | The ticker ends in `.T`. The rest is the code with its last character dropped for a five-character code ending in `0`, and the whole code otherwise |
| Ticker.RoundTrip | src/update_yfinance.py:40-41 | For a five-character code ending in `0`, dropping `.T` and restoring the `0` recovers the code |
| Ticker.LongCodesDistinct | src/update_yfinance.py:40-41 | Distinct five-character codes ending in `0` get distinct tickers |
| Ticker.ShortAndLongCollide | src/update_yfinance.py:40-43 | A four-character code and the same code with a trailing `0` get the same ticker |
| Seqs.SortBy | src/backtest_portfolio.py:141 | `sort_values`: the result is ascending in the key and is a permutation of the input |
| Seqs.UniqueOfNonDecreasing | src/backtest_portfolio.py:71 | `unique()` over a date-sorted column yields strictly increasing dates |
| Text.ContainsIff | src/news_analyzer.py:110 | Python's `keyword in text` holds exactly when the keyword occurs at some position of the text |
| Text.ReplaceCharPointwise | src/evaluate.py:325 | Replacing one character by another with `str.replace` keeps the length, replaces every occurrence, and keeps every other character |

## Left out

- Database access, file output, the charts, Google Sheets and the Google
  Custom Search and Yahoo Finance calls are left out. The rows, the bars,
  the sheet titles and the search results are inputs to the model.
- The Nikkei move (`get_nikkei_change`) is a parameter of `News.Batch`.
- Progress bars and printed text are left out. The result objects are
  modelled, not their printed form.
- The search query is built from only the first five keywords. That query
  string is not modelled. Matching against all nine keywords is modelled.
- Each search returns at most `max_results` items. The model takes the
  result list as given, so that cap is not modelled.
- News.Analyze: the three non-news reasons carry the index move as a
  number, not the text formatted with one decimal place.
- `round(x, 2)` on the metrics and on the reported KPI numbers is not
  modelled. Evaluate.Rate counts the sign of the unrounded return, whereas
  the source counts the rounded one: a return in (0, 0.005) counts as a hit
  here but not there.
- Evaluate.Measure: a reference price of exactly 0 gives missing metrics.
  The source divides by zero there, which yields inf or NaN.
- The source's prices are floats; the model uses exact reals. Rounding,
  overflow, inf and NaN arithmetic are therefore not modelled.
- Several lemmas require positive prices (`PositiveCloses`,
  `PositiveRows`), because the source divides by entry prices and moving
  averages. Zero or negative prices are outside the model's guarantees.
- Sort order among equal keys is left unconstrained. Pandas' default sort
  is not stable, so the model only guarantees ascending keys and a
  permutation.
- The order of `groupby` keys is modelled as order of first appearance.
  Pandas sorts the keys instead. Trade lists may therefore be permuted,
  which leaves the KPIs unchanged except through tie order in the
  exit-date sort.
- The printed total return, the CAGR and the win count in
  `print_results` are left out. Only the drawdown is modelled.
- The `period` column of the out-of-sample trades is left out. So are the
  pass/fail prints in `calculate_kpi`: the 20% drawdown and 15% annual
  return checks.
- WalkForward.AnalyzeSpec promises only the sign of the annualised return,
  and only on a table with one row per code and date, where every trade
  exits after it entered. The source prints that figure but does not
  return it.
- `calculate_kpi` also returns the trade table itself, sorted by exit date
  (src/backtest.py:288, 316-322). The model returns only the four KPI
  numbers; the sorted order is used inside the drawdown computation.
- News.BatchSpec: models the search as one function of the company name.
  The source makes a fresh request for each signal
  (src/news_analyzer.py:154, 205-211), so two signals for the same name
  can see different items. A failed request logs a warning and yields no
  hits (src/news_analyzer.py:118-121); the model covers that case only as
  a search result with no items.
- Portfolio.RunStart: proves the first equity point positive, not that it
  equals the 3,000,000 starting capital. Positions bought that day are
  valued at the same close they were bought at, but proving the equality
  would also need the day's rows to hold one row per code.
- `strptime` validation of sheet dates is left out. The model only
  extracts the date text.
- `load_signals` and the month filter of the evaluation are left out,
  along with the per-verdict return statistics after the rates.
- Share quantities and the portfolio size are unbounded integers. The
  source's integers are Python ints, so no overflow is lost.
- Calendar dates are day numbers. `hold_days` is therefore the difference
  of day numbers, which matches `.dt.days` for whole-day timestamps.

## Behaviours worth knowing

Two behaviours worth knowing are proved as stated rather than
corrected:

- The walk-forward drawdown starts its running maximum at the first
  cumulative return, so a losing first trade never counts as drawdown
  (WalkForward.MaxDrawdownZeroIff).
- Ticker conversion maps `7203` and `72030` to the same ticker
  (Ticker.ShortAndLongCollide).

=== FILE: evaluate.dfy ===
/** The after-the-fact signal evaluation of src/evaluate.py: each recorded
    signal is scored over the first trading days that follow it
    (`calculate_performance`), the verdict groups get hit rates
    (`generate_report`), verdicts are made safe for chart file names
    (`plot_signal_charts`) and dated sheet titles are recognised
    (`import_from_sheets`). */
module Evaluate {
  import opened Wrappers
  import opened Seqs
  import opened Text
  import opened Indicators

  /** One row of the `signals` table, as far as the evaluation reads it. */
  datatype Signal = Signal(code: string, date: int, price: real, verdict: string)

  /** The metrics added to a signal, in percent; `evalPrice` is the close the
      return is measured at. */
  datatype Metrics = Metrics(returnPct: real, maxGain: real, maxLoss: real, evalPrice: real)

  /** A signal with its metrics, `None` where the source writes NaN. */
  datatype Evaluated = Evaluated(signal: Signal, metrics: Option<Metrics>)

  /** A bar of the signal's code dated strictly after the signal. */
  predicate Later(b: Bar, s: Signal)
  {
    b.code == s.code && b.date > s.date
  }

  /** The price query's `ORDER BY code, date`: the bars of each code are in
      date order. */
  predicate CodeOrdered(prices: seq<Bar>)
  {
    forall i, j :: 0 <= i < j < |prices| && prices[i].code == prices[j].code ==> prices[i].date <= prices[j].date
  }

  /** `code_prices[code_prices['date'] > signal_date].head(eval_days)`. */
  function Window(prices: seq<Bar>, s: Signal, days: nat): seq<Bar>
  {
    Take(Filter(prices, (b: Bar) => Later(b, s)), days)
  }

  /** The reference price: the recorded signal price, or the first open of
      the window when the recorded price is not positive. */
  function BasePrice(s: Signal, window: seq<Bar>): real
    requires |window| > 0
  {
    if s.price <= 0.0 then window[0].open else s.price
  }

  /** `(x - base) / base * 100`. */
  function Pct(x: real, base: real): real
    requires base != 0.0
  {
    (x - base) / base * 100.0
  }

  function Highs(bars: seq<Bar>): (hs: seq<real>)
    ensures |hs| == |bars| && forall k :: 0 <= k < |bars| ==> hs[k] == bars[k].high
  {
    seq(|bars|, k requires 0 <= k < |bars| => bars[k].high)
  }

  function Lows(bars: seq<Bar>): (ls: seq<real>)
    ensures |ls| == |bars| && forall k :: 0 <= k < |bars| ==> ls[k] == bars[k].low
  {
    seq(|bars|, k requires 0 <= k < |bars| => bars[k].low)
  }

  /** The metrics of one signal. No window (the code has no later prices, or
      zero days are evaluated) gives none; so does a zero reference price,
      where the source divides by zero. */
  function Measure(prices: seq<Bar>, s: Signal, days: nat): Option<Metrics>
  {
    var w := Window(prices, s, days);
    if |w| == 0 then None
    else
      var base := BasePrice(s, w);
      if base == 0.0 then None
      else
        var last := w[|w| - 1].close;
        Some(Metrics(Pct(last, base), Pct(MaxOf(Highs(w)), base), Pct(MinOf(Lows(w)), base), last))
  }

  /** The window holds the code's bars strictly after the signal date, at
      most `days` of them, and exactly `days` when that many exist. */
  lemma WindowSpec(prices: seq<Bar>, s: Signal, days: nat)
    ensures var w := Window(prices, s, days);
      && |w| <= days
      && (forall k :: 0 <= k < |w| ==> w[k] in prices && w[k].code == s.code && w[k].date > s.date)
      && (|w| == 0 <==> days == 0 || forall k :: 0 <= k < |prices| ==> !Later(prices[k], s))
      && (|Filter(prices, (b: Bar) => Later(b, s))| >= days ==> |w| == days)
  {
    var f := Filter(prices, (b: Bar) => Later(b, s));
    var w := Window(prices, s, days);
    if days > 0 && |f| > 0 {
      assert w[0] == f[0];
    }
    if exists k :: 0 <= k < |prices| && Later(prices[k], s) {
      var k :| 0 <= k < |prices| && Later(prices[k], s);
      assert prices[k] in f;
    }
  }

  /** On a price table in `code, date` order the window is the FIRST
      `days` later bars of the code: it is in date order, and no later bar of
      the code dated before the window's last bar is left out, so the close
      evaluated is that of the `days`-th trading day after the signal. */
  lemma WindowIsFirst(prices: seq<Bar>, s: Signal, days: nat)
    requires CodeOrdered(prices)
    ensures var w := Window(prices, s, days);
      && (forall a, b :: 0 <= a < b < |w| ==> w[a].date <= w[b].date)
      && (forall k :: 0 <= k < |prices| && Later(prices[k], s) && |w| > 0 && prices[k].date < w[|w| - 1].date ==> prices[k] in w)
  {
    var p := (b: Bar) => Later(b, s);
    var key := (b: Bar) => b.date;
    var f := Filter(prices, p);
    var w := Window(prices, s, days);
    assert OrderedWhere(prices, p, key);
    FilterKeepsOrder(prices, p, key);
    assert forall a :: 0 <= a < |w| ==> w[a] == f[a];
    forall k | 0 <= k < |prices| && Later(prices[k], s) && |w| > 0 && prices[k].date < w[|w| - 1].date
      ensures prices[k] in w
    {
      assert prices[k] in f;
      var j :| 0 <= j < |f| && f[j] == prices[k];
      assert w[|w| - 1] == f[|w| - 1];
      assert key(f[j]) < key(f[|w| - 1]);
      assert j < |w|;
      assert w[j] == prices[k];
    }
  }

  /** `prices[k]` is the first bar of the table that is a later bar of the
      signal's code. */
  predicate FirstLater(prices: seq<Bar>, s: Signal, k: int)
  {
    0 <= k < |prices| && Later(prices[k], s) && forall j :: 0 <= j < k ==> !Later(prices[j], s)
  }

  /** A non-empty window starts at the first later bar. */
  lemma WindowStart(prices: seq<Bar>, s: Signal, days: nat) returns (k: nat)
    requires |Window(prices, s, days)| > 0
    ensures FirstLater(prices, s, k) && Window(prices, s, days)[0] == prices[k]
  {
    k := FilterFirst(prices, (b: Bar) => Later(b, s));
  }

  /** The window's last bar is a later bar of the code in the table. */
  lemma WindowEnd(prices: seq<Bar>, s: Signal, days: nat) returns (k: nat)
    requires |Window(prices, s, days)| > 0
    ensures k < |prices| && Later(prices[k], s)
    ensures prices[k] == Window(prices, s, days)[|Window(prices, s, days)| - 1]
  {
    var f := Filter(prices, (b: Bar) => Later(b, s));
    var w := Window(prices, s, days);
    assert w[|w| - 1] == f[|w| - 1];
    assert f[|w| - 1] in prices;
    k :| 0 <= k < |prices| && prices[k] == f[|w| - 1];
  }

  /** Metrics are missing exactly when no days are evaluated, the code has
      no bar after the signal date, or the recorded price is not positive and
      the first such bar opens at 0 (the source divides by that open). The
      close evaluated is that of a later bar of the code. */
  lemma MeasureMissing(prices: seq<Bar>, s: Signal, days: nat)
    ensures Measure(prices, s, days).None? <==>
      || days == 0
      || (forall k :: 0 <= k < |prices| ==> !Later(prices[k], s))
      || (s.price <= 0.0 && exists k :: FirstLater(prices, s, k) && prices[k].open == 0.0)
    ensures Measure(prices, s, days).Some? ==>
      exists k :: 0 <= k < |prices| && Later(prices[k], s) && prices[k].close == Measure(prices, s, days).value.evalPrice
  {
    var w := Window(prices, s, days);
    WindowSpec(prices, s, days);
    if |w| > 0 {
      var k0 := WindowStart(prices, s, days);
      assert BasePrice(s, w) == if s.price <= 0.0 then prices[k0].open else s.price;
      if exists k :: FirstLater(prices, s, k) && prices[k].open == 0.0 {
        var k :| FirstLater(prices, s, k) && prices[k].open == 0.0;
        assert k == k0;
      }
      var k1 := WindowEnd(prices, s, days);
    }
  }

  /** A bar whose high is at least its close and whose close is at least its low. */
  predicate SaneBar(b: Bar)
  {
    b.low <= b.close <= b.high
  }

  lemma PctMono(x: real, y: real, base: real)
    requires x <= y && base > 0.0
    ensures Pct(x, base) <= Pct(y, base)
  {
    var d := y - x;
    assert (y - base) == (x - base) + d;
    assert (y - base) / base == (x - base) / base + d / base;
  }

  /** With a positive reference price and sane bars, the return lies between
      the worst fall and the best rise over the window, so the maximum gain
      is at least the maximum loss. */
  lemma MeasureOrdered(prices: seq<Bar>, s: Signal, days: nat)
    requires forall k :: 0 <= k < |prices| ==> SaneBar(prices[k])
    requires Measure(prices, s, days).Some?
    requires BasePrice(s, Window(prices, s, days)) > 0.0
    ensures var m := Measure(prices, s, days).value;
      m.maxLoss <= m.returnPct <= m.maxGain
  {
    var w := Window(prices, s, days);
    WindowSpec(prices, s, days);
    var base := BasePrice(s, w);
    var last := w[|w| - 1];
    assert SaneBar(last);
    assert Highs(w)[|w| - 1] <= MaxOf(Highs(w));
    assert MinOf(Lows(w)) <= Lows(w)[|w| - 1];
    PctMono(MinOf(Lows(w)), last.close, base);
    PctMono(last.close, MaxOf(Highs(w)), base);
  }

  /** A positive recorded price is the reference; otherwise, with positive
      opens, the first open is, and either way it is positive. */
  lemma BasePositive(prices: seq<Bar>, s: Signal, days: nat)
    requires forall k :: 0 <= k < |prices| ==> prices[k].open > 0.0
    requires |Window(prices, s, days)| > 0
    ensures BasePrice(s, Window(prices, s, days)) > 0.0
  {
    WindowSpec(prices, s, days);
  }

  /** `calculate_performance`: one result per signal, in input order. */
  function Performance(signals: seq<Signal>, prices: seq<Bar>, days: nat): (r: seq<Evaluated>)
    ensures |r| == |signals|
    ensures forall i :: 0 <= i < |r| ==> r[i].signal == signals[i]
  {
    seq(|signals|, i requires 0 <= i < |signals| => Evaluated(signals[i], Measure(prices, signals[i], days)))
  }

  // ---------------------------------------------------------------- rates

  /** The returns of the results with verdict `v` and metrics present
      (`subset.dropna(subset=['return_pct'])`). */
  function ValidReturns(rs: seq<Evaluated>, v: string): (xs: seq<real>)
    ensures |xs| <= |rs|
  {
    if |rs| == 0 then []
    else
      var r := rs[|rs| - 1];
      var prev := ValidReturns(rs[..|rs| - 1], v);
      if r.signal.verdict == v && r.metrics.Some? then prev + [r.metrics.value.returnPct] else prev
  }

  function Positive(x: real): bool
  {
    x > 0.0
  }

  function Negative(x: real): bool
  {
    x < 0.0
  }

  /** The rate printed for a verdict group, in percent: the share of
      negative returns for REJECT (avoidance), of positive returns otherwise
      (hits); `None` when the group has no valid return. */
  function Rate(rs: seq<Evaluated>, v: string): Option<real>
  {
    var xs := ValidReturns(rs, v);
    if |xs| == 0 then None
    else if v == "REJECT" then Some(Count(xs, Negative) as real / |xs| as real * 100.0)
    else Some(Count(xs, Positive) as real / |xs| as real * 100.0)
  }

  /** A valid return of the group is one of a result with that verdict and metrics. */
  lemma {:induction false} ValidReturnsSpec(rs: seq<Evaluated>, v: string)
    ensures |ValidReturns(rs, v)| == 0 <==>
      forall i :: 0 <= i < |rs| ==> rs[i].signal.verdict != v || rs[i].metrics.None?
  {
    if |rs| > 0 {
      var init := rs[..|rs| - 1];
      ValidReturnsSpec(init, v);
      assert forall i :: 0 <= i < |init| ==> init[i] == rs[i];
    }
  }

  lemma Percentage(c: nat, n: nat)
    requires c <= n && n > 0
    ensures 0.0 <= c as real / n as real * 100.0 <= 100.0
  {
    var q := c as real / n as real;
    assert q * n as real == c as real;
  }

  /** A rate is a percentage in `[0, 100]`, present exactly when some
      result of the group has metrics. */
  lemma RateRange(rs: seq<Evaluated>, v: string)
    ensures Rate(rs, v).Some? ==> 0.0 <= Rate(rs, v).value <= 100.0
    ensures Rate(rs, v).None? <==>
      forall i :: 0 <= i < |rs| ==> rs[i].signal.verdict != v || rs[i].metrics.None?
  {
    var xs := ValidReturns(rs, v);
    ValidReturnsSpec(rs, v);
    if |xs| > 0 {
      CountBound(xs, Negative);
      CountBound(xs, Positive);
      Percentage(Count(xs, Negative), |xs|);
      Percentage(Count(xs, Positive), |xs|);
    }
  }

  // --------------------------------------------------------- file names

  /** `verdict.replace('/', '_').replace('\\', '_').replace(':', '_')`. */
  function SafeVerdict(v: string): string
  {
    ReplaceAll(ReplaceAll(ReplaceAll(v, "/", "_"), "\\", "_"), ":", "_")
  }

  /** The safe verdict has the same length, holds none of `/`, `\` and `:`,
      and keeps every other character in place. */
  lemma SafeVerdictSpec(v: string)
    ensures |SafeVerdict(v)| == |v|
    ensures forall i :: 0 <= i < |v| ==> SafeVerdict(v)[i] !in "/\\:"
    ensures forall i :: 0 <= i < |v| && v[i] !in "/\\:" ==> SafeVerdict(v)[i] == v[i]
  {
    var a := ReplaceAll(v, "/", "_");
    var b := ReplaceAll(a, "\\", "_");
    ReplaceCharPointwise(v, '/', '_');
    ReplaceCharPointwise(a, '\\', '_');
    ReplaceCharPointwise(b, ':', '_');
  }

  // ---------------------------------------------------------- sheet titles

  const SheetPrefix: string := "Signals_"

  /** `title.startswith('Signals_') and len(title) == 16`. */
  predicate IsSignalSheet(title: string)
  {
    StartsWith(title, SheetPrefix) && |title| == 16
  }

  /** `title.replace('Signals_', '')`. */
  function SheetDate(title: string): string
  {
    ReplaceAll(title, SheetPrefix, "")
  }

  /** For a signal sheet the date part is the 8 characters after the prefix,
      except for the title `Signals_Signals_`, whose second half is removed too. */
  lemma SheetDateSpec(title: string)
    requires IsSignalSheet(title)
    ensures title[8..] != SheetPrefix ==> SheetDate(title) == title[8..] && |SheetDate(title)| == 8
    ensures title[8..] == SheetPrefix ==> SheetDate(title) == ""
  {
    var rest := title[8..];
    assert title[..8] == SheetPrefix;
    assert SheetDate(title) == "" + ReplaceAll(rest, SheetPrefix, "");
    if rest != SheetPrefix {
      assert rest[..8] == rest;
      assert ReplaceAll(rest, SheetPrefix, "") == [rest[0]] + ReplaceAll(rest[1..], SheetPrefix, "");
      assert ReplaceAll(rest[1..], SheetPrefix, "") == rest[1..];
    } else {
      assert ReplaceAll(rest, SheetPrefix, "") == "" + ReplaceAll([], SheetPrefix, "");
    }
  }

  /** The sheets imported from a workbook, with their date parts, in order. */
  function SheetDates(titles: seq<string>): (r: seq<string>)
    ensures |r| <= |titles|
  {
    if |titles| == 0 then []
    else
      var prev := SheetDates(titles[..|titles| - 1]);
      var t := titles[|titles| - 1];
      if IsSignalSheet(t) then prev + [SheetDate(t)] else prev
  }

  /** `d` is the date part of some title that passes the sheet filter. */
  predicate FromSignalSheet(titles: seq<string>, d: string)
  {
    exists i :: 0 <= i < |titles| && IsSignalSheet(titles[i]) && SheetDate(titles[i]) == d
  }

  /** Exactly the signal sheets are imported, in workbook order: the title
      at position `i` that passes the filter contributes the date at the
      position given by the number of passing titles before it, and every
      date imported is the date part of a passing title. */
  lemma {:induction false} SheetDatesCount(titles: seq<string>)
    ensures |SheetDates(titles)| == Count(titles, IsSignalSheet)
    ensures forall i :: 0 <= i < |titles| && IsSignalSheet(titles[i]) ==>
      && Count(titles[..i], IsSignalSheet) < |SheetDates(titles)|
      && SheetDates(titles)[Count(titles[..i], IsSignalSheet)] == SheetDate(titles[i])
    ensures forall k :: 0 <= k < |SheetDates(titles)| ==> FromSignalSheet(titles, SheetDates(titles)[k])
  {
    if |titles| > 0 {
      var init := titles[..|titles| - 1];
      SheetDatesCount(init);
      var prev := SheetDates(init);
      var r := SheetDates(titles);
      forall k | 0 <= k < |r| ensures FromSignalSheet(titles, r[k]) {
        if k < |prev| {
          var i :| 0 <= i < |init| && IsSignalSheet(init[i]) && SheetDate(init[i]) == prev[k];
          assert titles[i] == init[i];
        } else {
          assert titles[|titles| - 1] == titles[|init|];
        }
      }
      forall i | 0 <= i < |titles| && IsSignalSheet(titles[i])
        ensures Count(titles[..i], IsSignalSheet) < |r| && r[Count(titles[..i], IsSignalSheet)] == SheetDate(titles[i])
      {
        if i < |init| {
          assert titles[..i] == init[..i];
          assert init[i] == titles[i];
          assert r[Count(init[..i], IsSignalSheet)] == prev[Count(init[..i], IsSignalSheet)];
        } else {
          assert titles[..i] == init;
        }
      }
    }
  }
}

=== FILE: indicators.dfy ===
/** Per-instrument moving averages and the signal columns derived from them:
    `calculate_signals` in src/backtest_portfolio.py, `calculate_indicators`
    in src/backtest.py and the indicator block of src/scan.py. */
module Indicators {
  import opened Wrappers
  import opened Seqs

  /** One daily price record. Dates are day numbers; the source parses
      ISO dates and only compares and subtracts them. */
  datatype Bar = Bar(date: int, code: string, open: real, high: real, low: real, close: real)

  /** A bar with its two moving averages; `None` is pandas' NaN (fewer than
      `window` bars of that code so far). */
  datatype Row = Row(bar: Bar, maShort: Option<real>, maLong: Option<real>)

  const ShortWindow: nat := 25
  const LongWindow: nat := 75

  /** Every close in the panel is positive (the source divides by closes). */
  predicate PositiveCloses(bars: seq<Bar>)
  {
    forall i :: 0 <= i < |bars| ==> bars[i].close > 0.0
  }

  /** The close column of one code, in panel order (`groupby('code')['close']`). */
  function CodeCloses(bars: seq<Bar>, code: string): (r: seq<real>)
    ensures |r| <= |bars|
  {
    if |bars| == 0 then []
    else
      var rest := CodeCloses(bars[..|bars| - 1], code);
      if bars[|bars| - 1].code == code then rest + [bars[|bars| - 1].close] else rest
  }

  /** `rolling(window).mean()` evaluated at the end of `xs`: the mean of the
      last `window` values, undefined while fewer than `window` exist. */
  function RollingMean(xs: seq<real>, window: nat): (r: Option<real>)
    requires window > 0
    ensures r.Some? <==> |xs| >= window
    ensures r.Some? ==> MinOf(xs[|xs| - window..]) <= r.value <= MaxOf(xs[|xs| - window..])
  {
    if |xs| < window then None
    else
      var w := xs[|xs| - window..];
      MeanBounds(w, MinOf(w), MaxOf(w));
      Some(Mean(w))
  }

  /** Moving average of bar `k`'s code, over that code's bars up to and including `k`. */
  function MovingAverage(bars: seq<Bar>, k: nat, window: nat): Option<real>
    requires k < |bars| && window > 0
  {
    RollingMean(CodeCloses(bars[..k + 1], bars[k].code), window)
  }

  /** Adds `ma_short` (25 bars) and `ma_long` (75 bars) to every bar. */
  function Annotate(bars: seq<Bar>): (rows: seq<Row>)
    ensures |rows| == |bars|
    ensures forall k :: 0 <= k < |bars| ==> rows[k].bar == bars[k]
    ensures forall k :: 0 <= k < |bars| ==>
      (rows[k].maLong.Some? <==> |CodeCloses(bars[..k + 1], bars[k].code)| >= LongWindow)
    ensures forall k :: 0 <= k < |bars| ==>
      (rows[k].maShort.Some? <==> |CodeCloses(bars[..k + 1], bars[k].code)| >= ShortWindow)
  {
    seq(|bars|, k requires 0 <= k < |bars| =>
      Row(bars[k], MovingAverage(bars, k, ShortWindow), MovingAverage(bars, k, LongWindow)))
  }

  /** Every close is positive (entries and returns divide by closes). */
  predicate PositiveRows(rows: seq<Row>)
  {
    forall i :: 0 <= i < |rows| ==> rows[i].bar.close > 0.0
  }

  /** The price table's key: no two rows share a code and a date. */
  predicate OneRowPerDay(rows: seq<Row>)
  {
    forall i, j :: 0 <= i < j < |rows| ==>
      rows[i].bar.code != rows[j].bar.code || rows[i].bar.date != rows[j].bar.date
  }

  /** The date column of the panel. */
  function DateColumn(rows: seq<Row>): (ds: seq<int>)
    ensures |ds| == |rows| && forall k :: 0 <= k < |rows| ==> ds[k] == rows[k].bar.date
  {
    seq(|rows|, k requires 0 <= k < |rows| => rows[k].bar.date)
  }

  /** The code column of the panel. */
  function CodeColumn(rows: seq<Row>): (cs: seq<string>)
    ensures |cs| == |rows| && forall k :: 0 <= k < |rows| ==> cs[k] == rows[k].bar.code
  {
    seq(|rows|, k requires 0 <= k < |rows| => rows[k].bar.code)
  }

  /** Strictly ascending. */
  predicate Increasing(ds: seq<int>)
  {
    forall i, j :: 0 <= i < j < |ds| ==> ds[i] < ds[j]
  }

  /** `gc_trend = ma_short > ma_long`; a comparison with NaN is false. */
  predicate GcTrend(r: Row)
  {
    r.maShort.Some? && r.maLong.Some? && r.maShort.value > r.maLong.value
  }

  /** `is_bullish = close > ma_long`; false while `ma_long` is undefined. */
  predicate IsBullish(r: Row)
  {
    r.maLong.Some? && r.bar.close > r.maLong.value
  }

  /** `entry_signal = gc_trend & (close < ma_short * dip)`. */
  predicate EntrySignal(r: Row, dip: real)
  {
    GcTrend(r) && r.bar.close < r.maShort.value * dip
  }

  /** `priority_score = close / ma_short` (also `dip_ratio` in the scanner);
      undefined with `ma_short`. A zero average (pandas gives infinity) is
      also `None`; it cannot occur with positive closes. */
  function PriorityScore(r: Row): (s: Option<real>)
    ensures s.Some? <==> r.maShort.Some? && r.maShort.value != 0.0
    ensures s.Some? && r.maShort.value > 0.0 ==> (s.value < 1.0 <==> r.bar.close < r.maShort.value)
  {
    if r.maShort.Some? && r.maShort.value != 0.0 then Some(r.bar.close / r.maShort.value) else None
  }

  /** Sort key for ranking candidates by priority score. */
  function RankKey(r: Row): real
  {
    PriorityScore(r).GetOr(0.0)
  }

  /** With a positive close and a positive threshold an entry signal implies a
      positive short average, so its priority score is defined and equals
      `close / ma_short`, which is below the threshold. */
  lemma EntrySignalHasScore(r: Row, dip: real)
    requires EntrySignal(r, dip) && r.bar.close > 0.0 && dip > 0.0
    ensures r.maShort.value > 0.0
    ensures PriorityScore(r) == Some(r.bar.close / r.maShort.value)
    ensures RankKey(r) < dip
  {
    var m := r.maShort.value;
    assert m * dip > 0.0;
    assert r.bar.close / m < (m * dip) / m;
  }

  /** Bars of other codes do not enter a code's close column. */
  lemma {:induction false} CodeClosesAppend(a: seq<Bar>, b: seq<Bar>, code: string)
    ensures CodeCloses(a + b, code) == CodeCloses(a, code) + CodeCloses(b, code)
    decreases |b|
  {
    if |b| == 0 {
      assert a + b == a;
    } else {
      var b' := b[..|b| - 1];
      assert (a + b)[..|a + b| - 1] == a + b';
      CodeClosesAppend(a, b', code);
    }
  }

  /** The rolling window never spans two codes: inserting a bar of another
      code before bar `k` leaves bar `k`'s moving average unchanged. */
  lemma MovingAverageIgnoresOtherCodes(xs: seq<Bar>, o: Bar, ys: seq<Bar>, j: nat, window: nat)
    requires j < |ys| && window > 0 && o.code != ys[j].code
    ensures MovingAverage(xs + [o] + ys, |xs| + 1 + j, window)
         == MovingAverage(xs + ys, |xs| + j, window)
  {
    var c := ys[j].code;
    var p := ys[..j + 1];
    var a := xs + [o] + ys;
    var b := xs + ys;
    assert a[|xs| + 1 + j] == ys[j] && b[|xs| + j] == ys[j];
    assert a[..|xs| + 1 + j + 1] == (xs + [o]) + p;
    assert b[..|xs| + j + 1] == xs + p;
    CodeClosesAppend(xs + [o], p, c);
    CodeClosesAppend(xs, [o], c);
    CodeClosesAppend(xs, p, c);
    assert CodeCloses([o], c) == [] by {
      assert [o][..0] == [];
    }
    assert CodeCloses(a[..|xs| + 1 + j + 1], c) == CodeCloses(b[..|xs| + j + 1], c);
  }

  /** With positive closes every defined moving average is positive. */
  lemma {:induction false} CodeClosesPositive(bars: seq<Bar>, code: string)
    requires PositiveCloses(bars)
    ensures forall i :: 0 <= i < |CodeCloses(bars, code)| ==> CodeCloses(bars, code)[i] > 0.0
  {
    if |bars| > 0 {
      CodeClosesPositive(bars[..|bars| - 1], code);
    }
  }

  lemma MovingAveragePositive(bars: seq<Bar>, k: nat, window: nat)
    requires k < |bars| && window > 0 && PositiveCloses(bars)
    ensures MovingAverage(bars, k, window).Some? ==> MovingAverage(bars, k, window).value > 0.0
  {
    var xs := CodeCloses(bars[..k + 1], bars[k].code);
    CodeClosesPositive(bars[..k + 1], bars[k].code);
    if |xs| >= window {
      var w := xs[|xs| - window..];
      assert MinOf(w) in w;
    }
  }

  /** An instrument with fewer than 75 bars so far has no `gc_trend` and so
      never produces an entry signal, whatever the threshold. */
  lemma ShortHistoryNoSignal(bars: seq<Bar>, k: nat, dip: real)
    requires k < |bars|
    requires |CodeCloses(bars[..k + 1], bars[k].code)| < LongWindow
    ensures !GcTrend(Annotate(bars)[k])
    ensures !EntrySignal(Annotate(bars)[k], dip)
  {
  }
}

=== FILE: news.dfy ===
/** The entry decision of src/news_analyzer.py: a stock that fell is
    rejected when a recent news item names one of the killer keywords;
    otherwise the day's index move decides between a market-wide sell-off
    (enter), a stock-specific fall in a calm market (watch) and an ordinary
    pullback (enter). Search results and the index move are inputs. */
module News {
  import opened Wrappers
  import opened Text

  /** Keywords that mark bad news, in the order they are tried. */
  const KillerKeywords: seq<string> := [
    "下方修正", "減配", "不祥事", "ストップ安", "課徴金", "業績悪化", "赤字転落", "倒産", "粉飾"
  ]

  /** An index fall of 2% or more is a weak market. */
  const MarketDropThreshold: real := -2.0
  /** A stock fall of 3% or more is a dip. */
  const SectorDipThreshold: real := -3.0
  /** Above -1% the market counts as calm. */
  const CalmMarket: real := -1.0
  /** Longest news title reported unabridged. */
  const TitleLimit: nat := 50

  /** One search result. */
  datatype Item = Item(title: string, snippet: string)

  /** A search result that names a keyword. */
  datatype Hit = Hit(title: string, keyword: string)

  datatype Verdict = Entry | Watch | Reject

  /** Why the verdict was reached; the non-news reasons carry the index move
      their text prints. */
  datatype Reason =
    | NewsFound(keyword: string)
    | SectorSelloff(market: real)
    | IndividualDrop(market: real)
    | NormalDip(market: real)

  datatype Analysis = Analysis(verdict: Verdict, reason: Reason, newsHit: Option<string>)

  /** The text of the news reason: `News:<keyword>検出`. */
  function ReasonText(kw: string): string
  {
    "News:" + kw + "検出"
  }

  /** The first keyword of `kws` that occurs in `text`. */
  function FirstKeyword(text: string, kws: seq<string>): Option<string>
  {
    if |kws| == 0 then None
    else if Contains(text, kws[0]) then Some(kws[0])
    else FirstKeyword(text, kws[1..])
  }

  /** The keyword found is the earliest in the list that occurs; none is
      found exactly when no keyword occurs. */
  lemma {:induction false} FirstKeywordSpec(text: string, kws: seq<string>)
    ensures FirstKeyword(text, kws).None? <==> forall j :: 0 <= j < |kws| ==> !Contains(text, kws[j])
    ensures FirstKeyword(text, kws).Some? ==>
      exists i :: (0 <= i < |kws| && kws[i] == FirstKeyword(text, kws).value && Contains(text, kws[i])
        && forall j :: 0 <= j < i ==> !Contains(text, kws[j]))
  {
    if |kws| > 0 && !Contains(text, kws[0]) {
      FirstKeywordSpec(text, kws[1..]);
      var r := FirstKeyword(text, kws);
      if r.Some? {
        var i :| 0 <= i < |kws[1..]| && kws[1..][i] == r.value && Contains(text, kws[1..][i])
          && forall j :: 0 <= j < i ==> !Contains(text, kws[1..][j]);
        assert kws[i + 1] == r.value;
        forall j | 0 <= j < i + 1 ensures !Contains(text, kws[j]) {
          if j > 0 {
            assert kws[j] == kws[1..][j - 1];
          }
        }
      } else {
        forall j | 0 <= j < |kws| ensures !Contains(text, kws[j]) {
          if j > 0 {
            assert kws[j] == kws[1..][j - 1];
          }
        }
      }
    }
  }

  /** `title + " " + snippet`. */
  function ItemText(it: Item): string
  {
    it.title + " " + it.snippet
  }

  /** The keyword an item is reported for: the first killer keyword in its text. */
  function ItemKeyword(it: Item): Option<string>
  {
    FirstKeyword(ItemText(it), KillerKeywords)
  }

  /** The hits of a result page: at most one per item, for its first keyword. */
  function Hits(items: seq<Item>): (hs: seq<Hit>)
    ensures |hs| <= |items|
  {
    if |items| == 0 then []
    else
      var prev := Hits(items[..|items| - 1]);
      var it := items[|items| - 1];
      match ItemKeyword(it)
      case None => prev
      case Some(kw) => prev + [Hit(it.title, kw)]
  }

  /** Every hit is reported for the first keyword of an item with its title. */
  lemma {:induction false} HitsSound(items: seq<Item>)
    ensures forall k :: 0 <= k < |Hits(items)| ==>
      exists i :: 0 <= i < |items| && items[i].title == Hits(items)[k].title && ItemKeyword(items[i]) == Some(Hits(items)[k].keyword)
  {
    if |items| > 0 {
      var init := items[..|items| - 1];
      var it := items[|items| - 1];
      HitsSound(init);
      var prev := Hits(init);
      var hs := Hits(items);
      forall k | 0 <= k < |hs|
        ensures exists i :: 0 <= i < |items| && items[i].title == hs[k].title && ItemKeyword(items[i]) == Some(hs[k].keyword)
      {
        if k < |prev| {
          assert hs[k] == prev[k];
          var i :| 0 <= i < |init| && init[i].title == prev[k].title && ItemKeyword(init[i]) == Some(prev[k].keyword);
          assert items[i] == init[i];
        } else {
          assert ItemKeyword(it).Some? && hs[k] == Hit(it.title, ItemKeyword(it).value);
          assert items[|items| - 1] == it;
        }
      }
    } else {
      assert |Hits(items)| == 0;
    }
  }

  /** There are no hits exactly when no item has a keyword. */
  lemma {:induction false} HitsNone(items: seq<Item>)
    ensures |Hits(items)| == 0 <==> forall i :: 0 <= i < |items| ==> ItemKeyword(items[i]).None?
  {
    if |items| > 0 {
      var init := items[..|items| - 1];
      HitsNone(init);
      assert forall i :: 0 <= i < |init| ==> init[i] == items[i];
    }
  }

  /** The first hit comes from the earliest item that has a keyword, and
      names that item's first keyword. */
  lemma {:induction false} HitsFirst(items: seq<Item>)
    ensures |Hits(items)| > 0 ==>
      exists i :: 0 <= i < |items| && items[i].title == Hits(items)[0].title
        && ItemKeyword(items[i]) == Some(Hits(items)[0].keyword)
        && forall j :: 0 <= j < i ==> ItemKeyword(items[j]).None?
  {
    if |items| > 0 {
      var init := items[..|items| - 1];
      HitsFirst(init);
      HitsNone(init);
      if |Hits(init)| > 0 {
        var i :| 0 <= i < |init| && init[i].title == Hits(init)[0].title
          && ItemKeyword(init[i]) == Some(Hits(init)[0].keyword)
          && forall j :: 0 <= j < i ==> ItemKeyword(init[j]).None?;
        assert items[i] == init[i];
        assert forall j :: 0 <= j < i ==> items[j] == init[j];
      } else {
        assert forall j :: 0 <= j < |init| ==> items[j] == init[j];
      }
    }
  }

  /** Hits, item by item: every hit is reported for the first keyword of an
      item with its title, a killer keyword the item's text holds; there are
      no hits exactly when no item mentions any keyword; and the first hit,
      the one a rejection names, comes from the earliest item with a keyword
      and names that item's first keyword. */
  lemma HitsSpec(items: seq<Item>)
    ensures forall k :: 0 <= k < |Hits(items)| ==>
      && Hits(items)[k].keyword in KillerKeywords
      && (exists i :: 0 <= i < |items| && items[i].title == Hits(items)[k].title
            && ItemKeyword(items[i]) == Some(Hits(items)[k].keyword)
            && Contains(ItemText(items[i]), Hits(items)[k].keyword))
    ensures |Hits(items)| == 0 <==>
      forall i, j :: 0 <= i < |items| && 0 <= j < |KillerKeywords| ==> !Contains(ItemText(items[i]), KillerKeywords[j])
    ensures |Hits(items)| > 0 ==>
      exists i :: 0 <= i < |items| && items[i].title == Hits(items)[0].title
        && ItemKeyword(items[i]) == Some(Hits(items)[0].keyword)
        && forall j :: 0 <= j < i ==> ItemKeyword(items[j]).None?
  {
    HitsSound(items);
    HitsNone(items);
    HitsFirst(items);
    var hs := Hits(items);
    forall k | 0 <= k < |hs|
      ensures hs[k].keyword in KillerKeywords
      ensures exists i :: (0 <= i < |items| && items[i].title == hs[k].title
        && ItemKeyword(items[i]) == Some(hs[k].keyword) && Contains(ItemText(items[i]), hs[k].keyword))
    {
      var i :| 0 <= i < |items| && items[i].title == hs[k].title && ItemKeyword(items[i]) == Some(hs[k].keyword);
      FirstKeywordSpec(ItemText(items[i]), KillerKeywords);
    }
    forall i | 0 <= i < |items|
      ensures ItemKeyword(items[i]).None? <==> forall j :: 0 <= j < |KillerKeywords| ==> !Contains(ItemText(items[i]), KillerKeywords[j])
    {
      FirstKeywordSpec(ItemText(items[i]), KillerKeywords);
    }
  }

  /** A title as reported: unchanged up to 50 characters, otherwise its first
      50 followed by `...`. */
  function Shorten(title: string): string
  {
    if |title| > TitleLimit then title[..TitleLimit] + "..." else title
  }

  lemma ShortenSpec(title: string)
    ensures |Shorten(title)| <= TitleLimit + 3
    ensures |title| <= TitleLimit ==> Shorten(title) == title
    ensures |title| > TitleLimit ==>
      && |Shorten(title)| == TitleLimit + 3
      && Shorten(title)[..TitleLimit] == title[..TitleLimit]
      && Shorten(title)[TitleLimit..] == "..."
  {
  }

  /** `analyze_stock(code, name, stock_drop, market_drop)` given the search
      results for the name. */
  function Analyze(items: seq<Item>, stockDrop: real, marketDrop: real): Analysis
  {
    var hits := Hits(items);
    if |hits| > 0 then Analysis(Reject, NewsFound(hits[0].keyword), Some(Shorten(hits[0].title)))
    else if marketDrop <= MarketDropThreshold && stockDrop <= SectorDipThreshold then
      Analysis(Entry, SectorSelloff(marketDrop), None)
    else if marketDrop > CalmMarket && stockDrop <= SectorDipThreshold then
      Analysis(Watch, IndividualDrop(marketDrop), None)
    else Analysis(Entry, NormalDip(marketDrop), None)
  }

  /** The decision table: a news hit rejects and names the first hit's
      keyword and title; without one, the stock is watched exactly when it
      fell 3% or more in a market above -1%, and entered in every other
      case; a news title is reported only on rejection. */
  lemma AnalyzeTable(items: seq<Item>, stockDrop: real, marketDrop: real)
    ensures var a := Analyze(items, stockDrop, marketDrop);
      && (a.verdict == Reject <==> |Hits(items)| > 0)
      && (a.newsHit.Some? <==> a.verdict == Reject)
      && (a.verdict == Reject ==>
            a.reason == NewsFound(Hits(items)[0].keyword) && a.newsHit == Some(Shorten(Hits(items)[0].title)))
      && (a.verdict != Reject ==>
            (a.verdict == Watch <==> marketDrop > CalmMarket && stockDrop <= SectorDipThreshold))
      && (a.verdict != Reject && marketDrop <= MarketDropThreshold && stockDrop <= SectorDipThreshold ==>
            a.verdict == Entry && a.reason == SectorSelloff(marketDrop))
  {
  }

  /** A stock that did not fall 3% is never watched; news or not, it is
      rejected or entered. */
  lemma SmallDropNeverWatched(items: seq<Item>, stockDrop: real, marketDrop: real)
    requires stockDrop > SectorDipThreshold
    ensures Analyze(items, stockDrop, marketDrop).verdict != Watch
    ensures |Hits(items)| == 0 ==> Analyze(items, stockDrop, marketDrop) == Analysis(Entry, NormalDip(marketDrop), None)
  {
  }

  /** A stock whose results mention no killer keyword is never rejected. */
  lemma CleanNewsNotRejected(items: seq<Item>, stockDrop: real, marketDrop: real)
    requires forall i, j :: 0 <= i < |items| && 0 <= j < |KillerKeywords| ==> !Contains(ItemText(items[i]), KillerKeywords[j])
    ensures Analyze(items, stockDrop, marketDrop).verdict != Reject
  {
    HitsSpec(items);
  }

  // ------------------------------------------------------------ the batch

  /** One input signal; missing `name` and `dip_pct` default to `''` and 0. */
  datatype Request = Request(code: string, name: Option<string>, dipPct: Option<real>)

  datatype Result = Result(code: string, analysis: Analysis)

  /** `batch_analyze(signals)` with the search results per name and one
      index move for the whole batch. */
  function Batch(signals: seq<Request>, search: string -> seq<Item>, marketDrop: real): seq<Result>
  {
    if |signals| == 0 then []
    else
      var s := signals[|signals| - 1];
      Batch(signals[..|signals| - 1], search, marketDrop)
        + [Result(s.code, Analyze(search(s.name.GetOr("")), s.dipPct.GetOr(0.0), marketDrop))]
  }

  /** One result per signal, in order: the i-th carries the i-th code and
      the analysis of that signal alone, against the same index move. */
  lemma {:induction false} BatchSpec(signals: seq<Request>, search: string -> seq<Item>, marketDrop: real)
    ensures |Batch(signals, search, marketDrop)| == |signals|
    ensures forall i :: 0 <= i < |signals| ==>
      Batch(signals, search, marketDrop)[i] == Batch([signals[i]], search, marketDrop)[0]
    ensures forall i :: 0 <= i < |signals| ==> Batch(signals, search, marketDrop)[i].code == signals[i].code
  {
    if |signals| > 0 {
      var init := signals[..|signals| - 1];
      BatchSpec(init, search, marketDrop);
      var r := Batch(signals, search, marketDrop);
      forall i | 0 <= i < |signals|
        ensures r[i] == Batch([signals[i]], search, marketDrop)[0] && r[i].code == signals[i].code
      {
        assert [signals[i]][..0] == [];
        if i < |init| {
          assert r[i] == Batch(init, search, marketDrop)[i];
          assert init[i] == signals[i];
        }
      }
    }
  }

  /** Batching is compositional: the results of two lists one after the
      other are the results of the joined list. */
  lemma {:induction false} BatchAppend(xs: seq<Request>, ys: seq<Request>, search: string -> seq<Item>, marketDrop: real)
    ensures Batch(xs + ys, search, marketDrop) == Batch(xs, search, marketDrop) + Batch(ys, search, marketDrop)
    decreases |ys|
  {
    if |ys| == 0 {
      assert xs + ys == xs;
    } else {
      var ys' := ys[..|ys| - 1];
      assert (xs + ys)[..|xs + ys| - 1] == xs + ys';
      BatchAppend(xs, ys', search, marketDrop);
    }
  }
}

=== FILE: portfolio.dfy ===
/** The portfolio day loop of src/backtest_portfolio.py (`run_simulation`):
    one shared cash pool, at most `MaxPositions` open positions, and for every
    trading date in order: exits, then entries, then one equity point. */
module Portfolio {
  import opened Wrappers
  import opened Seqs
  import opened Indicators

  const InitialCapital: real := 3000000.0
  const MaxPositions: int := 15
  const StopLossPct: real := 0.07
  const DipThreshold: real := 0.95
  const TrailingStopPct: real := 0.20

  datatype Position = Position(entryDate: int, entryPrice: real, highestPrice: real, qty: nat)

  /** One entry of the `positions` dict. The dict keeps insertion order, so
      it is modelled as a sequence of holdings with distinct codes. */
  datatype Holding = Holding(code: string, pos: Position)

  datatype State = State(cash: real, holdings: seq<Holding>)

  /** A closed position; the trade log's `profit` and `return` columns are
      `Profit` and `Return` below. */
  datatype Trade = Trade(code: string, entryDate: int, exitDate: int, entryPrice: real,
                         exitPrice: real, qty: nat)

  /** `revenue - entry_price * qty`, with `revenue = sell_price * qty`. */
  function Profit(t: Trade): real
  {
    t.exitPrice * t.qty as real - t.entryPrice * t.qty as real
  }

  /** `(sell_price - entry_price) / entry_price`. */
  function Return(t: Trade): real
    requires t.entryPrice > 0.0
  {
    (t.exitPrice - t.entryPrice) / t.entryPrice
  }

  datatype EquityPoint = EquityPoint(date: int, equity: real)

  const Initial: State := State(InitialCapital, [])

  function CodeSet(hs: seq<Holding>): set<string>
  {
    set i | 0 <= i < |hs| :: hs[i].code
  }

  predicate DistinctCodes(hs: seq<Holding>)
  {
    forall i, j :: 0 <= i < j < |hs| ==> hs[i].code != hs[j].code
  }

  /** What the day loop keeps true: cash is never negative, the position cap
      holds, codes are unique, and every position has a positive entry price,
      a high-water mark at or above it and a positive quantity. */
  predicate Valid(s: State)
  {
    && s.cash >= 0.0
    && |s.holdings| <= MaxPositions
    && DistinctCodes(s.holdings)
    && SanePositions(s.holdings)
  }

  /** A positive entry price, a high-water mark at or above it, a positive quantity. */
  predicate SanePosition(p: Position)
  {
    0.0 < p.entryPrice <= p.highestPrice && p.qty > 0
  }

  predicate SanePositions(hs: seq<Holding>)
  {
    forall i :: 0 <= i < |hs| ==> SanePosition(hs[i].pos)
  }

  /** `daily_data[daily_data['code'] == code].iloc[0]`, if there is such a row. */
  function FindRow(day: seq<Row>, code: string): (r: Option<Row>)
    ensures r.Some? ==> r.value in day && r.value.bar.code == code
    ensures r.None? <==> forall i :: 0 <= i < |day| ==> day[i].bar.code != code
  {
    if |day| == 0 then None
    else if day[0].bar.code == code then Some(day[0])
    else FindRow(day[1..], code)
  }

  /** The row found is the FIRST row of the day with that code, as `iloc[0]`
      takes it. */
  lemma {:induction false} FindRowFirst(day: seq<Row>, code: string) returns (i: nat)
    requires FindRow(day, code).Some?
    ensures i < |day| && day[i] == FindRow(day, code).value
    ensures forall j :: 0 <= j < i ==> day[j].bar.code != code
  {
    if day[0].bar.code == code {
      i := 0;
    } else {
      var k := FindRowFirst(day[1..], code);
      i := k + 1;
      assert forall j :: 1 <= j < i ==> day[j] == day[1..][j - 1];
    }
  }

  // ---------------------------------------------------------------- exits

  function StopPrice(p: Position): real
  {
    p.entryPrice * (1.0 - StopLossPct)
  }

  function TrailPrice(p: Position): real
  {
    p.highestPrice * (1.0 - TrailingStopPct)
  }

  /** The effective exit level: the trailing stop can only raise the hard stop. */
  function ExitTrigger(p: Position): (t: real)
    ensures t >= StopPrice(p) && t >= TrailPrice(p)
    ensures t == StopPrice(p) || t == TrailPrice(p)
  {
    Max(StopPrice(p), TrailPrice(p))
  }

  /** The high-water mark after seeing a bar whose high is `high`. */
  function RaiseHigh(p: Position, high: real): (q: Position)
    ensures q.highestPrice >= p.highestPrice && q.highestPrice >= high
    ensures q.highestPrice == p.highestPrice || q.highestPrice == high
    ensures q == p.(highestPrice := q.highestPrice)
  {
    if high > p.highestPrice then p.(highestPrice := high) else p
  }

  /** What the exit pass does with one holding. */
  datatype Outcome = Kept(h: Holding) | Closed(t: Trade)

  /** The fate computes no quotient itself; its precondition is what every
      held position has (callers keep it through SanePositions), and the
      trade it logs relies on it for Return. */
  function Fate(h: Holding, day: seq<Row>, date: int): Outcome
    requires h.pos.entryPrice > 0.0
  {
    match FindRow(day, h.code)
    case None => Kept(h)
    case Some(row) =>
      var p := RaiseHigh(h.pos, row.bar.high);
      var trigger := ExitTrigger(p);
      if row.bar.low <= trigger then
        Closed(Trade(h.code, p.entryDate, date, p.entryPrice, trigger, p.qty))
      else Kept(Holding(h.code, p))
  }

  /** A held code with no row today is carried over untouched. Otherwise the
      high-water mark is raised by today's high first, and the position is
      closed exactly when today's low reaches the exit trigger computed from
      the raised mark; the fill is at the trigger, never below the hard stop. */
  lemma FateSpec(h: Holding, day: seq<Row>, date: int)
    requires h.pos.entryPrice > 0.0
    ensures FindRow(day, h.code).None? ==> Fate(h, day, date) == Kept(h)
    ensures Fate(h, day, date).Kept? ==>
      var k := Fate(h, day, date).h;
      k.code == h.code && k.pos == h.pos.(highestPrice := k.pos.highestPrice)
      && k.pos.highestPrice >= h.pos.highestPrice
    ensures Fate(h, day, date).Closed? <==>
      FindRow(day, h.code).Some?
      && FindRow(day, h.code).value.bar.low <= ExitTrigger(RaiseHigh(h.pos, FindRow(day, h.code).value.bar.high))
    ensures Fate(h, day, date).Closed? ==>
      var t := Fate(h, day, date).t;
      && t.code == h.code && t.exitDate == date
      && t.entryDate == h.pos.entryDate && t.entryPrice == h.pos.entryPrice && t.qty == h.pos.qty
      && t.exitPrice == ExitTrigger(RaiseHigh(h.pos, FindRow(day, h.code).value.bar.high))
      && t.exitPrice >= StopPrice(h.pos)
  {
  }

  /** Total cash received for a list of closed trades. */
  function Proceeds(ts: seq<Trade>): real
  {
    if |ts| == 0 then 0.0 else ts[0].exitPrice * ts[0].qty as real + Proceeds(ts[1..])
  }

  datatype ExitPass = ExitPass(kept: seq<Holding>, trades: seq<Trade>)

  /** The exit pass over all holdings, in dict order: survivors keep their
      order, closed positions become trades in the same order. */
  function Exits(hs: seq<Holding>, day: seq<Row>, date: int): (r: ExitPass)
    requires forall i :: 0 <= i < |hs| ==> hs[i].pos.entryPrice > 0.0
    ensures |r.kept| + |r.trades| == |hs|
  {
    if |hs| == 0 then ExitPass([], [])
    else
      var rest := Exits(hs[1..], day, date);
      match Fate(hs[0], day, date)
      case Kept(h) => ExitPass([h] + rest.kept, rest.trades)
      case Closed(t) => ExitPass(rest.kept, [t] + rest.trades)
  }

  /** One unfolding of the exit pass: the first holding's outcome goes in front. */
  lemma ExitsHead(hs: seq<Holding>, day: seq<Row>, date: int)
    requires |hs| > 0 && forall i :: 0 <= i < |hs| ==> hs[i].pos.entryPrice > 0.0
    ensures var f := Fate(hs[0], day, date);
      var rest := Exits(hs[1..], day, date);
      && Exits(hs, day, date).kept == (if f.Kept? then [f.h] else []) + rest.kept
      && Exits(hs, day, date).trades == (if f.Closed? then [f.t] else []) + rest.trades
  {
    var f := Fate(hs[0], day, date);
    var rest := Exits(hs[1..], day, date);
    if f.Kept? {
      assert rest.trades == [] + rest.trades;
    } else {
      assert rest.kept == [] + rest.kept;
    }
  }

  /** A holding the exit rule keeps lands among the survivors. */
  lemma {:induction false} KeptLands(hs: seq<Holding>, day: seq<Row>, date: int, i: nat)
    requires forall j :: 0 <= j < |hs| ==> hs[j].pos.entryPrice > 0.0
    requires i < |hs| && Fate(hs[i], day, date).Kept?
    ensures Fate(hs[i], day, date).h in Exits(hs, day, date).kept
    decreases |hs|
  {
    ExitsHead(hs, day, date);
    if i > 0 {
      assert hs[i] == hs[1..][i - 1];
      KeptLands(hs[1..], day, date, i - 1);
    }
  }

  /** The holding a survivor comes from. */
  lemma {:induction false} KeptSource(hs: seq<Holding>, day: seq<Row>, date: int, k: nat) returns (i: nat)
    requires forall j :: 0 <= j < |hs| ==> hs[j].pos.entryPrice > 0.0
    requires k < |Exits(hs, day, date).kept|
    ensures i < |hs| && Fate(hs[i], day, date) == Kept(Exits(hs, day, date).kept[k])
    decreases |hs|
  {
    ExitsHead(hs, day, date);
    var f := Fate(hs[0], day, date);
    var rest := Exits(hs[1..], day, date).kept;
    if f.Kept? && k == 0 {
      i := 0;
    } else {
      var k' := if f.Kept? then k - 1 else k;
      assert Exits(hs, day, date).kept[k] == rest[k'];
      var j := KeptSource(hs[1..], day, date, k');
      i := j + 1;
      assert hs[i] == hs[1..][j];
    }
  }

  /** Some holding's exit rule has outcome `f`. */
  predicate FateOf(hs: seq<Holding>, day: seq<Row>, date: int, f: Outcome)
    requires forall i :: 0 <= i < |hs| ==> hs[i].pos.entryPrice > 0.0
  {
    exists i :: 0 <= i < |hs| && Fate(hs[i], day, date) == f
  }

  /** Every surviving holding lands among the survivors, and every survivor
      is the outcome of some holding. */
  lemma ExitsKeptOrigin(hs: seq<Holding>, day: seq<Row>, date: int)
    requires forall i :: 0 <= i < |hs| ==> hs[i].pos.entryPrice > 0.0
    ensures forall i :: 0 <= i < |hs| && Fate(hs[i], day, date).Kept? ==> Fate(hs[i], day, date).h in Exits(hs, day, date).kept
    ensures forall k :: 0 <= k < |Exits(hs, day, date).kept| ==> FateOf(hs, day, date, Kept(Exits(hs, day, date).kept[k]))
  {
    var kept := Exits(hs, day, date).kept;
    forall i | 0 <= i < |hs| && Fate(hs[i], day, date).Kept? ensures Fate(hs[i], day, date).h in kept {
      KeptLands(hs, day, date, i);
    }
    forall k | 0 <= k < |kept| ensures FateOf(hs, day, date, Kept(kept[k])) {
      var i := KeptSource(hs, day, date, k);
      assert 0 <= i < |hs| && Fate(hs[i], day, date) == Kept(kept[k]);
    }
  }

  /** A holding the exit rule closes lands among the trades. */
  lemma {:induction false} ClosedLands(hs: seq<Holding>, day: seq<Row>, date: int, i: nat)
    requires forall j :: 0 <= j < |hs| ==> hs[j].pos.entryPrice > 0.0
    requires i < |hs| && Fate(hs[i], day, date).Closed?
    ensures Fate(hs[i], day, date).t in Exits(hs, day, date).trades
    decreases |hs|
  {
    ExitsHead(hs, day, date);
    if i > 0 {
      assert hs[i] == hs[1..][i - 1];
      ClosedLands(hs[1..], day, date, i - 1);
    }
  }

  /** The holding a trade comes from. */
  lemma {:induction false} TradeSource(hs: seq<Holding>, day: seq<Row>, date: int, k: nat) returns (i: nat)
    requires forall j :: 0 <= j < |hs| ==> hs[j].pos.entryPrice > 0.0
    requires k < |Exits(hs, day, date).trades|
    ensures i < |hs| && Fate(hs[i], day, date) == Closed(Exits(hs, day, date).trades[k])
    decreases |hs|
  {
    ExitsHead(hs, day, date);
    var f := Fate(hs[0], day, date);
    var rest := Exits(hs[1..], day, date).trades;
    if f.Closed? && k == 0 {
      i := 0;
    } else {
      var k' := if f.Closed? then k - 1 else k;
      assert Exits(hs, day, date).trades[k] == rest[k'];
      var j := TradeSource(hs[1..], day, date, k');
      i := j + 1;
      assert hs[i] == hs[1..][j];
    }
  }

  /** Every closed holding lands among the trades, and every trade is the
      outcome of some holding. */
  lemma ExitsTradeOrigin(hs: seq<Holding>, day: seq<Row>, date: int)
    requires forall i :: 0 <= i < |hs| ==> hs[i].pos.entryPrice > 0.0
    ensures forall i :: 0 <= i < |hs| && Fate(hs[i], day, date).Closed? ==> Fate(hs[i], day, date).t in Exits(hs, day, date).trades
    ensures forall k :: 0 <= k < |Exits(hs, day, date).trades| ==> FateOf(hs, day, date, Closed(Exits(hs, day, date).trades[k]))
  {
    var trades := Exits(hs, day, date).trades;
    forall i | 0 <= i < |hs| && Fate(hs[i], day, date).Closed? ensures Fate(hs[i], day, date).t in trades {
      ClosedLands(hs, day, date, i);
    }
    forall k | 0 <= k < |trades| ensures FateOf(hs, day, date, Closed(trades[k])) {
      var i := TradeSource(hs, day, date, k);
      assert 0 <= i < |hs| && Fate(hs[i], day, date) == Closed(trades[k]);
    }
  }

  /** The exit pass keeps positions sane: every survivor still has a positive
      entry price and quantity and a high-water mark at least its entry
      price. (That a survivor differs from its old self only by a raised
      mark is FateSpec and ExitsKeptOrigin.) */
  lemma {:induction false} ExitsKeepSane(hs: seq<Holding>, day: seq<Row>, date: int)
    requires SanePositions(hs)
    ensures SanePositions(Exits(hs, day, date).kept)
  {
    if |hs| > 0 {
      ExitsKeepSane(hs[1..], day, date);
      FateSpec(hs[0], day, date);
    }
  }

  /** Every trade of the exit pass is dated today and loses at most the stop-loss fraction. */
  lemma {:induction false} ExitsTradesBounded(hs: seq<Holding>, day: seq<Row>, date: int)
    requires SanePositions(hs)
    ensures forall k :: 0 <= k < |Exits(hs, day, date).trades| ==> SoundTrade(Exits(hs, day, date).trades[k], date)
  {
    if |hs| > 0 {
      ExitsTradesBounded(hs[1..], day, date);
      FateSpec(hs[0], day, date);
      var f := Fate(hs[0], day, date);
      if f.Closed? {
        StopBound(f.t);
      }
    }
  }

  /** What every closed trade satisfies: it is dated `date`, has a positive
      entry and quantity, fills at or above the hard stop and so returns at
      least `-StopLossPct`. */
  predicate SoundTrade(t: Trade, date: int)
  {
    && t.exitDate == date
    && t.entryPrice > 0.0
    && t.qty > 0
    && t.exitPrice >= t.entryPrice * (1.0 - StopLossPct)
    && Return(t) >= -StopLossPct
  }

  lemma StopBound(t: Trade)
    requires t.entryPrice > 0.0 && t.exitPrice >= t.entryPrice * (1.0 - StopLossPct)
    ensures Return(t) >= -StopLossPct
  {
    var entry, exit := t.entryPrice, t.exitPrice;
    assert exit - entry >= -StopLossPct * entry;
    assert (-StopLossPct * entry) / entry == -StopLossPct;
  }

  /** Survivors keep their codes, so the exit pass cannot create a duplicate key. */
  lemma {:induction false} ExitsKeepCodes(hs: seq<Holding>, day: seq<Row>, date: int)
    requires forall i :: 0 <= i < |hs| ==> hs[i].pos.entryPrice > 0.0
    ensures CodeSet(Exits(hs, day, date).kept) <= CodeSet(hs)
    ensures DistinctCodes(hs) ==> DistinctCodes(Exits(hs, day, date).kept)
  {
    if |hs| > 0 {
      var rest := Exits(hs[1..], day, date).kept;
      var kept := Exits(hs, day, date).kept;
      ExitsKeepCodes(hs[1..], day, date);
      CodeSetCons(hs[0], hs[1..]);
      assert hs == [hs[0]] + hs[1..];
      KeptHead(hs, day, date);
      if kept != rest {
        var h := kept[0];
        CodeSetCons(h, rest);
      }
    }
  }

  /** One step of the exit pass: the survivors are those of the tail, with
      the head's updated holding in front if it survives. */
  lemma KeptHead(hs: seq<Holding>, day: seq<Row>, date: int)
    requires |hs| > 0 && forall i :: 0 <= i < |hs| ==> hs[i].pos.entryPrice > 0.0
    ensures var rest := Exits(hs[1..], day, date).kept;
      var kept := Exits(hs, day, date).kept;
      kept == rest || (kept == [kept[0]] + rest && kept[0].code == hs[0].code)
  {
    FateSpec(hs[0], day, date);
  }

  // -------------------------------------------------------------- entries

  /** Today's entry-signal rows whose code is not held. */
  function Candidates(day: seq<Row>, hs: seq<Holding>): seq<Row>
  {
    Filter(day, (r: Row) => EntrySignal(r, DipThreshold) && r.bar.code !in CodeSet(hs))
  }

  /** `candidates.sort_values('priority_score').head(open_slots)`. */
  function Targets(day: seq<Row>, hs: seq<Holding>, slots: nat): seq<Row>
  {
    Take(SortBy(Candidates(day, hs), RankKey), slots)
  }

  /** `int(allocation // price)`. */
  function Quantity(allocation: real, price: real): int
    requires price > 0.0
  {
    (allocation / price).Floor
  }

  lemma CodeSetCons(h: Holding, t: seq<Holding>)
    ensures CodeSet([h] + t) == {h.code} + CodeSet(t)
  {
    var l := [h] + t;
    forall c | c in CodeSet(l) ensures c in {h.code} + CodeSet(t) {
      var i :| 0 <= i < |l| && l[i].code == c;
      if i > 0 {
        assert t[i - 1].code == c;
      }
    }
    forall c | c in CodeSet(t) ensures c in CodeSet(l) {
      var i :| 0 <= i < |t| && t[i].code == c;
      assert l[i + 1].code == c;
    }
    assert l[0].code == h.code;
  }

  /** `r` is `hs` with `h` stored under its code: keys unique, `h` present,
      every other entry of `hs` kept and nothing else added. */
  predicate Stored(hs: seq<Holding>, h: Holding, r: seq<Holding>)
  {
    && DistinctCodes(r)
    && h in r
    && |r| == (if h.code in CodeSet(hs) then |hs| else |hs| + 1)
    && CodeSet(r) == CodeSet(hs) + {h.code}
    && (forall k :: 0 <= k < |r| ==> r[k] == h || (r[k] in hs && r[k].code != h.code))
    && (forall k :: 0 <= k < |hs| && hs[k].code != h.code ==> hs[k] in r)
  }

  /** `positions[code] = pos`: replaces in place when the code is held, else
      appends; the dict's keys stay unique. */
  function Put(hs: seq<Holding>, h: Holding): (r: seq<Holding>)
    requires DistinctCodes(hs)
    ensures DistinctCodes(r)
    ensures h in r
    ensures |r| == if h.code in CodeSet(hs) then |hs| else |hs| + 1
    ensures CodeSet(r) == CodeSet(hs) + {h.code}
    ensures forall k :: 0 <= k < |r| ==> r[k] == h || (r[k] in hs && r[k].code != h.code)
    ensures forall k :: 0 <= k < |hs| && hs[k].code != h.code ==> hs[k] in r
  {
    if |hs| == 0 then [h]
    else if hs[0].code == h.code then
      PutHere(hs, h);
      [h] + hs[1..]
    else
      var rest := Put(hs[1..], h);
      PutPast(hs, h, rest);
      [hs[0]] + rest
  }

  /** Storing under the code at the head replaces the head. */
  lemma PutHere(hs: seq<Holding>, h: Holding)
    requires DistinctCodes(hs) && |hs| > 0 && hs[0].code == h.code
    ensures Stored(hs, h, [h] + hs[1..])
  {
    CodeSetCons(hs[0], hs[1..]);
    CodeSetCons(h, hs[1..]);
    assert hs == [hs[0]] + hs[1..];
    assert forall k :: 1 <= k < |hs| ==> hs[k].code != h.code;
  }

  /** Storing under another code keeps the head and stores in the tail. */
  lemma PutPast(hs: seq<Holding>, h: Holding, rest: seq<Holding>)
    requires DistinctCodes(hs) && |hs| > 0 && hs[0].code != h.code
    requires Stored(hs[1..], h, rest)
    ensures Stored(hs, h, [hs[0]] + rest)
  {
    CodeSetCons(hs[0], hs[1..]);
    CodeSetCons(hs[0], rest);
    assert hs == [hs[0]] + hs[1..];
    HeadNotInTail(hs);
    DistinctCons(hs[0], rest);
  }

  /** In a list with unique codes the head's code is not among the tail's. */
  lemma HeadNotInTail(hs: seq<Holding>)
    requires DistinctCodes(hs) && |hs| > 0
    ensures hs[0].code !in CodeSet(hs[1..])
    ensures DistinctCodes(hs[1..])
  {
    forall i | 0 <= i < |hs[1..]| ensures hs[1..][i].code != hs[0].code {
      assert hs[1..][i] == hs[i + 1];
    }
  }

  /** A holding whose code is new extends a list with unique codes. */
  lemma DistinctCons(x: Holding, t: seq<Holding>)
    requires DistinctCodes(t) && x.code !in CodeSet(t)
    ensures DistinctCodes([x] + t)
  {
    var r := [x] + t;
    forall i, j | 0 <= i < j < |r| ensures r[i].code != r[j].code {
      assert r[j] == t[j - 1];
      if i > 0 {
        assert r[i] == t[i - 1];
      }
    }
  }

  lemma ScaleLe(a: real, b: real, c: real)
    requires a <= b && c >= 0.0
    ensures a * c <= b * c
  {
  }

  lemma ScaleLt(a: real, b: real, c: real)
    requires a < b && c > 0.0
    ensures a * c < b * c
  {
  }

  /** `floor(allocation / price)` shares never cost more than the allocation. */
  lemma QuantityFits(allocation: real, price: real)
    requires price > 0.0 && allocation >= 0.0
    ensures Quantity(allocation, price) >= 0
    ensures Quantity(allocation, price) as real * price <= allocation
  {
    var q := Quantity(allocation, price);
    var x := allocation / price;
    DivMul(allocation, price);
    FloorBounds(x);
    assert q == x.Floor;
    ScaleLe(q as real, x, price);
    assert q as real * price <= x * price;
    assert x * price == allocation;
  }

  /** ... and one more share would: the quantity is the largest affordable one. */
  lemma QuantityMaximal(allocation: real, price: real)
    requires price > 0.0
    ensures allocation < (Quantity(allocation, price) + 1) as real * price
  {
    var q := Quantity(allocation, price);
    var x := allocation / price;
    DivMul(allocation, price);
    FloorBounds(x);
    assert q == x.Floor;
    ScaleLt(x, (q + 1) as real, price);
    assert x * price < (q + 1) as real * price;
  }

  lemma DivMul(a: real, p: real)
    requires p > 0.0
    ensures (a / p) * p == a
  {
  }

  lemma FloorBounds(x: real)
    ensures x.Floor as real <= x < (x.Floor + 1) as real
  {
  }

  /** A target row with the share count its allocation buys and what those
      shares cost at the close. */
  datatype Order = Order(row: Row, qty: int, cost: real)

  /** `n` allocations, spelled out as repeated addition. */
  function Budget(n: nat, allocation: real): real
  {
    if n == 0 then 0.0 else Budget(n - 1, allocation) + allocation
  }

  lemma {:induction false} BudgetIsProduct(n: nat, allocation: real)
    ensures Budget(n, allocation) == n as real * allocation
  {
    if n > 0 {
      BudgetIsProduct(n - 1, allocation);
    }
  }

  /** The orders of the fill loop: every target gets `floor(allocation / close)`
      shares, so no order costs more than the allocation. */
  function Orders(targets: seq<Row>, allocation: real): (os: seq<Order>)
    requires PositiveRows(targets) && allocation >= 0.0
    ensures |os| == |targets|
    ensures forall i :: 0 <= i < |os| ==> os[i].row == targets[i] && os[i].qty >= 0
    ensures forall i :: 0 <= i < |os| ==> 0.0 <= os[i].cost <= allocation
  {
    seq(|targets|, i requires 0 <= i < |targets| =>
      var q := Quantity(allocation, targets[i].bar.close);
      QuantityFits(allocation, targets[i].bar.close);
      Order(targets[i], q, q as real * targets[i].bar.close))
  }

  /** Each order buys the largest affordable share count and costs that many
      shares at the close. */
  lemma OrdersPriced(targets: seq<Row>, allocation: real)
    requires PositiveRows(targets) && allocation >= 0.0
    ensures forall i :: 0 <= i < |targets| ==>
      var o := Orders(targets, allocation)[i];
      && o.qty == Quantity(allocation, targets[i].bar.close)
      && o.cost == o.qty as real * targets[i].bar.close
      && allocation < (o.qty + 1) as real * targets[i].bar.close
  {
    forall i | 0 <= i < |targets| {
      QuantityMaximal(allocation, targets[i].bar.close);
    }
  }

  /** The position an order opens: entry and high-water mark at the close. */
  function Opened(o: Order, date: int): Holding
    requires o.qty > 0
  {
    Holding(o.row.bar.code, Position(date, o.row.bar.close, o.row.bar.close, o.qty))
  }

  /** One fill: if the share count is positive, pay for it and open the position. */
  function Buy(s: State, o: Order, date: int): (r: State)
    requires DistinctCodes(s.holdings)
    ensures |r.holdings| <= |s.holdings| + 1 && DistinctCodes(r.holdings)
    ensures o.qty <= 0 ==> r == s
    ensures o.qty > 0 ==>
      && r.cash == s.cash - o.cost
      && Opened(o, date) in r.holdings
      && |r.holdings| == (if o.row.bar.code in CodeSet(s.holdings) then |s.holdings| else |s.holdings| + 1)
      && CodeSet(r.holdings) == CodeSet(s.holdings) + {o.row.bar.code}
      && (forall k :: 0 <= k < |r.holdings| ==> r.holdings[k] == Opened(o, date) || r.holdings[k] in s.holdings)
      && (forall k :: 0 <= k < |s.holdings| && s.holdings[k].code != o.row.bar.code ==> s.holdings[k] in r.holdings)
  {
    if o.qty > 0 then State(s.cash - o.cost, Put(s.holdings, Opened(o, date)))
    else s
  }

  /** The fill loop over the orders in rank order. */
  function Fill(s: State, orders: seq<Order>, date: int): (r: State)
    requires DistinctCodes(s.holdings)
    ensures |r.holdings| <= |s.holdings| + |orders|
    ensures DistinctCodes(r.holdings)
    decreases |orders|
  {
    if |orders| == 0 then s
    else Fill(Buy(s, orders[0], date), orders[1..], date)
  }

  /** The fill loop never shrinks the holdings, and when it ends with none
      it bought nothing, so the state is the one it started from. */
  lemma {:induction false} FillEmpty(s: State, orders: seq<Order>, date: int)
    requires DistinctCodes(s.holdings)
    ensures |Fill(s, orders, date).holdings| >= |s.holdings|
    ensures |Fill(s, orders, date).holdings| == 0 ==> Fill(s, orders, date) == s
    decreases |orders|
  {
    if |orders| > 0 {
      var s1 := Buy(s, orders[0], date);
      FillEmpty(s1, orders[1..], date);
      assert |s1.holdings| >= |s.holdings|;
      assert orders[0].qty > 0 ==> |s1.holdings| > 0;
    }
  }

  /** When no order names a held code, the fill loop leaves the account as
      it was exactly when it adds no holding. */
  lemma {:induction false} FillUnchanged(s: State, orders: seq<Order>, date: int)
    requires DistinctCodes(s.holdings)
    requires forall j :: 0 <= j < |orders| ==> orders[j].row.bar.code !in CodeSet(s.holdings)
    ensures |Fill(s, orders, date).holdings| == |s.holdings| ==> Fill(s, orders, date) == s
    decreases |orders|
  {
    if |orders| > 0 {
      var s1 := Buy(s, orders[0], date);
      FillEmpty(s1, orders[1..], date);
      if orders[0].qty <= 0 {
        FillUnchanged(s, orders[1..], date);
      }
    }
  }

  /** When no order costs more than the allocation, the fill loop spends at
      most one allocation per order, and cash only goes down. */
  lemma {:induction false} FillCash(s: State, orders: seq<Order>, allocation: real, date: int)
    requires DistinctCodes(s.holdings) && allocation >= 0.0
    requires forall i :: 0 <= i < |orders| ==> 0.0 <= orders[i].cost <= allocation
    ensures s.cash - Budget(|orders|, allocation) <= Fill(s, orders, date).cash <= s.cash
    decreases |orders|
  {
    if |orders| > 0 {
      var o := orders[0];
      var s1 := Buy(s, o, date);
      var rest := orders[1..];
      assert forall i :: 0 <= i < |rest| ==> rest[i] == orders[i + 1];
      FillCash(s1, rest, allocation, date);
      assert Fill(s, orders, date) == Fill(s1, rest, date);
      assert s.cash - allocation <= s1.cash <= s.cash;
      assert Budget(|orders|, allocation) == Budget(|rest|, allocation) + allocation;
    }
  }

  /** A position held after the fill loop was either held before it or
      opened by one of the orders (at that row's close, with a positive
      share count); holdings whose code no order names are untouched. */
  lemma {:induction false} FillProvenance(s: State, orders: seq<Order>, date: int)
    requires DistinctCodes(s.holdings)
    ensures forall k :: 0 <= k < |Fill(s, orders, date).holdings| ==>
      Fill(s, orders, date).holdings[k] in s.holdings ||
      exists j :: 0 <= j < |orders| && orders[j].qty > 0 && Fill(s, orders, date).holdings[k] == Opened(orders[j], date)
    ensures forall k :: 0 <= k < |s.holdings| ==>
      ((forall j :: 0 <= j < |orders| ==> orders[j].row.bar.code != s.holdings[k].code) ==>
       s.holdings[k] in Fill(s, orders, date).holdings)
    decreases |orders|
  {
    if |orders| > 0 {
      var s1 := Buy(s, orders[0], date);
      FillProvenance(s1, orders[1..], date);
      var r := Fill(s, orders, date);
      assert r == Fill(s1, orders[1..], date);
      forall k | 0 <= k < |r.holdings|
        ensures r.holdings[k] in s.holdings ||
          exists j :: 0 <= j < |orders| && orders[j].qty > 0 && r.holdings[k] == Opened(orders[j], date)
      {
        var h := r.holdings[k];
        if h !in s1.holdings {
          var j :| 0 <= j < |orders[1..]| && orders[1..][j].qty > 0 && h == Opened(orders[1..][j], date);
          assert orders[1..][j] == orders[j + 1];
        } else if h !in s.holdings {
          assert h == Opened(orders[0], date);
        }
      }
      forall k | 0 <= k < |s.holdings| &&
        (forall j :: 0 <= j < |orders| ==> orders[j].row.bar.code != s.holdings[k].code)
        ensures s.holdings[k] in r.holdings
      {
        assert s.holdings[k] in s1.holdings;
        assert forall j :: 0 <= j < |orders[1..]| ==> orders[1..][j] == orders[j + 1];
      }
    }
  }

  /** Every target is one of today's rows, carries an entry signal, and its
      code is not held. */
  lemma TargetsAreCandidates(day: seq<Row>, hs: seq<Holding>, slots: nat)
    ensures |Targets(day, hs, slots)| <= slots
    ensures forall i :: 0 <= i < |Targets(day, hs, slots)| ==>
      var t := Targets(day, hs, slots)[i];
      t in day && EntrySignal(t, DipThreshold) && t.bar.code !in CodeSet(hs)
    ensures PositiveRows(day) ==> PositiveRows(Targets(day, hs, slots))
  {
    var c := Candidates(day, hs);
    var sorted := SortBy(c, RankKey);
    forall i | 0 <= i < |Targets(day, hs, slots)|
      ensures var t := Targets(day, hs, slots)[i];
        t in day && EntrySignal(t, DipThreshold) && t.bar.code !in CodeSet(hs)
    {
      var t := Targets(day, hs, slots)[i];
      assert t == sorted[i];
      assert t in multiset(sorted);
      var j :| 0 <= j < |c| && c[j] == t;
    }
  }

  /** Targets are the best-ranked candidates: in ascending priority score,
      and none left out ranks strictly better than one taken. */
  lemma TargetsRankFirst(day: seq<Row>, hs: seq<Holding>, slots: nat)
    ensures SortedBy(Targets(day, hs, slots), RankKey)
    ensures |Targets(day, hs, slots)| == MinNat(slots, |Candidates(day, hs)|)
    ensures multiset(Targets(day, hs, slots)) <= multiset(Candidates(day, hs))
    ensures forall i, j :: 0 <= i < |Targets(day, hs, slots)| <= j < |Candidates(day, hs)| ==>
      RankKey(Targets(day, hs, slots)[i]) <= RankKey(SortBy(Candidates(day, hs), RankKey)[j])
  {
    var sorted := SortBy(Candidates(day, hs), RankKey);
    TakeOfSorted(sorted, slots, RankKey);
    TakeSubMultiset(sorted, slots);
    TakeLength(sorted, slots);
  }

  /** Equal allocations of `cash / slots` to at most `slots` orders never
      exceed the cash. */
  lemma AllocationsFit(n: nat, slots: nat, cash: real)
    requires 0 < slots && n <= slots && cash >= 0.0
    ensures cash / slots as real >= 0.0
    ensures Budget(n, cash / slots as real) <= cash
  {
    var a := cash / slots as real;
    BudgetIsProduct(n, a);
    assert a >= 0.0;
    ScaleLe(n as real, slots as real, a);
    assert slots as real * a == cash;
  }

  /** The fill with `allocation = cash / open_slots`, where
      `open_slots = MAX_POSITIONS - len(positions)`. */
  function Buys(s: State, targets: seq<Row>, date: int): State
    requires DistinctCodes(s.holdings) && PositiveRows(targets)
    requires |s.holdings| < MaxPositions && s.cash > 0.0
  {
    Fill(s, Orders(targets, s.cash / (MaxPositions - |s.holdings|) as real), date)
  }

  /** With no more targets than free slots the fill spends at most the cash
      it starts with. */
  lemma BuysCash(s: State, targets: seq<Row>, date: int)
    requires DistinctCodes(s.holdings) && PositiveRows(targets)
    requires |s.holdings| < MaxPositions && s.cash > 0.0
    requires |targets| <= MaxPositions - |s.holdings|
    ensures 0.0 <= Buys(s, targets, date).cash <= s.cash
  {
    var slots := MaxPositions - |s.holdings|;
    var allocation := s.cash / slots as real;
    AllocationsFit(|targets|, slots, s.cash);
    var orders := Orders(targets, allocation);
    FillWithin(s, orders, allocation, date);
  }

  /** Orders that fit the allocation, with all of them together fitting the
      cash, never drive the cash negative. */
  lemma FillWithin(s: State, orders: seq<Order>, allocation: real, date: int)
    requires DistinctCodes(s.holdings) && allocation >= 0.0
    requires forall i :: 0 <= i < |orders| ==> 0.0 <= orders[i].cost <= allocation
    requires Budget(|orders|, allocation) <= s.cash
    ensures 0.0 <= Fill(s, orders, date).cash <= s.cash
  {
    FillCash(s, orders, allocation, date);
  }

  /** A position opened at the close of `row` on `date`. */
  ghost predicate OpenedFrom(h: Holding, row: Row, date: int)
  {
    h.code == row.bar.code && h.pos.entryDate == date && h.pos.qty > 0
    && h.pos.entryPrice == row.bar.close && h.pos.highestPrice == row.bar.close
  }

  /** The fill keeps every held position whose code is not a target. */
  lemma BuysKeep(s: State, targets: seq<Row>, date: int)
    requires DistinctCodes(s.holdings) && PositiveRows(targets)
    requires |s.holdings| < MaxPositions && s.cash > 0.0
    ensures var r := Buys(s, targets, date).holdings;
      && |r| <= |s.holdings| + |targets| && DistinctCodes(r)
      && (forall k :: 0 <= k < |s.holdings| && (forall j :: 0 <= j < |targets| ==> targets[j].bar.code != s.holdings[k].code)
            ==> s.holdings[k] in r)
  {
    var orders := Orders(targets, s.cash / (MaxPositions - |s.holdings|) as real);
    FillProvenance(s, orders, date);
  }

  /** Every position after the fill was held before it or opened from a target. */
  lemma BuysOrigin(s: State, targets: seq<Row>, date: int)
    requires DistinctCodes(s.holdings) && PositiveRows(targets)
    requires |s.holdings| < MaxPositions && s.cash > 0.0
    ensures var r := Buys(s, targets, date).holdings;
      forall k :: 0 <= k < |r| ==> r[k] in s.holdings || exists j :: 0 <= j < |targets| && OpenedFrom(r[k], targets[j], date)
  {
    var orders := Orders(targets, s.cash / (MaxPositions - |s.holdings|) as real);
    FillProvenance(s, orders, date);
    var r := Fill(s, orders, date);
    forall k | 0 <= k < |r.holdings|
      ensures r.holdings[k] in s.holdings || exists j :: 0 <= j < |targets| && OpenedFrom(r.holdings[k], targets[j], date)
    {
      if r.holdings[k] !in s.holdings {
        var j :| 0 <= j < |orders| && orders[j].qty > 0 && r.holdings[k] == Opened(orders[j], date);
        assert OpenedFrom(r.holdings[k], targets[j], date);
      }
    }
  }

  /** Targets naming no held code, so the entry pass keeps every held
      position; with no more targets than free slots the cap still holds. */
  lemma BuysKeepHeld(s: State, targets: seq<Row>, date: int)
    requires DistinctCodes(s.holdings) && PositiveRows(targets)
    requires |s.holdings| < MaxPositions && s.cash > 0.0
    requires |targets| <= MaxPositions - |s.holdings|
    requires forall j :: 0 <= j < |targets| ==> targets[j].bar.code !in CodeSet(s.holdings)
    ensures var r := Buys(s, targets, date).holdings;
      && |r| <= MaxPositions && DistinctCodes(r)
      && (forall k :: 0 <= k < |s.holdings| ==> s.holdings[k] in r)
  {
    BuysKeep(s, targets, date);
    var r := Buys(s, targets, date).holdings;
    forall k | 0 <= k < |s.holdings| ensures s.holdings[k] in r {
      var c := s.holdings[k].code;
      assert c in CodeSet(s.holdings);
      assert forall j :: 0 <= j < |targets| ==> targets[j].bar.code != c;
    }
  }

  /** Every holding after an entry pass over signalled rows of the day was
      held before it or was entered today from one of them. */
  lemma BuysFromDay(s: State, day: seq<Row>, targets: seq<Row>, date: int)
    requires DistinctCodes(s.holdings) && PositiveRows(targets)
    requires |s.holdings| < MaxPositions && s.cash > 0.0
    requires forall j :: 0 <= j < |targets| ==>
      targets[j] in day && EntrySignal(targets[j], DipThreshold) && targets[j].bar.code !in CodeSet(s.holdings)
    ensures var r := Buys(s, targets, date).holdings;
      forall k :: 0 <= k < |r| ==> r[k] in s.holdings || Entered(r[k], day, s.holdings, date)
  {
    BuysOrigin(s, targets, date);
    var r := Buys(s, targets, date).holdings;
    forall k | 0 <= k < |r| ensures r[k] in s.holdings || Entered(r[k], day, s.holdings, date) {
      if r[k] !in s.holdings {
        var j :| 0 <= j < |targets| && OpenedFrom(r[k], targets[j], date);
        assert targets[j] in day;
      }
    }
  }

  /** An entry pass over targets naming no held code changes the account
      only if it adds a holding. */
  lemma BuysUnchanged(s: State, targets: seq<Row>, date: int)
    requires DistinctCodes(s.holdings) && PositiveRows(targets)
    requires |s.holdings| < MaxPositions && s.cash > 0.0
    requires forall j :: 0 <= j < |targets| ==> targets[j].bar.code !in CodeSet(s.holdings)
    ensures |Buys(s, targets, date).holdings| == |s.holdings| ==> Buys(s, targets, date) == s
  {
    FillUnchanged(s, Orders(targets, s.cash / (MaxPositions - |s.holdings|) as real), date);
  }

  /** The entry step changes the account only if it opens a position: when
      the number of holdings is unchanged, cash and holdings are as before. */
  lemma EnterUnchanged(s: State, day: seq<Row>, date: int)
    requires Valid(s) && PositiveRows(day)
    ensures |Enter(s, day, date).holdings| == |s.holdings| ==> Enter(s, day, date) == s
  {
    if |s.holdings| < MaxPositions && s.cash > 0.0 {
      var slots := MaxPositions - |s.holdings|;
      var targets := Targets(day, s.holdings, slots);
      TargetsAreCandidates(day, s.holdings, slots);
      BuysUnchanged(s, targets, date);
      assert Enter(s, day, date) == Buys(s, targets, date);
    }
  }

  /** What an entry pass guarantees: the account stays valid, cash does not
      rise, every held position is kept, and every new one was entered today. */
  ghost predicate EntryOutcome(s: State, r: State, day: seq<Row>, date: int)
  {
    && Valid(r) && r.cash <= s.cash
    && (forall k :: 0 <= k < |s.holdings| ==> s.holdings[k] in r.holdings)
    && (forall k :: 0 <= k < |r.holdings| ==> r.holdings[k] in s.holdings || Entered(r.holdings[k], day, s.holdings, date))
  }

  /** An entry pass over at most the free slots' worth of signalled rows
      of the day, none of a held code, keeps the account valid, never raises
      cash, keeps every held position, and adds only positions entered today. */
  lemma BuysValid(s: State, day: seq<Row>, targets: seq<Row>, date: int)
    requires Valid(s) && PositiveRows(day) && PositiveRows(targets)
    requires |s.holdings| < MaxPositions && s.cash > 0.0
    requires |targets| <= MaxPositions - |s.holdings|
    requires forall j :: 0 <= j < |targets| ==>
      targets[j] in day && EntrySignal(targets[j], DipThreshold) && targets[j].bar.code !in CodeSet(s.holdings)
    ensures EntryOutcome(s, Buys(s, targets, date), day, date)
  {
    BuysCash(s, targets, date);
    BuysKeepHeld(s, targets, date);
    BuysFromDay(s, day, targets, date);
    var r := Buys(s, targets, date);
    EnteredSane(r.holdings, day, s.holdings, date);
  }

  /** Every holding after the entry step was held before it or was entered today. */
  lemma BuysEntered(s: State, day: seq<Row>, date: int)
    requires Valid(s) && PositiveRows(day) && |s.holdings| < MaxPositions && s.cash > 0.0
    ensures PositiveRows(Targets(day, s.holdings, MaxPositions - |s.holdings|))
    ensures EntryOutcome(s, Buys(s, Targets(day, s.holdings, MaxPositions - |s.holdings|), date), day, date)
  {
    var slots := MaxPositions - |s.holdings|;
    TargetsAreCandidates(day, s.holdings, slots);
    BuysValid(s, day, Targets(day, s.holdings, slots), date);
  }

  /** Positions held or entered today are sane when today's closes are positive. */
  lemma EnteredSane(hs: seq<Holding>, day: seq<Row>, held: seq<Holding>, date: int)
    requires PositiveRows(day) && SanePositions(held)
    requires forall k :: 0 <= k < |hs| ==> hs[k] in held || Entered(hs[k], day, held, date)
    ensures SanePositions(hs)
  {
    forall k | 0 <= k < |hs| ensures SanePosition(hs[k].pos) {
      if hs[k] !in held {
        var row :| row in day && EntrySignal(row, DipThreshold) && row.bar.code !in CodeSet(held)
          && hs[k].code == row.bar.code && hs[k].pos.entryDate == date && hs[k].pos.qty > 0
          && hs[k].pos.entryPrice == row.bar.close && hs[k].pos.highestPrice == row.bar.close;
        var i :| 0 <= i < |day| && day[i] == row;
      }
    }
  }

  /** The entry step: buys only when a slot is free and cash is positive. */
  function Enter(s: State, day: seq<Row>, date: int): (r: State)
    requires Valid(s) && PositiveRows(day)
    ensures Valid(r)
    ensures r.cash <= s.cash
    ensures forall k :: 0 <= k < |s.holdings| ==> s.holdings[k] in r.holdings
    ensures forall k :: 0 <= k < |r.holdings| ==> r.holdings[k] in s.holdings || Entered(r.holdings[k], day, s.holdings, date)
    ensures |s.holdings| >= MaxPositions || s.cash <= 0.0 ==> r == s
  {
    if |s.holdings| < MaxPositions && s.cash > 0.0 then
      BuysEntered(s, day, date);
      Buys(s, Targets(day, s.holdings, MaxPositions - |s.holdings|), date)
    else s
  }

  /** A position the entry step opened: at the close of an entry-signal row
      of today whose code was not held, with a positive share count. */
  ghost predicate Entered(h: Holding, day: seq<Row>, held: seq<Holding>, date: int)
  {
    exists row :: row in day && EntrySignal(row, DipThreshold) && row.bar.code !in CodeSet(held)
      && h.code == row.bar.code && h.pos.entryDate == date && h.pos.qty > 0
      && h.pos.entryPrice == row.bar.close && h.pos.highestPrice == row.bar.close
  }

  // ----------------------------------------------------------- equity

  /** The price a holding is marked at: today's close of its code, or its
      high-water mark when the code has no row today. */
  function Mark(h: Holding, day: seq<Row>): real
  {
    match FindRow(day, h.code)
    case Some(row) => row.bar.close
    case None => h.pos.highestPrice
  }

  /** `market_value`: every holding marked and multiplied by its quantity. */
  function MarketValue(hs: seq<Holding>, day: seq<Row>): real
  {
    if |hs| == 0 then 0.0 else Mark(hs[0], day) * hs[0].pos.qty as real + MarketValue(hs[1..], day)
  }

  /** With positive closes and sane positions every mark is positive, so the
      market value is positive exactly when something is held. */
  lemma {:induction false} MarketValuePositive(hs: seq<Holding>, day: seq<Row>)
    requires PositiveRows(day) && SanePositions(hs)
    ensures MarketValue(hs, day) >= 0.0
    ensures |hs| > 0 ==> MarketValue(hs, day) > 0.0
  {
    if |hs| > 0 {
      MarketValuePositive(hs[1..], day);
      var m := Mark(hs[0], day);
      assert m > 0.0 by {
        var r := FindRow(day, hs[0].code);
        if r.Some? {
          var i :| 0 <= i < |day| && day[i] == r.value;
        }
      }
      PositiveProduct(m, hs[0].pos.qty as real);
    }
  }

  lemma PositiveProduct(a: real, b: real)
    requires a > 0.0 && b > 0.0
    ensures a * b > 0.0
  {
  }

  // ----------------------------------------------------------- one day

  /** Closing sound trades brings in cash, never takes it out. */
  lemma {:induction false} ProceedsPositive(ts: seq<Trade>, date: int)
    requires forall k :: 0 <= k < |ts| ==> SoundTrade(ts[k], date)
    ensures Proceeds(ts) >= 0.0
    ensures |ts| > 0 ==> Proceeds(ts) > 0.0
  {
    if |ts| > 0 {
      ProceedsPositive(ts[1..], date);
      var t := ts[0];
      PositiveProduct(t.entryPrice, 1.0 - StopLossPct);
      PositiveProduct(t.exitPrice, t.qty as real);
    }
  }

  /** The entry dates of a list of holdings. */
  function EntryDates(hs: seq<Holding>): set<int>
  {
    set i | 0 <= i < |hs| :: hs[i].pos.entryDate
  }

  /** Survivors and trades of the exit pass keep the entry dates they had. */
  lemma ExitsKeepEntryDates(hs: seq<Holding>, day: seq<Row>, date: int)
    requires SanePositions(hs)
    ensures EntryDates(Exits(hs, day, date).kept) <= EntryDates(hs)
    ensures forall k :: 0 <= k < |Exits(hs, day, date).trades| ==> Exits(hs, day, date).trades[k].entryDate in EntryDates(hs)
  {
    var r := Exits(hs, day, date);
    ExitsKeptOrigin(hs, day, date);
    ExitsTradeOrigin(hs, day, date);
    forall d | d in EntryDates(r.kept) ensures d in EntryDates(hs) {
      var k :| 0 <= k < |r.kept| && r.kept[k].pos.entryDate == d;
      var i :| 0 <= i < |hs| && Fate(hs[i], day, date) == Kept(r.kept[k]);
      FateSpec(hs[i], day, date);
    }
    forall k | 0 <= k < |r.trades| ensures r.trades[k].entryDate in EntryDates(hs) {
      var i :| 0 <= i < |hs| && Fate(hs[i], day, date) == Closed(r.trades[k]);
      FateSpec(hs[i], day, date);
    }
  }

  /** The state after the exit pass: survivors, and the cash raised by the fills. */
  function AfterExits(s: State, day: seq<Row>, date: int): (r: State)
    requires Valid(s)
    ensures Valid(r) && r.cash >= s.cash
    ensures r.cash == s.cash + Proceeds(Exits(s.holdings, day, date).trades)
    ensures r.holdings == Exits(s.holdings, day, date).kept
    ensures |r.holdings| <= |s.holdings|
    ensures EntryDates(r.holdings) <= EntryDates(s.holdings)
  {
    var ex := Exits(s.holdings, day, date);
    ExitsKeepCodes(s.holdings, day, date);
    ExitsKeepSane(s.holdings, day, date);
    ExitsTradesBounded(s.holdings, day, date);
    ProceedsPositive(ex.trades, date);
    ExitsKeepEntryDates(s.holdings, day, date);
    State(s.cash + Proceeds(ex.trades), ex.kept)
  }

  /** What one trading date produces. */
  datatype Day = Day(state: State, trades: seq<Trade>, point: EquityPoint)

  /** One iteration of the day loop: exits, then entries with the freed slots
      and cash, then the equity point marked at today's closes. */
  function Step(s: State, day: seq<Row>, date: int): (r: Day)
    requires Valid(s) && PositiveRows(day)
    ensures Valid(r.state)
    ensures r.point.date == date && r.point.equity >= r.state.cash >= 0.0
    ensures r.point.equity == r.state.cash + MarketValue(r.state.holdings, day)
    ensures r.trades == Exits(s.holdings, day, date).trades
    ensures AfterExits(s, day, date).cash == s.cash + Proceeds(r.trades)
    ensures r.state == Enter(AfterExits(s, day, date), day, date)
    ensures r.state.cash <= s.cash + Proceeds(r.trades)
    ensures forall k :: 0 <= k < |r.trades| ==> SoundTrade(r.trades[k], date)
    ensures forall k :: 0 <= k < |r.trades| ==> r.trades[k].entryDate in EntryDates(s.holdings)
    ensures EntryDates(r.state.holdings) <= EntryDates(s.holdings) + {date}
  {
    var mid := AfterExits(s, day, date);
    var trades := Exits(s.holdings, day, date).trades;
    ExitsTradesBounded(s.holdings, day, date);
    ExitsKeepEntryDates(s.holdings, day, date);
    var next := Enter(mid, day, date);
    EnteredDates(next.holdings, day, mid.holdings, date);
    MarketValuePositive(next.holdings, day);
    Day(next, trades, EquityPoint(date, next.cash + MarketValue(next.holdings, day)))
  }

  lemma EnteredDates(hs: seq<Holding>, day: seq<Row>, held: seq<Holding>, date: int)
    requires forall k :: 0 <= k < |hs| ==> hs[k] in held || Entered(hs[k], day, held, date)
    ensures EntryDates(hs) <= EntryDates(held) + {date}
  {
    forall d | d in EntryDates(hs) ensures d in EntryDates(held) + {date} {
      var k :| 0 <= k < |hs| && hs[k].pos.entryDate == d;
      if hs[k] in held {
        var i :| 0 <= i < |held| && held[i] == hs[k];
      }
    }
  }

  // ----------------------------------------------------------- the loop

  /** `df['date'].unique()`: every date of the panel once, in order of first appearance. */
  function Dates(rows: seq<Row>): seq<int>
  {
    Unique(DateColumn(rows))
  }

  /** Dates are non-decreasing along the panel (it is sorted by date, then code). */
  predicate DateOrdered(rows: seq<Row>)
  {
    forall i, j :: 0 <= i < j < |rows| ==> rows[i].bar.date <= rows[j].bar.date
  }

  /** On a date-sorted panel the unique dates come out strictly increasing. */
  lemma DatesIncreasing(rows: seq<Row>)
    requires DateOrdered(rows)
    ensures Increasing(Dates(rows))
  {
    UniqueOfNonDecreasing(DateColumn(rows));
  }

  /** `daily_data = df[df['date'] == current_date]`. */
  function DayRows(rows: seq<Row>, date: int): seq<Row>
  {
    Filter(rows, (r: Row) => r.bar.date == date)
  }

  /** Every date the loop visits has at least one row, so the
      `if daily_data.empty: continue` guard never fires on them. */
  lemma DayRowsNonEmpty(rows: seq<Row>, date: int)
    requires date in Dates(rows)
    ensures |DayRows(rows, date)| > 0
  {
    var k :| 0 <= k < |rows| && DateColumn(rows)[k] == date;
    assert rows[k] in DayRows(rows, date);
  }

  /** The day loop's accumulators: account state, trade log and equity curve. */
  datatype Sim = Sim(state: State, trades: seq<Trade>, curve: seq<EquityPoint>)

  lemma DayRowsPositive(rows: seq<Row>, date: int)
    requires PositiveRows(rows)
    ensures PositiveRows(DayRows(rows, date))
    ensures forall i :: 0 <= i < |DayRows(rows, date)| ==> DayRows(rows, date)[i].bar.date == date
  {
    var day := DayRows(rows, date);
    forall i | 0 <= i < |day| ensures day[i].bar.close > 0.0 {
      var k :| 0 <= k < |rows| && rows[k] == day[i];
    }
  }

  /** The day loop over `ds`, in order, starting from the initial capital;
      the account stays valid throughout. */
  function Run(rows: seq<Row>, ds: seq<int>): (r: Sim)
    requires PositiveRows(rows)
    ensures Valid(r.state)
    decreases |ds|
  {
    if |ds| == 0 then Sim(Initial, [], [])
    else
      var prev := Run(rows, ds[..|ds| - 1]);
      var date := ds[|ds| - 1];
      var day := DayRows(rows, date);
      DayRowsPositive(rows, date);
      if |day| == 0 then prev
      else
        var r := Step(prev.state, day, date);
        Sim(r.state, prev.trades + r.trades, prev.curve + [r.point])
  }

  /** An equity curve that follows a list of dates, point by point, with no negative value. */
  predicate Follows(c: seq<EquityPoint>, ds: seq<int>)
  {
    |c| == |ds| && forall k :: 0 <= k < |ds| ==> c[k].date == ds[k] && c[k].equity >= 0.0
  }

  lemma FollowsAppend(c: seq<EquityPoint>, ds: seq<int>, p: EquityPoint)
    requires Follows(c, ds) && p.equity >= 0.0
    ensures Follows(c + [p], ds + [p.date])
  {
  }

  /** Exactly one equity point per visited date, in the order of `ds`, and
      none negative. */
  lemma {:induction false} RunCurve(rows: seq<Row>, ds: seq<int>)
    requires PositiveRows(rows)
    requires forall i :: 0 <= i < |ds| ==> |DayRows(rows, ds[i])| > 0
    ensures |Run(rows, ds).curve| == |ds|
    ensures forall k :: 0 <= k < |ds| ==> Run(rows, ds).curve[k].date == ds[k] && Run(rows, ds).curve[k].equity >= 0.0
    decreases |ds|
  {
    if |ds| > 0 {
      var init := ds[..|ds| - 1];
      var date := ds[|ds| - 1];
      assert forall i :: 0 <= i < |init| ==> init[i] == ds[i];
      RunCurve(rows, init);
      DayRowsPositive(rows, date);
      assert |DayRows(rows, date)| > 0;
      var prev := Run(rows, init);
      var st := Step(prev.state, DayRows(rows, date), date);
      assert Run(rows, ds).curve == prev.curve + [st.point];
      assert Follows(prev.curve, init);
      FollowsAppend(prev.curve, init, st.point);
      LastSplit(ds);
      assert Follows(Run(rows, ds).curve, ds);
    }
  }

  /** A logged trade of a run over `ds`: sound, and entered and exited on visited dates. */
  predicate Logged(t: Trade, ds: seq<int>)
  {
    SoundTrade(t, t.exitDate) && t.exitDate in ds && t.entryDate in ds
  }

  /** Trades logged over the earlier dates stay logged when a date is added. */
  lemma LoggedWiden(ts: seq<Trade>, init: seq<int>, date: int)
    requires forall k :: 0 <= k < |ts| ==> Logged(ts[k], init)
    ensures forall k :: 0 <= k < |ts| ==> Logged(ts[k], init + [date])
  {
    forall k | 0 <= k < |ts| ensures Logged(ts[k], init + [date]) {
      assert ts[k].exitDate in init + [date] && ts[k].entryDate in init + [date];
    }
  }

  lemma LoggedAppend(a: seq<Trade>, b: seq<Trade>, ds: seq<int>)
    requires forall k :: 0 <= k < |a| ==> Logged(a[k], ds)
    requires forall k :: 0 <= k < |b| ==> Logged(b[k], ds)
    ensures forall k :: 0 <= k < |a + b| ==> Logged((a + b)[k], ds)
  {
    forall k | 0 <= k < |a + b| ensures Logged((a + b)[k], ds) {
      if k >= |a| {
        assert (a + b)[k] == b[k - |a|];
      }
    }
  }

  /** One day's trades are logged, and its positions dated on visited dates,
      when the positions before it were. */
  lemma StepLogged(s: State, day: seq<Row>, date: int, ds: seq<int>)
    requires Valid(s) && PositiveRows(day) && date in ds
    requires EntryDates(s.holdings) <= set d | d in ds
    ensures forall k :: 0 <= k < |Step(s, day, date).trades| ==> Logged(Step(s, day, date).trades[k], ds)
    ensures EntryDates(Step(s, day, date).state.holdings) <= set d | d in ds
  {
    var st := Step(s, day, date);
    forall k | 0 <= k < |st.trades| ensures Logged(st.trades[k], ds) {
      assert st.trades[k].entryDate in EntryDates(s.holdings);
    }
  }

  /** Every logged trade is sound: it lost at most the stop-loss fraction,
      and its entry and exit dates are visited dates. */
  lemma {:induction false} RunTrades(rows: seq<Row>, ds: seq<int>)
    requires PositiveRows(rows)
    ensures forall k :: 0 <= k < |Run(rows, ds).trades| ==>
      var t := Run(rows, ds).trades[k];
      SoundTrade(t, t.exitDate) && t.exitDate in ds && t.entryDate in ds
    ensures EntryDates(Run(rows, ds).state.holdings) <= set d | d in ds
    decreases |ds|
  {
    if |ds| > 0 {
      var init := ds[..|ds| - 1];
      var date := ds[|ds| - 1];
      LastSplit(ds);
      RunTrades(rows, init);
      DayRowsPositive(rows, date);
      var prev := Run(rows, init);
      assert forall k :: 0 <= k < |prev.trades| ==> Logged(prev.trades[k], init);
      LoggedWiden(prev.trades, init, date);
      assert (set d | d in init) <= set d | d in ds;
      var day := DayRows(rows, date);
      if |day| > 0 {
        var st := Step(prev.state, day, date);
        StepLogged(prev.state, day, date, ds);
        LoggedAppend(prev.trades, st.trades, ds);
        assert Run(rows, ds).trades == prev.trades + st.trades;
        assert forall k :: 0 <= k < |Run(rows, ds).trades| ==> Logged(Run(rows, ds).trades[k], ds);
      } else {
        assert Run(rows, ds) == prev;
      }
    }
  }

  /** Trades appended after a log leave it as a prefix. */
  lemma AppendTrades(a: seq<Trade>, b: seq<Trade>, date: int, held: set<int>)
    requires forall k :: 0 <= k < |b| ==> b[k].exitDate == date && b[k].entryDate in held
    ensures (a + b)[..|a|] == a
    ensures forall k :: |a| <= k < |a + b| ==> (a + b)[k].exitDate == date && (a + b)[k].entryDate in held
  {
    forall k | |a| <= k < |a + b| ensures (a + b)[k].exitDate == date && (a + b)[k].entryDate in held {
      assert (a + b)[k] == b[k - |a|];
    }
  }

  /** Visiting one more date extends the trade log by trades that close on
      it and entered on the dates of positions held before; the positions
      held afterwards entered before it or on it. */
  lemma RunExtend(rows: seq<Row>, ds: seq<int>)
    requires PositiveRows(rows) && |ds| > 0
    ensures var prev := Run(rows, ds[..|ds| - 1]);
      var r := Run(rows, ds);
      && |prev.trades| <= |r.trades|
      && r.trades[..|prev.trades|] == prev.trades
      && (forall k :: |prev.trades| <= k < |r.trades| ==>
            r.trades[k].exitDate == ds[|ds| - 1] && r.trades[k].entryDate in EntryDates(prev.state.holdings))
      && EntryDates(r.state.holdings) <= EntryDates(prev.state.holdings) + {ds[|ds| - 1]}
  {
    var date := ds[|ds| - 1];
    DayRowsPositive(rows, date);
    var prev := Run(rows, ds[..|ds| - 1]);
    var day := DayRows(rows, date);
    if |day| > 0 {
      var st := Step(prev.state, day, date);
      AppendTrades(prev.trades, st.trades, date, EntryDates(prev.state.holdings));
      assert Run(rows, ds).trades == prev.trades + st.trades;
    }
  }

  lemma IncreasingPrefix(ds: seq<int>)
    requires Increasing(ds) && |ds| > 0
    ensures Increasing(ds[..|ds| - 1])
    ensures forall i :: 0 <= i < |ds| - 1 ==> ds[i] < ds[|ds| - 1]
  {
  }

  /** On increasing dates no open position is dated after the last visited date. */
  lemma {:induction false} RunEntryDatesBounded(rows: seq<Row>, ds: seq<int>)
    requires PositiveRows(rows) && Increasing(ds)
    ensures forall d :: d in EntryDates(Run(rows, ds).state.holdings) ==> |ds| > 0 && d <= ds[|ds| - 1]
    decreases |ds|
  {
    if |ds| > 0 {
      var init := ds[..|ds| - 1];
      IncreasingPrefix(ds);
      RunEntryDatesBounded(rows, init);
      RunExtend(rows, ds);
    } else {
      assert Run(rows, ds).state == Initial;
    }
  }

  /** On increasing dates a position is never closed on the day it was
      opened: exits run before entries, so every trade exits strictly after
      it entered. */
  lemma {:induction false} RunChronology(rows: seq<Row>, ds: seq<int>)
    requires PositiveRows(rows) && Increasing(ds)
    ensures forall k :: 0 <= k < |Run(rows, ds).trades| ==>
      Run(rows, ds).trades[k].entryDate < Run(rows, ds).trades[k].exitDate
    decreases |ds|
  {
    if |ds| > 0 {
      var init := ds[..|ds| - 1];
      IncreasingPrefix(ds);
      RunChronology(rows, init);
      RunEntryDatesBounded(rows, init);
      RunExtend(rows, ds);
      var prev := Run(rows, init).trades;
      var all := Run(rows, ds).trades;
      forall k | 0 <= k < |all| ensures all[k].entryDate < all[k].exitDate {
        if k < |prev| {
          assert all[k] == all[..|prev|][k];
        }
      }
    } else {
      assert Run(rows, ds).trades == [];
    }
  }

  /** `run_simulation`: signals on the loaded panel, then the day loop over its dates. */
  function Simulate(bars: seq<Bar>): Sim
    requires PositiveCloses(bars)
  {
    var rows := Annotate(bars);
    Run(rows, Dates(rows))
  }

  /** The equity curve of the simulation: one point per trading date of the
      panel, in date order (strictly increasing on a date-sorted panel), and
      never negative. */
  lemma SimulateCurve(bars: seq<Bar>)
    requires PositiveCloses(bars)
    requires forall i, j :: 0 <= i < j < |bars| ==> bars[i].date <= bars[j].date
    ensures var rows := Annotate(bars);
      var curve := Simulate(bars).curve;
      && |curve| == |Dates(rows)|
      && (forall k :: 0 <= k < |curve| ==> curve[k].date == Dates(rows)[k] && curve[k].equity >= 0.0)
      && (forall i, j :: 0 <= i < j < |curve| ==> curve[i].date < curve[j].date)
  {
    var rows := Annotate(bars);
    var ds := Dates(rows);
    DatesIncreasing(rows);
    forall i | 0 <= i < |ds| ensures |DayRows(rows, ds[i])| > 0 {
      DayRowsNonEmpty(rows, ds[i]);
    }
    RunCurve(rows, ds);
  }

  /** The trade log of the simulation: every trade exits strictly after it
      entered and loses at most the stop-loss fraction; the final account is valid. */
  lemma SimulateTrades(bars: seq<Bar>)
    requires PositiveCloses(bars)
    requires forall i, j :: 0 <= i < j < |bars| ==> bars[i].date <= bars[j].date
    ensures var trades := Simulate(bars).trades;
      forall k :: 0 <= k < |trades| ==> trades[k].entryDate < trades[k].exitDate && SoundTrade(trades[k], trades[k].exitDate)
  {
    var rows := Annotate(bars);
    var ds := Dates(rows);
    DatesIncreasing(rows);
    RunTrades(rows, ds);
    RunChronology(rows, ds);
  }

  /** A day that starts with nothing held and positive cash closes nothing
      and ends with positive equity: an entry pass that bought nothing left
      the cash intact, and whatever it bought is worth something at today's
      closes. */
  lemma StepFromCash(s: State, day: seq<Row>, date: int)
    requires Valid(s) && PositiveRows(day) && |s.holdings| == 0 && s.cash > 0.0
    ensures Step(s, day, date).trades == []
    ensures Step(s, day, date).point.equity > 0.0
  {
    var st := Step(s, day, date);
    assert Exits(s.holdings, day, date) == ExitPass([], []);
    assert Proceeds([]) == 0.0;
    assert AfterExits(s, day, date) == s;
    EnterUnchanged(s, day, date);
    MarketValuePositive(st.state.holdings, day);
  }

  /** Until a date with rows is visited the account is the initial one, so
      the first point of the curve is positive. */
  lemma {:induction false} RunStart(rows: seq<Row>, ds: seq<int>)
    requires PositiveRows(rows)
    ensures |Run(rows, ds).curve| == 0 ==> Run(rows, ds) == Sim(Initial, [], [])
    ensures |Run(rows, ds).curve| > 0 ==> Run(rows, ds).curve[0].equity > 0.0
    decreases |ds|
  {
    if |ds| > 0 {
      var init := ds[..|ds| - 1];
      var date := ds[|ds| - 1];
      RunStart(rows, init);
      DayRowsPositive(rows, date);
      var prev := Run(rows, init);
      var day := DayRows(rows, date);
      if |day| > 0 {
        if |prev.curve| == 0 {
          StepFromCash(Initial, day, date);
        }
        assert Run(rows, ds).curve[0] == (prev.curve + [Step(prev.state, day, date).point])[0];
      }
    }
  }

  /** `equity_df['equity']`: the equity column of a curve. */
  function Equities(c: seq<EquityPoint>): (eq: seq<real>)
    ensures |eq| == |c| && forall i :: 0 <= i < |c| ==> eq[i] == c[i].equity
  {
    seq(|c|, i requires 0 <= i < |c| => c[i].equity)
  }

  // ----------------------------------------------------------- drawdown

  /** `equity.cummax()`: the highest equity up to and including each point. */
  function RunningPeak(eq: seq<real>): (p: seq<real>)
    ensures |p| == |eq|
    ensures forall i :: 0 <= i < |eq| ==> p[i] == MaxOf(eq[..i + 1])
  {
    seq(|eq|, i requires 0 <= i < |eq| => MaxOf(eq[..i + 1]))
  }

  /** The running peak is at least every earlier point and is one of them. */
  lemma PeakBounds(eq: seq<real>, i: nat)
    requires i < |eq|
    ensures forall j :: 0 <= j <= i ==> eq[j] <= RunningPeak(eq)[i]
    ensures exists j :: 0 <= j <= i && eq[j] == RunningPeak(eq)[i]
  {
    var w := eq[..i + 1];
    assert forall j :: 0 <= j <= i ==> eq[j] == w[j];
    var m := MaxOf(w);
    var j :| 0 <= j < |w| && w[j] == m;
  }

  /** `(equity - max_equity) / max_equity` at every point. */
  function Drawdowns(eq: seq<real>): (dd: seq<real>)
    requires |eq| > 0 && eq[0] > 0.0
    ensures |dd| == |eq|
  {
    seq(|eq|, i requires 0 <= i < |eq| =>
      PeakBounds(eq, i);
      (eq[i] - RunningPeak(eq)[i]) / RunningPeak(eq)[i])
  }

  /** `drawdown.min()`: the deepest fall below a running peak, as a fraction of it. */
  function MaxDrawdown(eq: seq<real>): real
    requires |eq| > 0 && eq[0] > 0.0
  {
    MinOf(Drawdowns(eq))
  }

  lemma DivLe(a: real, b: real, c: real)
    requires a >= 0.0 && 0.0 < b <= c
    ensures a / c <= a / b
  {
    var x := a / c;
    DivMul(a, c);
    ScaleLe(b, c, x);
    assert x * b <= a;
    DivMono(x * b, a, b);
    assert (x * b) / b == x;
  }

  lemma DivMono(u: real, v: real, b: real)
    requires u <= v && b > 0.0
    ensures u / b <= v / b
  {
  }

  lemma FallFraction(e: real, p: real)
    requires 0.0 <= e <= p && p > 0.0
    ensures -1.0 <= (e - p) / p <= 0.0
  {
    DivMono(e - p, 0.0, p);
    DivMono(-p, e - p, p);
    NegSelfDiv(p);
  }

  lemma NegSelfDiv(p: real)
    requires p > 0.0
    ensures (-p) / p == -1.0
  {
    assert -p == -1.0 * p;
  }

  /** Every drawdown of a non-negative curve lies in [-1, 0]. */
  lemma DrawdownRange(eq: seq<real>, i: nat)
    requires |eq| > 0 && eq[0] > 0.0 && i < |eq| && eq[i] >= 0.0
    ensures -1.0 <= Drawdowns(eq)[i] <= 0.0
  {
    PeakBounds(eq, i);
    PeakBounds(eq, 0);
    var p := RunningPeak(eq)[i];
    assert eq[0] <= p;
    FallFraction(eq[i], p);
  }

  lemma MulDiv(y: real, p: real)
    requires p > 0.0
    ensures (y * p) / p == y
  {
  }

  lemma SubDiv(e: real, p: real)
    requires p > 0.0
    ensures (e - p) / p == e / p - 1.0
  {
    var x := e / p;
    var y := x - 1.0;
    var z := e - p;
    DivMul(e, p);
    assert y * p == z;
    MulDiv(y, p);
    assert z / p == y;
  }

  /** Measured against a higher base, the same level is a deeper fall. */
  lemma DeeperFromHigher(e: real, a: real, p: real)
    requires e >= 0.0 && 0.0 < a <= p
    ensures (e - p) / p <= (e - a) / a
  {
    SubDiv(e, p);
    SubDiv(e, a);
    DivLe(e, a, p);
  }

  /** A fall from a running peak is zero exactly at a new high. */
  lemma FallZero(e: real, p: real)
    requires e <= p && p > 0.0
    ensures (e - p) / p <= 0.0
    ensures (e - p) / p == 0.0 <==> e == p
  {
    DivMono(e - p, 0.0, p);
    if e < p {
      var z := e - p;
      MulDiv(z / p, p);
      DivMul(z, p);
    }
  }

  /** The drawdown at `j` is at least as deep as the fall from any earlier `i` to `j`. */
  lemma DrawdownAtMostFall(eq: seq<real>, i: nat, j: nat)
    requires i <= j < |eq| && forall k :: 0 <= k < |eq| ==> eq[k] > 0.0
    ensures Drawdowns(eq)[j] <= (eq[j] - eq[i]) / eq[i]
  {
    PeakBounds(eq, j);
    var p := RunningPeak(eq)[j];
    assert Drawdowns(eq)[j] == (eq[j] - p) / p;
    DeeperFromHigher(eq[j], eq[i], p);
  }

  /** The deepest drawdown is the worst fall from any point to any later
      point of a positive curve: no fall is deeper ... */
  lemma MaxDrawdownBelowFalls(eq: seq<real>)
    requires |eq| > 0 && forall i :: 0 <= i < |eq| ==> eq[i] > 0.0
    ensures forall i, j :: 0 <= i <= j < |eq| ==> MaxDrawdown(eq) <= (eq[j] - eq[i]) / eq[i]
  {
    forall i, j | 0 <= i <= j < |eq| ensures MaxDrawdown(eq) <= (eq[j] - eq[i]) / eq[i] {
      DrawdownAtMostFall(eq, i, j);
    }
  }

  /** ... and one fall attains it. */
  lemma MaxDrawdownIsAFall(eq: seq<real>)
    requires |eq| > 0 && forall i :: 0 <= i < |eq| ==> eq[i] > 0.0
    ensures exists i, j :: 0 <= i <= j < |eq| && MaxDrawdown(eq) == (eq[j] - eq[i]) / eq[i]
  {
    var j := DeepestPoint(eq);
    PeakBounds(eq, j);
    var i :| 0 <= i <= j && eq[i] == RunningPeak(eq)[j];
    DrawdownAt(eq, j);
    assert 0 <= i <= j < |eq| && MaxDrawdown(eq) == (eq[j] - eq[i]) / eq[i];
  }

  /** The drawdown at `j` measured from the running peak. */
  lemma DrawdownAt(eq: seq<real>, j: nat)
    requires |eq| > 0 && eq[0] > 0.0 && j < |eq|
    ensures Drawdowns(eq)[j] == (eq[j] - RunningPeak(eq)[j]) / RunningPeak(eq)[j]
  {
  }

  /** A point where the deepest drawdown is reached. */
  lemma DeepestPoint(eq: seq<real>) returns (j: nat)
    requires |eq| > 0 && eq[0] > 0.0
    ensures j < |eq| && Drawdowns(eq)[j] == MaxDrawdown(eq)
  {
    var dd := Drawdowns(eq);
    assert MinOf(dd) in dd;
    j :| 0 <= j < |dd| && dd[j] == MinOf(dd);
  }

  /** The deepest drawdown lies in [-1, 0] for a non-negative curve. */
  lemma MaxDrawdownRange(eq: seq<real>)
    requires |eq| > 0 && eq[0] > 0.0 && forall i :: 0 <= i < |eq| ==> eq[i] >= 0.0
    ensures -1.0 <= MaxDrawdown(eq) <= 0.0
  {
    var dd := Drawdowns(eq);
    var j :| 0 <= j < |dd| && dd[j] == MaxDrawdown(eq);
    DrawdownRange(eq, j);
  }

  /** The drawdown at a point is never positive, and zero exactly at a running peak. */
  lemma DrawdownAtPeak(eq: seq<real>, j: nat)
    requires |eq| > 0 && eq[0] > 0.0 && j < |eq|
    ensures Drawdowns(eq)[j] <= 0.0
    ensures Drawdowns(eq)[j] == 0.0 <==> eq[j] == RunningPeak(eq)[j]
  {
    PeakBounds(eq, j);
    PeakBounds(eq, 0);
    FallZero(eq[j], RunningPeak(eq)[j]);
  }

  /** A curve that never falls is at its running peak everywhere, so its
      deepest drawdown is zero. */
  lemma RisingNoDrawdown(eq: seq<real>)
    requires |eq| > 0 && eq[0] > 0.0
    requires forall i, j :: 0 <= i < j < |eq| ==> eq[i] <= eq[j]
    ensures MaxDrawdown(eq) == 0.0
  {
    var dd := Drawdowns(eq);
    forall j | 0 <= j < |eq| ensures dd[j] == 0.0 {
      PeakBounds(eq, j);
      DrawdownAtPeak(eq, j);
    }
    assert dd[0] == 0.0;
  }

  /** With no drawdown, every point is a running peak, so no later point is lower. */
  lemma NoDrawdownRising(eq: seq<real>)
    requires |eq| > 0 && eq[0] > 0.0
    requires MaxDrawdown(eq) == 0.0
    ensures forall i, j :: 0 <= i < j < |eq| ==> eq[i] <= eq[j]
  {
    forall i, j | 0 <= i < j < |eq| ensures eq[i] <= eq[j] {
      assert Drawdowns(eq)[j] >= 0.0;
      DrawdownAtPeak(eq, j);
      PeakBounds(eq, j);
    }
  }

  /** There is no drawdown exactly when the curve never falls. */
  lemma MaxDrawdownZeroIff(eq: seq<real>)
    requires |eq| > 0 && eq[0] > 0.0
    ensures MaxDrawdown(eq) == 0.0 <==> forall i, j :: 0 <= i < j < |eq| ==> eq[i] <= eq[j]
  {
    if MaxDrawdown(eq) == 0.0 {
      NoDrawdownRising(eq);
    }
    if forall i, j :: 0 <= i < j < |eq| ==> eq[i] <= eq[j] {
      RisingNoDrawdown(eq);
    }
  }

  /** The curve of a run over dates that all have rows starts positive and
      stays non-negative, so its maximum drawdown lies in [-1, 0]. */
  lemma RunDrawdown(rows: seq<Row>, ds: seq<int>)
    requires PositiveRows(rows)
    requires forall i :: 0 <= i < |ds| ==> |DayRows(rows, ds[i])| > 0
    ensures var eq := Equities(Run(rows, ds).curve);
      |eq| > 0 ==> eq[0] > 0.0 && -1.0 <= MaxDrawdown(eq) <= 0.0
  {
    RunCurve(rows, ds);
    RunStart(rows, ds);
    var eq := Equities(Run(rows, ds).curve);
    if |eq| > 0 {
      MaxDrawdownRange(eq);
    }
  }

  /** What `print_results` divides by and reports on the simulated curve:
      the first equity is positive, and the maximum drawdown lies in [-1, 0]. */
  lemma SimulateDrawdown(bars: seq<Bar>)
    requires PositiveCloses(bars)
    ensures var eq := Equities(Simulate(bars).curve);
      |eq| > 0 ==> eq[0] > 0.0 && -1.0 <= MaxDrawdown(eq) <= 0.0
  {
    var rows := Annotate(bars);
    var ds := Dates(rows);
    forall i | 0 <= i < |ds| ensures |DayRows(rows, ds[i])| > 0 {
      DayRowsNonEmpty(rows, ds[i]);
    }
    RunDrawdown(rows, ds);
  }
}

=== FILE: scan.dfy ===
/** The daily scanner of src/scan.py (`analyze_market`): on the latest date
    of the loaded panel it measures market breadth, the share of instruments
    closing above their 75-day average, and only when breadth reaches 40%
    lists the pullback candidates, cheapest relative to their 25-day average
    first. */
module Scan {
  import opened Wrappers
  import opened Seqs
  import opened Indicators

  const DipThreshold: real := 0.97
  const BullishThreshold: real := 0.40
  /** Candidates printed (`candidates.head(20)`). */
  const MaxShown: nat := 20

  /** What the scan reports: no data, a red market (no entries), or a green
      market with its candidate list. */
  datatype Report =
    | NoData
    | Red(breadth: real)
    | Green(breadth: real, candidates: seq<Row>)

  /** `df['date'].max()`. */
  function LatestDate(rows: seq<Row>): (d: int)
    requires |rows| > 0
    ensures exists i :: 0 <= i < |rows| && rows[i].bar.date == d
    ensures forall i :: 0 <= i < |rows| ==> rows[i].bar.date <= d
  {
    if |rows| == 1 then rows[0].bar.date
    else
      var m := LatestDate(rows[..|rows| - 1]);
      var x := rows[|rows| - 1].bar.date;
      assert forall i :: 0 <= i < |rows| - 1 ==> rows[..|rows| - 1][i] == rows[i];
      if x >= m then x else m
  }

  /** `df[df['date'] == d]`. */
  function OnDate(rows: seq<Row>, d: int): (r: seq<Row>)
    ensures forall i :: 0 <= i < |r| ==> r[i] in rows && r[i].bar.date == d
    ensures forall i :: 0 <= i < |rows| && rows[i].bar.date == d ==> rows[i] in r
  {
    Filter(rows, (x: Row) => x.bar.date == d)
  }

  function IsBullishRow(r: Row): bool
  {
    IsBullish(r)
  }

  /** `n_bullish / n_stocks if n_stocks > 0 else 0`. */
  function Breadth(latest: seq<Row>): real
  {
    if |latest| == 0 then 0.0 else Count(latest, IsBullishRow) as real / |latest| as real
  }

  /** Breadth is a fraction in `[0, 1]`. */
  lemma BreadthRange(latest: seq<Row>)
    ensures 0.0 <= Breadth(latest) <= 1.0
  {
    if |latest| > 0 {
      CountBound(latest, IsBullishRow);
      var c := Count(latest, IsBullishRow) as real;
      var n := |latest| as real;
      var q := c / n;
      assert q * n == c;
    }
  }

  /** An instrument without 75 closes yet counts among the stocks but never
      as bullish: it adds to the denominator only, so it never raises the
      breadth and lowers it whenever some stock of the day is bullish. */
  lemma YoungStockDilutes(latest: seq<Row>, r: Row)
    requires r.maLong.None?
    ensures Count(latest + [r], IsBullishRow) == Count(latest, IsBullishRow)
    ensures Breadth(latest + [r]) == Count(latest, IsBullishRow) as real / (|latest| + 1) as real
    ensures Breadth(latest + [r]) <= Breadth(latest)
    ensures Count(latest, IsBullishRow) > 0 ==> Breadth(latest + [r]) < Breadth(latest)
  {
    assert (latest + [r])[..|latest + [r]| - 1] == latest;
    if |latest| > 0 {
      ShareShrinks(Count(latest, IsBullishRow) as real, |latest| as real);
    } else {
      assert Count(latest, IsBullishRow) == 0;
    }
  }

  /** A non-negative count spread over one more member gives a share no
      larger, and strictly smaller when the count is positive. */
  lemma ShareShrinks(c: real, n: real)
    requires c >= 0.0 && n > 0.0
    ensures c / (n + 1.0) <= c / n
    ensures c > 0.0 ==> c / (n + 1.0) < c / n
  {
    var a := c / (n + 1.0);
    var b := c / n;
    assert a * (n + 1.0) == c;
    assert b * n == c;
    assert a >= 0.0;
    assert a * n == c - a;
    if c > 0.0 {
      assert a > 0.0;
      assert a * n < b * n;
    } else {
      assert a * n <= b * n;
    }
  }

  /** `entry_signal` at the scanner's threshold on one row. */
  function IsCandidate(r: Row): bool
  {
    EntrySignal(r, DipThreshold)
  }

  /** Candidates sorted by `dip_ratio`, at most `MaxShown` of them. */
  function Shortlist(latest: seq<Row>): seq<Row>
  {
    Take(SortBy(Filter(latest, IsCandidate), RankKey), MaxShown)
  }

  /** The gate and shortlist on the annotated panel. */
  function Decide(rows: seq<Row>): Report
    requires |rows| > 0
  {
    var latest := OnDate(rows, LatestDate(rows));
    var b := Breadth(latest);
    if b >= BullishThreshold then Green(b, Shortlist(latest)) else Red(b)
  }

  /** `analyze_market` after loading: gate on breadth, then shortlist. */
  function Analyze(bars: seq<Bar>): (r: Report)
  {
    if |bars| == 0 then NoData else Decide(Annotate(bars))
  }

  /** The report is red exactly when breadth is below 40%, and the
      reported breadth is that of the latest date's rows. */
  lemma DecideGate(rows: seq<Row>)
    requires |rows| > 0
    ensures var b := Breadth(OnDate(rows, LatestDate(rows)));
      && !Decide(rows).NoData?
      && Decide(rows).breadth == b
      && 0.0 <= b <= 1.0
      && (Decide(rows).Red? <==> b < BullishThreshold)
  {
    BreadthRange(OnDate(rows, LatestDate(rows)));
  }

  /** Only an empty panel gives no report. */
  lemma AnalyzeNoData(bars: seq<Bar>)
    ensures Analyze(bars).NoData? <==> |bars| == 0
  {
    if |bars| > 0 {
      DecideGate(Annotate(bars));
    }
  }

  /** Every shortlisted row is a signalled row of the day. */
  lemma ShortlistRows(latest: seq<Row>)
    ensures forall i :: 0 <= i < |Shortlist(latest)| ==> Shortlist(latest)[i] in latest && IsCandidate(Shortlist(latest)[i])
  {
    var f := Filter(latest, IsCandidate);
    var sorted := SortBy(f, RankKey);
    forall i | 0 <= i < |Shortlist(latest)| ensures Shortlist(latest)[i] in latest && IsCandidate(Shortlist(latest)[i]) {
      assert Shortlist(latest)[i] == sorted[i];
      assert sorted[i] in multiset(f);
    }
  }

  /** With at most 20 signalled rows, none is cut. */
  lemma ShortlistComplete(latest: seq<Row>)
    ensures |Filter(latest, IsCandidate)| <= MaxShown ==>
      forall i :: 0 <= i < |latest| && IsCandidate(latest[i]) ==> latest[i] in Shortlist(latest)
  {
    var f := Filter(latest, IsCandidate);
    var sorted := SortBy(f, RankKey);
    if |f| <= MaxShown {
      assert Shortlist(latest) == sorted;
      forall i | 0 <= i < |latest| && IsCandidate(latest[i]) ensures latest[i] in sorted {
        assert latest[i] in multiset(f);
      }
    }
  }

  /** Every shortlisted row is a row of the day with an entry signal at 0.97
      and a priority score below 0.97; the list is ascending in that score and
      holds at most 20 rows; with at most 20 signalled rows, all of them are
      listed. */
  lemma ShortlistSpec(latest: seq<Row>)
    requires PositiveRows(latest)
    ensures var s := Shortlist(latest);
      && |s| <= MaxShown
      && SortedBy(s, RankKey)
      && (forall i :: 0 <= i < |s| ==> s[i] in latest && IsCandidate(s[i]) && RankKey(s[i]) < DipThreshold)
      && (|Filter(latest, IsCandidate)| <= MaxShown ==>
            forall i :: 0 <= i < |latest| && IsCandidate(latest[i]) ==> latest[i] in s)
  {
    var s := Shortlist(latest);
    TakeOfSorted(SortBy(Filter(latest, IsCandidate), RankKey), MaxShown, RankKey);
    ShortlistRows(latest);
    ShortlistComplete(latest);
    forall i | 0 <= i < |s| ensures RankKey(s[i]) < DipThreshold {
      var k :| 0 <= k < |latest| && latest[k] == s[i];
      EntrySignalHasScore(s[i], DipThreshold);
    }
  }

  /** Rows cut by the 20-row limit rank no better than any row shown. */
  lemma ShortlistRanksFirst(latest: seq<Row>)
    ensures var s := Shortlist(latest);
      var sorted := SortBy(Filter(latest, IsCandidate), RankKey);
      forall i, j :: 0 <= i < |s| <= j < |sorted| ==> RankKey(s[i]) <= RankKey(sorted[j])
  {
    TakeOfSorted(SortBy(Filter(latest, IsCandidate), RankKey), MaxShown, RankKey);
  }

  /** On a green day every candidate is a row of the panel's latest date
      with an entry signal at 0.97. */
  lemma DecideCandidates(rows: seq<Row>)
    requires |rows| > 0 && PositiveRows(rows)
    ensures Decide(rows).Green? ==>
      forall i :: 0 <= i < |Decide(rows).candidates| ==>
        var c := Decide(rows).candidates[i];
        c in rows && c.bar.date == LatestDate(rows) && IsCandidate(c)
  {
    var d := LatestDate(rows);
    var latest := OnDate(rows, d);
    forall i | 0 <= i < |latest| ensures latest[i].bar.close > 0.0 {
      var j :| 0 <= j < |rows| && rows[j] == latest[i];
    }
    ShortlistSpec(latest);
  }
}

=== FILE: seqs.dfy ===
/** Sequence helpers shared by the pandas-style computations: filtering rows,
    taking a head, summing a column and sorting by a real-valued column. */
module Seqs {

  /** Rows of `xs` satisfying `p`, in their original order (a boolean mask). */
  function Filter<T>(xs: seq<T>, p: T -> bool): (r: seq<T>)
    ensures |r| <= |xs|
    ensures forall i :: 0 <= i < |r| ==> r[i] in xs && p(r[i])
    ensures forall i :: 0 <= i < |xs| && p(xs[i]) ==> xs[i] in r
    ensures multiset(r) <= multiset(xs)
  {
    if |xs| == 0 then []
    else
      assert xs == [xs[0]] + xs[1..];
      if p(xs[0]) then [xs[0]] + Filter(xs[1..], p) else Filter(xs[1..], p)
  }

  /** The first row kept by the mask is the first row of `xs` that satisfies `p`. */
  lemma {:induction false} FilterFirst<T>(xs: seq<T>, p: T -> bool) returns (k: nat)
    requires |Filter(xs, p)| > 0
    ensures k < |xs| && p(xs[k]) && Filter(xs, p)[0] == xs[k]
    ensures forall j :: 0 <= j < k ==> !p(xs[j])
  {
    if p(xs[0]) {
      k := 0;
    } else {
      var k' := FilterFirst(xs[1..], p);
      k := k' + 1;
      forall j | 0 <= j < k ensures !p(xs[j]) {
        if j > 0 {
          assert xs[j] == xs[1..][j - 1];
        }
      }
    }
  }

  /** One step of the mask. */
  lemma FilterCons<T>(xs: seq<T>, p: T -> bool)
    requires |xs| > 0
    ensures Filter(xs, p) == if p(xs[0]) then [xs[0]] + Filter(xs[1..], p) else Filter(xs[1..], p)
  {
  }

  /** The rows of `xs` satisfying `p` are ordered by `key`. */
  predicate OrderedWhere<T>(xs: seq<T>, p: T -> bool, key: T -> int)
  {
    forall i, j :: 0 <= i < j < |xs| && p(xs[i]) && p(xs[j]) ==> key(xs[i]) <= key(xs[j])
  }

  lemma OrderedWhereTail<T>(xs: seq<T>, p: T -> bool, key: T -> int)
    requires |xs| > 0 && OrderedWhere(xs, p, key)
    ensures OrderedWhere(xs[1..], p, key)
  {
    var tail := xs[1..];
    forall i, j | 0 <= i < j < |tail| && p(tail[i]) && p(tail[j]) ensures key(tail[i]) <= key(tail[j]) {
      assert tail[i] == xs[i + 1] && tail[j] == xs[j + 1];
    }
  }

  /** A selected head sorts no later than any selected row after it. */
  lemma OrderedWhereHead<T>(xs: seq<T>, p: T -> bool, key: T -> int, y: T)
    requires |xs| > 0 && OrderedWhere(xs, p, key) && p(xs[0])
    requires y in xs[1..] && p(y)
    ensures key(xs[0]) <= key(y)
  {
    var j :| 0 <= j < |xs[1..]| && xs[1..][j] == y;
    assert xs[j + 1] == y;
  }

  /** The mask keeps the rows it selects in their order: rows of `xs` that
      are ordered by `key` stay ordered after filtering. */
  lemma {:induction false} FilterKeepsOrder<T>(xs: seq<T>, p: T -> bool, key: T -> int)
    requires OrderedWhere(xs, p, key)
    ensures forall a, b :: 0 <= a < b < |Filter(xs, p)| ==> key(Filter(xs, p)[a]) <= key(Filter(xs, p)[b])
  {
    if |xs| > 0 {
      OrderedWhereTail(xs, p, key);
      FilterKeepsOrder(xs[1..], p, key);
      var rest := Filter(xs[1..], p);
      FilterCons(xs, p);
      if p(xs[0]) {
        var r := [xs[0]] + rest;
        forall a, b | 0 <= a < b < |r| ensures key(r[a]) <= key(r[b]) {
          if a == 0 {
            OrderedWhereHead(xs, p, key, rest[b - 1]);
          }
        }
        assert Filter(xs, p) == r;
      }
    }
  }

  /** The first `n` elements, or all of them when there are fewer (`head(n)`). */
  function Take<T>(xs: seq<T>, n: nat): seq<T>
  {
    if n <= |xs| then xs[..n] else xs
  }

  /** Number of elements satisfying `p`. */
  function Count<T>(xs: seq<T>, p: T -> bool): nat
  {
    if |xs| == 0 then 0
    else (if p(xs[|xs| - 1]) then 1 else 0) + Count(xs[..|xs| - 1], p)
  }

  function Sum(xs: seq<real>): real
  {
    if |xs| == 0 then 0.0 else Sum(xs[..|xs| - 1]) + xs[|xs| - 1]
  }

  /** Arithmetic mean of a non-empty column. */
  function Mean(xs: seq<real>): real
    requires |xs| > 0
  {
    Sum(xs) / |xs| as real
  }

  function Max(a: real, b: real): real
  {
    if a >= b then a else b
  }

  function Min(a: real, b: real): real
  {
    if a <= b then a else b
  }

  function MinNat(a: nat, b: nat): nat
  {
    if a <= b then a else b
  }

  /** Largest element of a non-empty column. */
  function MaxOf(xs: seq<real>): (m: real)
    requires |xs| > 0
    ensures m in xs
    ensures forall i :: 0 <= i < |xs| ==> xs[i] <= m
  {
    if |xs| == 1 then xs[0] else Max(MaxOf(xs[..|xs| - 1]), xs[|xs| - 1])
  }

  /** Smallest element of a non-empty column. */
  function MinOf(xs: seq<real>): (m: real)
    requires |xs| > 0
    ensures m in xs
    ensures forall i :: 0 <= i < |xs| ==> m <= xs[i]
  {
    if |xs| == 1 then xs[0] else Min(MinOf(xs[..|xs| - 1]), xs[|xs| - 1])
  }

  lemma {:induction false} CountBound<T>(xs: seq<T>, p: T -> bool)
    ensures Count(xs, p) <= |xs|
  {
    if |xs| > 0 {
      CountBound(xs[..|xs| - 1], p);
    }
  }

  /** Every element lies between `lo` and `hi`, so the sum lies between `n*lo` and `n*hi`. */
  lemma {:induction false} SumBounds(xs: seq<real>, lo: real, hi: real)
    requires forall i :: 0 <= i < |xs| ==> lo <= xs[i] <= hi
    ensures |xs| as real * lo <= Sum(xs) <= |xs| as real * hi
  {
    if |xs| > 0 {
      SumBounds(xs[..|xs| - 1], lo, hi);
    }
  }

  /** The mean of a column lies between any lower and upper bound of its elements. */
  lemma MeanBounds(xs: seq<real>, lo: real, hi: real)
    requires |xs| > 0
    requires forall i :: 0 <= i < |xs| ==> lo <= xs[i] <= hi
    ensures lo <= Mean(xs) <= hi
  {
    SumBounds(xs, lo, hi);
    var n := |xs| as real;
    assert n * lo <= Sum(xs) <= n * hi;
    assert lo == (n * lo) / n;
    assert hi == (n * hi) / n;
  }

  /** A non-empty sequence is its prefix followed by its last element. */
  lemma LastSplit<T>(xs: seq<T>)
    requires |xs| > 0
    ensures xs == xs[..|xs| - 1] + [xs[|xs| - 1]]
  {
  }

  /** `xs` is ascending in `key` (pandas `sort_values(key)`; ties unordered). */
  predicate SortedBy<T>(xs: seq<T>, key: T -> real)
  {
    forall i, j :: 0 <= i < j < |xs| ==> key(xs[i]) <= key(xs[j])
  }

  /** Inserts `x` into an ascending sequence, after the elements with a smaller or equal key. */
  function Insert<T>(x: T, xs: seq<T>, key: T -> real): (r: seq<T>)
    requires SortedBy(xs, key)
    ensures SortedBy(r, key)
    ensures multiset(r) == multiset(xs) + multiset{x}
    ensures forall i :: 0 <= i < |r| ==> r[i] == x || r[i] in xs
  {
    if |xs| == 0 then [x]
    else if key(x) < key(xs[0]) then [x] + xs
    else
      var rest := Insert(x, xs[1..], key);
      InsertStep(x, xs, rest, key);
      [xs[0]] + rest
  }

  /** The step of `Insert` past a head that sorts no later than `x`. */
  lemma InsertStep<T>(x: T, xs: seq<T>, rest: seq<T>, key: T -> real)
    requires |xs| > 0 && SortedBy(xs, key) && key(xs[0]) <= key(x)
    requires SortedBy(rest, key) && multiset(rest) == multiset(xs[1..]) + multiset{x}
    requires forall i :: 0 <= i < |rest| ==> rest[i] == x || rest[i] in xs[1..]
    ensures SortedBy([xs[0]] + rest, key)
    ensures multiset([xs[0]] + rest) == multiset(xs) + multiset{x}
    ensures forall i :: 0 <= i < |[xs[0]] + rest| ==> ([xs[0]] + rest)[i] == x || ([xs[0]] + rest)[i] in xs
  {
    assert xs == [xs[0]] + xs[1..];
    forall i | 0 <= i < |rest| ensures key(xs[0]) <= key(rest[i]) {
      if rest[i] != x {
        var j :| 0 <= j < |xs[1..]| && xs[1..][j] == rest[i];
        assert xs[j + 1] == rest[i];
      }
    }
  }

  /** Sorts by `key`, ascending: a permutation of `xs` that is `SortedBy(key)`. */
  function SortBy<T>(xs: seq<T>, key: T -> real): (r: seq<T>)
    ensures SortedBy(r, key)
    ensures multiset(r) == multiset(xs)
    ensures |r| == |xs|
  {
    if |xs| == 0 then []
    else
      assert xs == [xs[0]] + xs[1..];
      Insert(xs[0], SortBy(xs[1..], key), key)
  }

  /** Taking a head of a sorted sequence leaves only elements no larger than
      any element left behind. */
  lemma TakeOfSorted<T>(xs: seq<T>, n: nat, key: T -> real)
    requires SortedBy(xs, key)
    ensures SortedBy(Take(xs, n), key)
    ensures forall i, j :: 0 <= i < |Take(xs, n)| <= j < |xs| ==> key(Take(xs, n)[i]) <= key(xs[j])
    ensures |Take(xs, n)| == if n <= |xs| then n else |xs|
  {
  }

  /** A head keeps no more copies of any element than the whole. */
  lemma TakeSubMultiset<T>(xs: seq<T>, n: nat)
    ensures multiset(Take(xs, n)) <= multiset(xs)
  {
    if n <= |xs| {
      assert xs == xs[..n] + xs[n..];
      assert multiset(xs) == multiset(xs[..n]) + multiset(xs[n..]);
    }
  }

  /** The head has `min(n, |xs|)` elements. */
  lemma TakeLength<T>(xs: seq<T>, n: nat)
    ensures |Take(xs, n)| == MinNat(n, |xs|)
  {
  }

  /** `unique()`: every value once, in order of first appearance. */
  function Unique<T(==)>(xs: seq<T>): (r: seq<T>)
    ensures forall i, j :: 0 <= i < j < |r| ==> r[i] != r[j]
    ensures forall i :: 0 <= i < |r| ==> r[i] in xs
    ensures forall i :: 0 <= i < |xs| ==> xs[i] in r
  {
    if |xs| == 0 then []
    else
      var init := xs[..|xs| - 1];
      var prev := Unique(init);
      var x := xs[|xs| - 1];
      assert forall i :: 0 <= i < |init| ==> init[i] == xs[i];
      if x in prev then prev else prev + [x]
  }

  /** On a non-decreasing column, the unique values come out strictly increasing. */
  lemma {:induction false} UniqueOfNonDecreasing(xs: seq<int>)
    requires forall i, j :: 0 <= i < j < |xs| ==> xs[i] <= xs[j]
    ensures forall i, j :: 0 <= i < j < |Unique(xs)| ==> Unique(xs)[i] < Unique(xs)[j]
  {
    if |xs| > 0 {
      var init := xs[..|xs| - 1];
      UniqueOfNonDecreasing(init);
      var prev := Unique(init);
      var x := xs[|xs| - 1];
      forall i | 0 <= i < |prev| ensures prev[i] <= x {
        assert prev[i] in init;
      }
    }
  }

  /** No value occurs twice. */
  predicate Distinct<T(==)>(xs: seq<T>)
  {
    forall i, j :: 0 <= i < j < |xs| ==> xs[i] != xs[j]
  }

  /** In a sequence without repeats every value has multiplicity at most one. */
  lemma {:induction false} DistinctOnce<T>(xs: seq<T>, x: T)
    requires Distinct(xs)
    ensures multiset(xs)[x] <= 1
  {
    if |xs| > 0 {
      var init := xs[..|xs| - 1];
      var y := xs[|xs| - 1];
      assert Distinct(init);
      DistinctOnce(init, x);
      assert xs == init + [y];
      if x == y {
        assert x !in init;
      }
    }
  }

  /** A value found at two positions has multiplicity at least two. */
  lemma Repeated<T>(xs: seq<T>, i: nat, j: nat)
    requires i < j < |xs| && xs[i] == xs[j]
    ensures multiset(xs)[xs[i]] >= 2
  {
    assert xs == xs[..j] + [xs[j]] + xs[j + 1..];
    assert xs[i] in xs[..j];
  }
}

=== FILE: strategy.dfy ===
/** The per-instrument strategy of src/backtest.py (`run_strategy`): at most
    one long position per code, opened on a pullback inside a golden-cross
    trend and closed by a hard stop-loss, checked first, or a trailing stop. */
module Strategy {
  import opened Wrappers
  import opened Seqs
  import opened Indicators

  /** One entry of the parameter grid: the pullback threshold and the two
      stop fractions. */
  datatype Params = Params(dip: real, stopLoss: real, trailing: real)

  datatype Reason = StopLoss | Trailing

  /** One row of the trade log; its `return` column is `Return` below. */
  datatype Trade = Trade(code: string, entryDate: int, exitDate: int,
                         entryPrice: real, exitPrice: real, reason: Reason)

  /** `(exit_price - entry_price) / entry_price`. */
  function Return(t: Trade): real
    requires t.entryPrice > 0.0
  {
    (t.exitPrice - t.entryPrice) / t.entryPrice
  }

  /** `position`, with `entry_price`, `entry_date` and `high_since_entry`
      only meaningful while long. */
  datatype Pos = Flat | Long(entryPrice: real, entryDate: int, high: real)

  /** What one row does: the next position and the trade it closed, if any. */
  datatype Tick = Tick(pos: Pos, trade: Option<Trade>)

  function StopLevel(entry: real, p: Params): real
  {
    entry * (1.0 - p.stopLoss)
  }

  function TrailLevel(high: real, p: Params): real
  {
    high * (1.0 - p.trailing)
  }

  /** One iteration of the row loop. A row with an undefined average is
      skipped. When flat, an entry signal opens a position at the close. When
      long, the high-water mark is raised first; then the stop-loss is checked,
      and only if it did not fire, the trailing stop. */
  function Step(pos: Pos, row: Row, p: Params): Tick
  {
    if row.maShort.None? || row.maLong.None? then Tick(pos, None)
    else match pos
      case Flat =>
        if EntrySignal(row, p.dip) then Tick(Long(row.bar.close, row.bar.date, row.bar.close), None)
        else Tick(Flat, None)
      case Long(entry, since, high) =>
        var h := if row.bar.high > high then row.bar.high else high;
        if row.bar.low <= StopLevel(entry, p) then
          Tick(Flat, Some(Trade(row.bar.code, since, row.bar.date, entry, StopLevel(entry, p), StopLoss)))
        else if row.bar.low <= TrailLevel(h, p) then
          Tick(Flat, Some(Trade(row.bar.code, since, row.bar.date, entry, TrailLevel(h, p), Trailing)))
        else Tick(Long(entry, since, h), None)
  }

  /** Rows whose moving averages are undefined change nothing. */
  lemma StepSkipsUndefined(pos: Pos, row: Row, p: Params)
    requires row.maShort.None? || row.maLong.None?
    ensures Step(pos, row, p) == Tick(pos, None)
  {
  }

  /** When flat: no trade, and a position is opened, at the close with the
      high-water mark at the close, exactly on an entry signal. */
  lemma StepWhenFlat(row: Row, p: Params)
    ensures Step(Flat, row, p).trade.None?
    ensures Step(Flat, row, p).pos.Long? <==> row.maLong.Some? && EntrySignal(row, p.dip)
    ensures Step(Flat, row, p).pos.Long? ==>
      Step(Flat, row, p).pos == Long(row.bar.close, row.bar.date, row.bar.close)
  {
  }

  /** When long with both averages defined: the stop-loss fires exactly when
      the low reaches the entry stop, and then fills at that stop; the
      trailing stop fires exactly when the stop-loss did not and the low
      reaches the trail below the raised high, and then fills at that trail;
      otherwise the position stays open with the raised high. */
  lemma StepWhenLong(entry: real, since: int, high: real, row: Row, p: Params)
    requires row.maShort.Some? && row.maLong.Some?
    ensures var t := Step(Long(entry, since, high), row, p);
      var h := Max(high, row.bar.high);
      && (t.trade.Some? <==> t.pos == Flat)
      && (t.trade.Some? ==> t.trade.value.entryDate == since && t.trade.value.exitDate == row.bar.date
                            && t.trade.value.entryPrice == entry && t.trade.value.code == row.bar.code)
      && (t.trade.Some? && t.trade.value.reason == StopLoss <==> row.bar.low <= StopLevel(entry, p))
      && (t.trade.Some? && t.trade.value.reason == StopLoss ==> t.trade.value.exitPrice == StopLevel(entry, p))
      && (t.trade.Some? && t.trade.value.reason == Trailing <==>
            StopLevel(entry, p) < row.bar.low <= TrailLevel(h, p))
      && (t.trade.Some? && t.trade.value.reason == Trailing ==> t.trade.value.exitPrice == TrailLevel(h, p))
      && (t.trade.None? ==> t.pos == Long(entry, since, h))
  {
  }

  /** A stop-loss trade returns exactly minus the stop-loss fraction. */
  lemma StopLossReturn(t: Trade, p: Params)
    requires t.entryPrice > 0.0 && t.exitPrice == StopLevel(t.entryPrice, p)
    ensures Return(t) == -p.stopLoss
  {
    var e := t.entryPrice;
    assert t.exitPrice - e == -p.stopLoss * e;
    assert (-p.stopLoss * e) / e == -p.stopLoss;
  }

  /** A fill strictly above the entry stop returns more than minus the
      stop-loss fraction. */
  lemma AboveStopReturn(t: Trade, p: Params)
    requires t.entryPrice > 0.0 && t.exitPrice > StopLevel(t.entryPrice, p)
    ensures Return(t) > -p.stopLoss
  {
    var e := t.entryPrice;
    var d := t.exitPrice - e;
    assert d > -p.stopLoss * e;
    DivStrict(-p.stopLoss * e, d, e);
    assert (-p.stopLoss * e) / e == -p.stopLoss;
  }

  lemma DivStrict(u: real, v: real, b: real)
    requires u < v && b > 0.0
    ensures u / b < v / b
  {
  }

  /** What the row loop keeps true: an open position has a positive entry
      price at or below its high-water mark. */
  predicate SaneLong(pos: Pos)
  {
    pos.Long? ==> 0.0 < pos.entryPrice <= pos.high
  }

  /** What every trade satisfies: a positive entry price and a return of at
      least minus the stop-loss fraction, exactly that for a stop-loss exit
      and strictly more for a trailing exit. */
  predicate SoundTrade(t: Trade, p: Params)
  {
    && t.entryPrice > 0.0
    && Return(t) >= -p.stopLoss
    && (t.reason == StopLoss ==> Return(t) == -p.stopLoss)
    && (t.reason == Trailing ==> t.exitPrice > StopLevel(t.entryPrice, p) && Return(t) > -p.stopLoss)
  }

  /** One step from a sane position on a row with a positive close: the
      position stays sane, its high-water mark never falls, and any trade is sound. */
  lemma StepSound(pos: Pos, row: Row, p: Params)
    requires SaneLong(pos) && row.bar.close > 0.0
    ensures SaneLong(Step(pos, row, p).pos)
    ensures pos.Long? && Step(pos, row, p).pos.Long? ==>
      Step(pos, row, p).pos.entryPrice == pos.entryPrice && Step(pos, row, p).pos.high >= pos.high
    ensures Step(pos, row, p).trade.Some? ==> SoundTrade(Step(pos, row, p).trade.value, p)
  {
    var r := Step(pos, row, p);
    if pos.Long? && row.maShort.Some? && row.maLong.Some? {
      StepWhenLong(pos.entryPrice, pos.entryDate, pos.high, row, p);
      if r.trade.Some? {
        var t := r.trade.value;
        if t.reason == StopLoss {
          StopLossReturn(t, p);
        } else {
          AboveStopReturn(t, p);
        }
      }
    }
  }

  /** The row loop over one code's rows, in date order. */
  datatype CodeRun = CodeRun(pos: Pos, trades: seq<Trade>)

  function RunCode(rows: seq<Row>, p: Params): CodeRun
  {
    if |rows| == 0 then CodeRun(Flat, [])
    else
      var prev := RunCode(rows[..|rows| - 1], p);
      var t := Step(prev.pos, rows[|rows| - 1], p);
      CodeRun(t.pos, prev.trades + (if t.trade.Some? then [t.trade.value] else []))
  }

  /** With positive closes the open position stays sane and every trade is sound. */
  lemma {:induction false} RunCodeSound(rows: seq<Row>, p: Params)
    requires PositiveRows(rows)
    ensures SaneLong(RunCode(rows, p).pos)
    ensures forall k :: 0 <= k < |RunCode(rows, p).trades| ==> SoundTrade(RunCode(rows, p).trades[k], p)
  {
    if |rows| > 0 {
      var init := rows[..|rows| - 1];
      RunCodeSound(init, p);
      var prev := RunCode(init, p);
      StepSound(prev.pos, rows[|rows| - 1], p);
    }
  }

  predicate IncreasingDates(rows: seq<Row>)
  {
    forall i, j :: 0 <= i < j < |rows| ==> rows[i].bar.date < rows[j].bar.date
  }

  /** Trades that are disjoint in time: each exits strictly after it
      entered and the next enters strictly after the previous exit. */
  predicate Disjoint(ts: seq<Trade>)
  {
    && (forall k :: 0 <= k < |ts| ==> ts[k].entryDate < ts[k].exitDate)
    && (forall k :: 0 < k < |ts| ==> ts[k - 1].exitDate < ts[k].entryDate)
  }

  /** A run whose trades are disjoint, whose open position (if any) entered
      after the last exit, and in which nothing happened after day `d`. */
  predicate Chronological(r: CodeRun, d: int)
  {
    && Disjoint(r.trades)
    && (r.pos.Long? ==> r.pos.entryDate <= d)
    && (r.pos.Long? && |r.trades| > 0 ==> r.trades[|r.trades| - 1].exitDate < r.pos.entryDate)
    && (|r.trades| > 0 ==> r.trades[|r.trades| - 1].exitDate <= d)
  }

  lemma DisjointAppend(ts: seq<Trade>, t: Trade)
    requires Disjoint(ts) && t.entryDate < t.exitDate
    requires |ts| > 0 ==> ts[|ts| - 1].exitDate < t.entryDate
    ensures Disjoint(ts + [t])
  {
    var all := ts + [t];
    forall k | 0 < k < |all| ensures all[k - 1].exitDate < all[k].entryDate {
      if k < |all| - 1 {
        assert all[k - 1] == ts[k - 1] && all[k] == ts[k];
      }
    }
  }

  /** A row dated strictly after everything so far keeps the run chronological. */
  lemma StepChronological(prev: CodeRun, row: Row, d: int, p: Params)
    requires Chronological(prev, d) && d < row.bar.date
    ensures var t := Step(prev.pos, row, p);
      Chronological(CodeRun(t.pos, prev.trades + (if t.trade.Some? then [t.trade.value] else [])), row.bar.date)
  {
    var t := Step(prev.pos, row, p);
    if prev.pos.Long? && row.maShort.Some? && row.maLong.Some? {
      StepWhenLong(prev.pos.entryPrice, prev.pos.entryDate, prev.pos.high, row, p);
      if t.trade.Some? {
        DisjointAppend(prev.trades, t.trade.value);
      }
    }
  }

  /** On rows with increasing dates the trades of one code are disjoint in
      time: each exits strictly after it entered (the exit test is never
      reached on the entry row), the next enters strictly after the previous
      exit, and an open position entered after the last exit. */
  lemma {:induction false} RunCodeChronology(rows: seq<Row>, p: Params)
    requires IncreasingDates(rows) && |rows| > 0
    ensures Chronological(RunCode(rows, p), rows[|rows| - 1].bar.date)
  {
    var init := rows[..|rows| - 1];
    var row := rows[|rows| - 1];
    if |init| == 0 {
      StepChronological(CodeRun(Flat, []), row, row.bar.date - 1, p);
    } else {
      assert IncreasingDates(init);
      RunCodeChronology(init, p);
      assert init[|init| - 1].bar.date < row.bar.date;
      StepChronological(RunCode(init, p), row, init[|init| - 1].bar.date, p);
    }
  }

  // ------------------------------------------------------------ the panel

  function DateKey(r: Row): real
  {
    r.bar.date as real
  }

  /** `sub_df.sort_values('date')` for one code's group. */
  function CodeRows(rows: seq<Row>, code: string): seq<Row>
  {
    SortBy(Filter(rows, (r: Row) => r.bar.code == code), DateKey)
  }

  /** The row loop for every code, in order of first appearance, with the
      trade logs concatenated. */
  function RunCodes(rows: seq<Row>, codes: seq<string>, p: Params): seq<Trade>
  {
    if |codes| == 0 then []
    else RunCodes(rows, codes[..|codes| - 1], p) + RunCode(CodeRows(rows, codes[|codes| - 1]), p).trades
  }

  /** `run_strategy(df, params)`. */
  function RunStrategy(rows: seq<Row>, p: Params): seq<Trade>
  {
    RunCodes(rows, Unique(CodeColumn(rows)), p)
  }

  /** Every row of a code's group belongs to that code and comes from the panel. */
  lemma CodeRowsFromPanel(rows: seq<Row>, code: string)
    ensures forall i :: 0 <= i < |CodeRows(rows, code)| ==>
      CodeRows(rows, code)[i] in rows && CodeRows(rows, code)[i].bar.code == code
    ensures SortedBy(CodeRows(rows, code), DateKey)
  {
    var f := Filter(rows, (r: Row) => r.bar.code == code);
    var s := CodeRows(rows, code);
    forall i | 0 <= i < |s| ensures s[i] in rows && s[i].bar.code == code {
      assert s[i] in multiset(s);
      var j :| 0 <= j < |f| && f[j] == s[i];
    }
  }

  /** With positive closes every trade on the panel is sound: it returns at
      least minus the stop-loss fraction. */
  lemma {:induction false} RunCodesSound(rows: seq<Row>, codes: seq<string>, p: Params)
    requires PositiveRows(rows)
    ensures forall k :: 0 <= k < |RunCodes(rows, codes, p)| ==> SoundTrade(RunCodes(rows, codes, p)[k], p)
  {
    if |codes| > 0 {
      var c := codes[|codes| - 1];
      RunCodesSound(rows, codes[..|codes| - 1], p);
      CodeRowsFromPanel(rows, c);
      var g := CodeRows(rows, c);
      forall i | 0 <= i < |g| ensures g[i].bar.close > 0.0 {
        var j :| 0 <= j < |rows| && rows[j] == g[i];
      }
      RunCodeSound(g, p);
    }
  }

  lemma RunStrategySound(rows: seq<Row>, p: Params)
    requires PositiveRows(rows)
    ensures forall k :: 0 <= k < |RunStrategy(rows, p)| ==> SoundTrade(RunStrategy(rows, p)[k], p)
  {
    RunCodesSound(rows, Unique(CodeColumn(rows)), p);
  }

  /** Under the table's key, one code's group is strictly increasing in date. */
  lemma CodeRowsIncreasing(rows: seq<Row>, code: string)
    requires OneRowPerDay(rows)
    ensures IncreasingDates(CodeRows(rows, code))
  {
    var f := Filter(rows, (r: Row) => r.bar.code == code);
    var s := CodeRows(rows, code);
    CodeRowsFromPanel(rows, code);
    assert Distinct(rows);
    forall i, j | 0 <= i < j < |s| ensures s[i].bar.date < s[j].bar.date {
      assert DateKey(s[i]) <= DateKey(s[j]);
      if s[i].bar.date == s[j].bar.date {
        var a :| 0 <= a < |rows| && rows[a] == s[i];
        var b :| 0 <= b < |rows| && rows[b] == s[j];
        assert a == b;
        Repeated(s, i, j);
        DistinctOnce(rows, s[i]);
        assert false;
      }
    }
  }

  /** Under the table's key every trade on the panel exits strictly after it entered. */
  lemma {:induction false} RunCodesChronology(rows: seq<Row>, codes: seq<string>, p: Params)
    requires OneRowPerDay(rows)
    ensures forall k :: 0 <= k < |RunCodes(rows, codes, p)| ==>
      RunCodes(rows, codes, p)[k].entryDate < RunCodes(rows, codes, p)[k].exitDate
  {
    if |codes| > 0 {
      var g := CodeRows(rows, codes[|codes| - 1]);
      RunCodesChronology(rows, codes[..|codes| - 1], p);
      if |g| > 0 {
        CodeRowsIncreasing(rows, codes[|codes| - 1]);
        RunCodeChronology(g, p);
      }
    }
  }

  lemma RunStrategyChronology(rows: seq<Row>, p: Params)
    requires OneRowPerDay(rows)
    ensures forall k :: 0 <= k < |RunStrategy(rows, p)| ==>
      RunStrategy(rows, p)[k].entryDate < RunStrategy(rows, p)[k].exitDate
  {
    RunCodesChronology(rows, Unique(CodeColumn(rows)), p);
  }

  /** Every row is dated in `[lo, hi)`. */
  predicate RowsWithin(rows: seq<Row>, lo: int, hi: int)
  {
    forall i :: 0 <= i < |rows| ==> lo <= rows[i].bar.date < hi
  }

  /** A trade that both opens and closes in `[lo, hi)`. */
  predicate TradeWithin(t: Trade, lo: int, hi: int)
  {
    lo <= t.entryDate < hi && lo <= t.exitDate < hi
  }

  /** Trades open and close on dates of the rows they were computed from. */
  lemma {:induction false} RunCodeWithin(rows: seq<Row>, p: Params, lo: int, hi: int)
    requires RowsWithin(rows, lo, hi)
    ensures RunCode(rows, p).pos.Long? ==> lo <= RunCode(rows, p).pos.entryDate < hi
    ensures forall k :: 0 <= k < |RunCode(rows, p).trades| ==> TradeWithin(RunCode(rows, p).trades[k], lo, hi)
  {
    if |rows| > 0 {
      var init := rows[..|rows| - 1];
      var row := rows[|rows| - 1];
      assert RowsWithin(init, lo, hi);
      RunCodeWithin(init, p, lo, hi);
      var prev := RunCode(init, p);
      if prev.pos.Long? && row.maShort.Some? && row.maLong.Some? {
        StepWhenLong(prev.pos.entryPrice, prev.pos.entryDate, prev.pos.high, row, p);
      }
    }
  }

  lemma {:induction false} RunCodesWithin(rows: seq<Row>, codes: seq<string>, p: Params, lo: int, hi: int)
    requires RowsWithin(rows, lo, hi)
    ensures forall k :: 0 <= k < |RunCodes(rows, codes, p)| ==> TradeWithin(RunCodes(rows, codes, p)[k], lo, hi)
  {
    if |codes| > 0 {
      var c := codes[|codes| - 1];
      RunCodesWithin(rows, codes[..|codes| - 1], p, lo, hi);
      CodeRowsFromPanel(rows, c);
      var g := CodeRows(rows, c);
      forall i | 0 <= i < |g| ensures lo <= g[i].bar.date < hi {
        var j :| 0 <= j < |rows| && rows[j] == g[i];
      }
      RunCodeWithin(g, p, lo, hi);
    }
  }

  /** A strategy run on rows dated in `[lo, hi)` trades only inside `[lo, hi)`:
      no trade can use a date outside the data it was given. */
  lemma RunStrategyWithin(rows: seq<Row>, p: Params, lo: int, hi: int)
    requires RowsWithin(rows, lo, hi)
    ensures forall k :: 0 <= k < |RunStrategy(rows, p)| ==> TradeWithin(RunStrategy(rows, p)[k], lo, hi)
  {
    RunCodesWithin(rows, Unique(CodeColumn(rows)), p, lo, hi);
  }
}

=== FILE: text.dfy ===
/** Python string operations the core relies on: the `in` substring test,
    `startswith`, and `str.replace` (every non-overlapping occurrence, scanned
    left to right). */
module Text {

  predicate StartsWith(s: string, prefix: string)
  {
    |prefix| <= |s| && s[..|prefix|] == prefix
  }

  /** `k in s` for strings, computed by trying every start position. */
  predicate Contains(s: string, k: string)
    decreases |s|
  {
    StartsWith(s, k) || (|s| > 0 && Contains(s[1..], k))
  }

  /** `k` occurs in `s` at position `i`. */
  ghost predicate OccursAt(s: string, k: string, i: int)
  {
    0 <= i && i + |k| <= |s| && s[i..i + |k|] == k
  }

  /** An occurrence at any position is found by the substring test. */
  lemma {:induction false} OccursImpliesContains(s: string, k: string, i: int)
    requires OccursAt(s, k, i)
    ensures Contains(s, k)
    decreases i
  {
    if i == 0 {
      assert s[..|k|] == s[0..|k|];
    } else {
      assert s[1..][i - 1..i - 1 + |k|] == s[i..i + |k|];
      OccursImpliesContains(s[1..], k, i - 1);
    }
  }

  /** The substring test only succeeds where some position holds `k`. */
  lemma {:induction false} ContainsImpliesOccurs(s: string, k: string) returns (i: int)
    requires Contains(s, k)
    ensures OccursAt(s, k, i)
    decreases |s|
  {
    if StartsWith(s, k) {
      i := 0;
      assert s[0..|k|] == s[..|k|];
    } else {
      var j := ContainsImpliesOccurs(s[1..], k);
      assert s[j + 1..j + 1 + |k|] == s[1..][j..j + |k|];
      i := j + 1;
    }
  }

  /** The computed substring test agrees with "some position holds `k`". */
  lemma ContainsIff(s: string, k: string)
    ensures Contains(s, k) <==> exists i :: OccursAt(s, k, i)
  {
    if Contains(s, k) {
      var i := ContainsImpliesOccurs(s, k);
    }
    if exists i :: OccursAt(s, k, i) {
      var i :| OccursAt(s, k, i);
      OccursImpliesContains(s, k, i);
    }
  }

  /** `s.replace(pat, rep)` for a non-empty pattern. */
  function ReplaceAll(s: string, pat: string, rep: string): string
    requires |pat| > 0
    decreases |s|
  {
    if |s| < |pat| then s
    else if s[..|pat|] == pat then rep + ReplaceAll(s[|pat|..], pat, rep)
    else [s[0]] + ReplaceAll(s[1..], pat, rep)
  }

  /** Replacing one character by another acts position by position. */
  lemma {:induction false} ReplaceCharPointwise(s: string, c: char, d: char)
    ensures |ReplaceAll(s, [c], [d])| == |s|
    ensures forall i :: 0 <= i < |s| ==>
      ReplaceAll(s, [c], [d])[i] == (if s[i] == c then d else s[i])
    decreases |s|
  {
    if |s| > 0 {
      ReplaceCharPointwise(s[1..], c, d);
      var r := ReplaceAll(s[1..], [c], [d]);
      if s[..1] == [c] {
        assert ReplaceAll(s, [c], [d]) == [d] + r;
      } else {
        assert ReplaceAll(s, [c], [d]) == [s[0]] + r;
      }
    }
  }
}

=== FILE: ticker.dfy ===
/** Ticker conversion of src/update_yfinance.py
    (`convert_to_yfinance_ticker`): a five-character exchange code ending in
    `0` loses that check digit, and every code gets the Tokyo suffix `.T`. */
module Ticker {
  import opened Text

  const Suffix: string := ".T"

  /** A five-character code whose last character is `0`. */
  predicate IsLongCode(code: string)
  {
    |code| == 5 && code[4] == '0'
  }

  function ToTicker(code: string): string
  {
    if IsLongCode(code) then code[..4] + Suffix else code + Suffix
  }

  /** The result ends in `.T`; the part before it is a prefix of the code,
      one character shorter for a long code and the whole code otherwise. */
  lemma ToTickerSpec(code: string)
    ensures var t := ToTicker(code);
      && |t| >= 2 && t[|t| - 2..] == Suffix
      && StartsWith(code, t[..|t| - 2])
      && (IsLongCode(code) ==> |t| == |code| + 1)
      && (!IsLongCode(code) ==> |t| == |code| + 2 && t[..|t| - 2] == code)
  {
  }

  /** Back from a ticker to a five-character code: drop the suffix and
      restore the check digit. */
  function FromTicker(t: string): string
    requires |t| >= 2
  {
    t[..|t| - 2] + "0"
  }

  /** For five-character codes ending in `0` the conversion is undone by
      `FromTicker`, so distinct such codes get distinct tickers. */
  lemma RoundTrip(code: string)
    requires IsLongCode(code)
    ensures FromTicker(ToTicker(code)) == code
  {
    assert code == code[..4] + [code[4]];
  }

  lemma LongCodesDistinct(a: string, b: string)
    requires IsLongCode(a) && IsLongCode(b) && a != b
    ensures ToTicker(a) != ToTicker(b)
  {
    RoundTrip(a);
    RoundTrip(b);
  }

  /** A four-character code and the same code with a trailing `0` map to the
      same ticker. */
  lemma ShortAndLongCollide(code: string)
    requires |code| == 4
    ensures IsLongCode(code + "0")
    ensures ToTicker(code + "0") == ToTicker(code)
  {
    assert (code + "0")[..4] == code;
  }
}

=== FILE: walkforward.dfy ===
/** The walk-forward analysis of src/backtest.py (`walk_forward_analysis` and
    `calculate_kpi`): the sorted list of distinct dates is cut into equal
    consecutive windows; for each split the grid entry with the best mean
    in-sample return is chosen on one window and then run on the next, and the
    out-of-sample trades of all splits are summarised. */
module WalkForward {
  import opened Wrappers
  import opened Seqs
  import opened Indicators
  import opened Strategy

  /** The parameter grid searched in every split, in the order it is tried. */
  const Grid: seq<Params> := [
    Params(0.98, 0.10, 0.10),
    Params(0.95, 0.10, 0.15),
    Params(1.00, 0.08, 0.10),
    Params(0.97, 0.12, 0.12)
  ]

  /** The widest stop-loss in the grid. */
  const WidestStop: real := 0.12

  /** The score every grid entry must beat (`best_score = -999`). */
  const NoScore: real := -999.0

  const TradingDays: real := 252.0

  // ------------------------------------------------------------ the dates

  function DayKey(d: int): real
  {
    d as real
  }

  /** `sorted(df['date'].unique())`. */
  function SortedDates(rows: seq<Row>): seq<int>
  {
    Unique(SortBy(DateColumn(rows), DayKey))
  }

  /** The sorted date list is strictly increasing and holds exactly the
      dates of the panel. */
  lemma SortedDatesSpec(rows: seq<Row>)
    ensures Increasing(SortedDates(rows))
    ensures forall i :: 0 <= i < |rows| ==> rows[i].bar.date in SortedDates(rows)
    ensures forall k :: 0 <= k < |SortedDates(rows)| ==> SortedDates(rows)[k] in DateColumn(rows)
  {
    var col := DateColumn(rows);
    var sorted := SortBy(col, DayKey);
    assert forall i, j :: 0 <= i < j < |sorted| ==> sorted[i] <= sorted[j] by {
      forall i, j | 0 <= i < j < |sorted| ensures sorted[i] <= sorted[j] {
        assert DayKey(sorted[i]) <= DayKey(sorted[j]);
      }
    }
    UniqueOfNonDecreasing(sorted);
    forall i | 0 <= i < |rows| ensures rows[i].bar.date in SortedDates(rows) {
      assert col[i] in multiset(sorted);
    }
    forall k | 0 <= k < |SortedDates(rows)| ensures SortedDates(rows)[k] in col {
      assert SortedDates(rows)[k] in multiset(col);
    }
  }

  // ---------------------------------------------------------- the windows

  /** Index positions into the date list of one split: train on
      `[trainStart, trainEnd)`, test on `[testStart, testEnd)`. */
  datatype Window = Window(trainStart: nat, trainEnd: nat, testStart: nat, testEnd: nat)

  /** `n_splits`, reduced to `max(1, len // 2)` when there are fewer than
      `n_splits + 1` dates. */
  function Splits(len: nat, n: nat): nat
  {
    if len < n + 1 then (if len / 2 >= 1 then len / 2 else 1) else n
  }

  /** Split `i` with windows of `size` dates over `len` dates. */
  function WindowAt(i: nat, size: nat, len: nat): Window
    requires len >= 1
  {
    Window(i * size, (i + 1) * size, (i + 1) * size, MinNat((i + 2) * size, len - 1))
  }

  /** The split windows, or `None` when `split_size` is zero. */
  function Windows(len: nat, n: nat): Option<seq<Window>>
  {
    var k := Splits(len, n);
    var size := len / (k + 1);
    if size == 0 then None
    else
      assert len >= 1;
      Some(seq(k, i requires 0 <= i < k => WindowAt(i, size, len)))
  }

  lemma DivAtLeastOne(a: nat, b: nat)
    requires 0 < b <= a
    ensures a / b >= 1
  {
  }

  lemma DivMulLe(a: nat, b: nat)
    requires b > 0
    ensures (a / b) * b <= a
  {
  }

  lemma MulLe(a: nat, b: nat, c: nat)
    requires a <= b
    ensures a * c <= b * c
  {
  }

  lemma MulSucc(a: nat, c: nat)
    ensures (a + 1) * c == a * c + c
  {
  }

  /** The split size is 0, so no window list is returned at all, exactly when
      fewer than two dates exist and the requested split count was not
      exceeded. (With `n = 0` and enough dates the list is returned, empty.) */
  lemma WindowsNone(len: nat, n: nat)
    ensures Windows(len, n).None? <==> len < 2 && len <= n
  {
    var k := Splits(len, n);
    if len < n + 1 {
      if len >= 2 {
        assert k == len / 2 && k + 1 <= len;
        DivAtLeastOne(len, k + 1);
      }
    } else {
      DivAtLeastOne(len, n + 1);
    }
  }

  /** `split_size` for a given date count. */
  function SplitSize(len: nat, n: nat): nat
  {
    len / (Splits(len, n) + 1)
  }

  /** The splits requested, or, with fewer than `n + 1` dates, at least one. */
  lemma SplitsCount(len: nat, n: nat)
    ensures len > n ==> Splits(len, n) == n
    ensures len <= n ==> 1 <= Splits(len, n) && (len >= 2 ==> 2 * Splits(len, n) <= len)
  {
  }

  /** One window's shape, when `k` windows of `size` dates plus one more fit in `len`. */
  lemma WindowAtSpec(i: nat, k: nat, size: nat, len: nat)
    requires i < k && size > 0 && (k + 1) * size <= len
    ensures var w := WindowAt(i, size, len);
      && w.trainEnd == w.trainStart + size
      && w.testStart == w.trainEnd
      && w.trainEnd <= w.testEnd <= len - 1
      && w.testEnd - w.testStart <= size
      && (i + 1 < k ==> w.testEnd == WindowAt(i + 1, size, len).trainEnd)
  {
    var a := (i + 1) * size;
    MulSucc(i, size);
    MulSucc(i + 1, size);
    MulLe(i + 2, k + 1, size);
    assert a + size <= len;
    if i + 1 < k {
      MulSucc(i + 2, size);
      MulLe(i + 3, k + 1, size);
    }
  }

  /** Every index lies in `[0, len - 1]`; every training window has
      `split_size` dates and is followed by its test window; the test window
      of one split is the training window of the next. The last test window
      ends at `(splits + 1) * split_size`, cut back to the last date index,
      so dates past that end are in no window. */
  lemma WindowsSpec(len: nat, n: nat)
    requires Windows(len, n).Some?
    ensures var ws := Windows(len, n).value;
      var size := SplitSize(len, n);
      && |ws| == Splits(len, n)
      && size > 0
      && (forall i :: 0 <= i < |ws| ==>
            && ws[i].trainStart == i * size
            && ws[i].trainEnd == ws[i].trainStart + size
            && ws[i].testStart == ws[i].trainEnd
            && ws[i].trainEnd <= ws[i].testEnd <= len - 1
            && ws[i].testEnd - ws[i].testStart <= size)
      && (forall i :: 0 <= i < |ws| - 1 ==>
            ws[i + 1].trainStart == ws[i].trainEnd && ws[i].testEnd == ws[i + 1].trainEnd)
      && (|ws| > 0 ==>
            ws[|ws| - 1].testEnd == if (|ws| + 1) * size <= len - 1 then (|ws| + 1) * size else len - 1)
  {
    var ws := Windows(len, n).value;
    var k := Splits(len, n);
    var size := SplitSize(len, n);
    DivMulLe(len, k + 1);
    forall i | 0 <= i < |ws|
      ensures ws[i] == WindowAt(i, size, len)
      ensures ws[i].trainEnd == ws[i].trainStart + size && ws[i].testStart == ws[i].trainEnd
      ensures ws[i].trainEnd <= ws[i].testEnd <= len - 1 && ws[i].testEnd - ws[i].testStart <= size
      ensures i + 1 < |ws| ==> ws[i].testEnd == WindowAt(i + 1, size, len).trainEnd
    {
      WindowAtSpec(i, k, size, len);
    }
    forall i | 0 <= i < |ws| - 1
      ensures ws[i + 1].trainStart == ws[i].trainEnd && ws[i].testEnd == ws[i + 1].trainEnd
    {
      assert ws[i + 1] == WindowAt(i + 1, size, len);
      MulSucc(i, size);
    }
    if |ws| > 0 {
      assert ws[|ws| - 1] == WindowAt(k - 1, size, len);
      assert (k - 1) + 2 == |ws| + 1;
    }
  }

  /** The windows fit a date list of length `len`. */
  predicate Fits(ws: seq<Window>, len: nat)
  {
    forall i :: 0 <= i < |ws| ==> FitsOne(ws[i], len)
  }

  predicate FitsOne(w: Window, len: nat)
  {
    w.trainStart < len && w.trainEnd < len && w.testStart < len && w.testEnd < len
  }

  lemma WindowsFit(len: nat, n: nat)
    requires Windows(len, n).Some?
    ensures Fits(Windows(len, n).value, len)
  {
    WindowsSpec(len, n);
  }

  // ------------------------------------------------------- the selection

  /** Rows dated in `[lo, hi)` (`df[(df['date'] >= lo) & (df['date'] < hi)]`). */
  function Between(rows: seq<Row>, lo: int, hi: int): (r: seq<Row>)
    ensures RowsWithin(r, lo, hi)
    ensures forall i :: 0 <= i < |rows| && lo <= rows[i].bar.date < hi ==> rows[i] in r
  {
    Filter(rows, (x: Row) => lo <= x.bar.date < hi)
  }

  lemma BetweenPositive(rows: seq<Row>, lo: int, hi: int)
    requires PositiveRows(rows)
    ensures PositiveRows(Between(rows, lo, hi))
  {
    var r := Between(rows, lo, hi);
    forall i | 0 <= i < |r| ensures r[i].bar.close > 0.0 {
      var j :| 0 <= j < |rows| && rows[j] == r[i];
    }
  }

  /** The `return` column of a trade log. */
  function Returns(ts: seq<Trade>): (rs: seq<real>)
    requires forall k :: 0 <= k < |ts| ==> ts[k].entryPrice > 0.0
    ensures |rs| == |ts|
    ensures forall k :: 0 <= k < |ts| ==> rs[k] == Return(ts[k])
  {
    seq(|ts|, k requires 0 <= k < |ts| => Return(ts[k]))
  }

  /** In-sample score: the mean trade return, or 0 without trades. */
  function Score(ts: seq<Trade>): real
    requires forall k :: 0 <= k < |ts| ==> ts[k].entryPrice > 0.0
  {
    if |ts| == 0 then 0.0 else Mean(Returns(ts))
  }

  /** A score is never below minus the stop-loss fraction it was run with. */
  lemma ScoreBound(ts: seq<Trade>, p: Params)
    requires forall k :: 0 <= k < |ts| ==> ts[k].entryPrice > 0.0 && SoundTrade(ts[k], p)
    requires p.stopLoss >= 0.0
    ensures Score(ts) >= -p.stopLoss
  {
    if |ts| > 0 {
      var rs := Returns(ts);
      SumBounds(rs, -p.stopLoss, MaxOf(rs));
      MeanBounds(rs, -p.stopLoss, MaxOf(rs));
    }
  }

  /** The in-sample score of every grid entry on the training rows. */
  function Scores(train: seq<Row>, grid: seq<Params>): (ss: seq<real>)
    requires PositiveRows(train)
    ensures |ss| == |grid|
  {
    if |grid| == 0 then []
    else
      var p := grid[|grid| - 1];
      RunStrategySound(train, p);
      Scores(train, grid[..|grid| - 1]) + [Score(RunStrategy(train, p))]
  }

  lemma {:induction false} ScoresBound(train: seq<Row>, grid: seq<Params>)
    requires PositiveRows(train)
    requires forall g :: 0 <= g < |grid| ==> 0.0 <= grid[g].stopLoss <= WidestStop
    ensures forall g :: 0 <= g < |grid| ==> Scores(train, grid)[g] >= -WidestStop
  {
    if |grid| > 0 {
      var p := grid[|grid| - 1];
      ScoresBound(train, grid[..|grid| - 1]);
      RunStrategySound(train, p);
      ScoreBound(RunStrategy(train, p), p);
    }
  }

  /** The running best: `best_param` (an index into the grid) and `best_score`. */
  datatype Choice = Choice(best: Option<nat>, score: real)

  /** `if score > best_score: best_score, best_param = score, param`, over the grid in order. */
  function Select(scores: seq<real>): (c: Choice)
    ensures c.best.Some? ==> c.best.value < |scores|
  {
    if |scores| == 0 then Choice(None, NoScore)
    else
      var prev := Select(scores[..|scores| - 1]);
      var x := scores[|scores| - 1];
      if x > prev.score then Choice(Some(|scores| - 1), x) else prev
  }

  /** The selection is the FIRST index with the largest score, provided that
      score beats -999; with no such score nothing is selected. */
  lemma {:induction false} SelectSpec(scores: seq<real>)
    ensures Select(scores).best.None? <==> forall i :: 0 <= i < |scores| ==> scores[i] <= NoScore
    ensures Select(scores).best.None? ==> Select(scores).score == NoScore
    ensures Select(scores).best.Some? ==>
      var b := Select(scores).best.value;
      && scores[b] == Select(scores).score
      && NoScore < scores[b]
      && (forall i :: 0 <= i < |scores| ==> scores[i] <= scores[b])
      && (forall i :: 0 <= i < b ==> scores[i] < scores[b])
  {
    if |scores| > 0 {
      var init := scores[..|scores| - 1];
      SelectSpec(init);
      assert forall i :: 0 <= i < |init| ==> init[i] == scores[i];
    }
  }

  /** Every grid entry scores above -999, so a parameter set is always chosen. */
  lemma SelectAlwaysChooses(train: seq<Row>)
    requires PositiveRows(train)
    ensures Chosen(train).Some?
  {
    ScoresBound(train, Grid);
    var ss := Scores(train, Grid);
    SelectSpec(ss);
    assert ss[0] > NoScore;
  }

  // ------------------------------------------------------------ the splits

  function TrainRows(rows: seq<Row>, dates: seq<int>, w: Window): seq<Row>
    requires w.trainStart < |dates| && w.trainEnd < |dates|
  {
    Between(rows, dates[w.trainStart], dates[w.trainEnd])
  }

  function TestRows(rows: seq<Row>, dates: seq<int>, w: Window): seq<Row>
    requires w.testStart < |dates| && w.testEnd < |dates|
  {
    Between(rows, dates[w.testStart], dates[w.testEnd])
  }

  /** The grid index chosen on the training rows. */
  function Chosen(train: seq<Row>): (g: Option<nat>)
    requires PositiveRows(train)
    ensures g.Some? ==> g.value < |Grid|
  {
    Select(Scores(train, Grid)).best
  }

  /** Every stop-loss in the grid lies in `[0, WidestStop]`. */
  lemma GridStops()
    ensures forall g :: 0 <= g < |Grid| ==> 0.0 <= Grid[g].stopLoss <= WidestStop
  {
  }

  /** One split: choose on the training rows, then run the choice on the
      test rows. No choice or no test rows gives no trades. */
  function SplitTrades(rows: seq<Row>, dates: seq<int>, w: Window): seq<Trade>
    requires PositiveRows(rows) && FitsOne(w, |dates|)
  {
    var train := TrainRows(rows, dates, w);
    BetweenPositive(rows, dates[w.trainStart], dates[w.trainEnd]);
    var g := Chosen(train);
    var test := TestRows(rows, dates, w);
    if g.None? || |test| == 0 then [] else RunStrategy(test, Grid[g.value])
  }

  /** Training rows all precede test rows: the choice sees no test-window data. */
  lemma NoLookAhead(rows: seq<Row>, dates: seq<int>, w: Window)
    requires FitsOne(w, |dates|) && w.testStart == w.trainEnd
    ensures forall a, b :: 0 <= a < |TrainRows(rows, dates, w)| && 0 <= b < |TestRows(rows, dates, w)| ==>
      TrainRows(rows, dates, w)[a].bar.date < TestRows(rows, dates, w)[b].bar.date
  {
  }

  /** Out-of-sample trades open and close inside the test window. */
  lemma SplitTradesWithin(rows: seq<Row>, dates: seq<int>, w: Window)
    requires PositiveRows(rows) && FitsOne(w, |dates|)
    ensures forall k :: 0 <= k < |SplitTrades(rows, dates, w)| ==>
      TradeWithin(SplitTrades(rows, dates, w)[k], dates[w.testStart], dates[w.testEnd])
  {
    var test := TestRows(rows, dates, w);
    BetweenPositive(rows, dates[w.trainStart], dates[w.trainEnd]);
    var g := Chosen(TrainRows(rows, dates, w));
    if g.Some? && |test| > 0 {
      RunStrategyWithin(test, Grid[g.value], dates[w.testStart], dates[w.testEnd]);
    }
  }

  /** Every out-of-sample trade is sound for the grid entry that produced it,
      so its return is at least minus the widest stop in the grid. */
  lemma SplitTradesSound(rows: seq<Row>, dates: seq<int>, w: Window)
    requires PositiveRows(rows) && FitsOne(w, |dates|)
    ensures forall k :: 0 <= k < |SplitTrades(rows, dates, w)| ==>
      SplitTrades(rows, dates, w)[k].entryPrice > 0.0 && Return(SplitTrades(rows, dates, w)[k]) >= -WidestStop
  {
    var test := TestRows(rows, dates, w);
    BetweenPositive(rows, dates[w.trainStart], dates[w.trainEnd]);
    BetweenPositive(rows, dates[w.testStart], dates[w.testEnd]);
    var g := Chosen(TrainRows(rows, dates, w));
    var ts := SplitTrades(rows, dates, w);
    if g.Some? && |test| > 0 {
      var p := Grid[g.value];
      GridStops();
      assert ts == RunStrategy(test, p);
      RunStrategySound(test, p);
      forall k | 0 <= k < |ts| ensures ts[k].entryPrice > 0.0 && Return(ts[k]) >= -WidestStop {
        assert SoundTrade(ts[k], p);
      }
    } else {
      assert ts == [];
    }
  }

  /** Under the table's key (one row per code and date) a date slice keeps
      the key: its rows are distinct rows of the table. */
  lemma BetweenOneRowPerDay(rows: seq<Row>, lo: int, hi: int)
    requires OneRowPerDay(rows)
    ensures OneRowPerDay(Between(rows, lo, hi))
  {
    var s := Between(rows, lo, hi);
    assert Distinct(rows);
    forall i, j | 0 <= i < j < |s| ensures s[i].bar.code != s[j].bar.code || s[i].bar.date != s[j].bar.date {
      var a :| 0 <= a < |rows| && rows[a] == s[i];
      var b :| 0 <= b < |rows| && rows[b] == s[j];
      if a == b {
        Repeated(s, i, j);
        DistinctOnce(rows, s[i]);
        assert false;
      }
    }
  }

  /** Every trade of a log exits strictly after it entered. */
  predicate ExitsAfterEntry(ts: seq<Trade>)
  {
    forall k :: 0 <= k < |ts| ==> ts[k].entryDate < ts[k].exitDate
  }

  lemma ExitsAfterEntryConcat(a: seq<Trade>, b: seq<Trade>)
    requires ExitsAfterEntry(a) && ExitsAfterEntry(b)
    ensures ExitsAfterEntry(a + b)
  {
    forall k | 0 <= k < |a + b| ensures (a + b)[k].entryDate < (a + b)[k].exitDate {
      if k >= |a| {
        assert (a + b)[k] == b[k - |a|];
      }
    }
  }

  /** Under the table's key every trade of a split exits strictly after it entered. */
  lemma SplitTradesChronology(rows: seq<Row>, dates: seq<int>, w: Window)
    requires PositiveRows(rows) && FitsOne(w, |dates|) && OneRowPerDay(rows)
    ensures ExitsAfterEntry(SplitTrades(rows, dates, w))
  {
    var test := TestRows(rows, dates, w);
    BetweenOneRowPerDay(rows, dates[w.testStart], dates[w.testEnd]);
    BetweenPositive(rows, dates[w.trainStart], dates[w.trainEnd]);
    var g := Chosen(TrainRows(rows, dates, w));
    var ts := SplitTrades(rows, dates, w);
    if g.Some? && |test| > 0 {
      RunStrategyChronology(test, Grid[g.value]);
      assert ts == RunStrategy(test, Grid[g.value]);
    } else {
      assert ts == [];
    }
  }

  /** `pd.concat(total_results)`: the out-of-sample trades of every split, in split order. */
  function OutOfSample(rows: seq<Row>, dates: seq<int>, ws: seq<Window>): seq<Trade>
    requires PositiveRows(rows) && Fits(ws, |dates|)
  {
    if |ws| == 0 then []
    else
      assert FitsOne(ws[|ws| - 1], |dates|);
      OutOfSample(rows, dates, ws[..|ws| - 1]) + SplitTrades(rows, dates, ws[|ws| - 1])
  }

  /** What every aggregated trade satisfies: a positive entry price, a loss
      of at most the widest stop, and dates inside some split's test window. */
  predicate OutOfSampleTrade(t: Trade, dates: seq<int>, ws: seq<Window>)
    requires Fits(ws, |dates|)
  {
    && t.entryPrice > 0.0 && Return(t) >= -WidestStop
    && exists i :: 0 <= i < |ws| && TradeWithin(t, dates[ws[i].testStart], dates[ws[i].testEnd])
  }

  /** The trades of the last split satisfy the guarantee for the whole list of splits. */
  lemma LastSplitTrades(rows: seq<Row>, dates: seq<int>, ws: seq<Window>, w: Window)
    requires PositiveRows(rows) && Fits(ws, |dates|) && |ws| > 0 && w == ws[|ws| - 1]
    ensures FitsOne(w, |dates|)
    ensures forall k :: 0 <= k < |SplitTrades(rows, dates, w)| ==> OutOfSampleTrade(SplitTrades(rows, dates, w)[k], dates, ws)
  {
    assert FitsOne(w, |dates|);
    SplitTradesWithin(rows, dates, w);
    SplitTradesSound(rows, dates, w);
  }

  /** Adding a split keeps the guarantee of the earlier splits' trades. */
  lemma EarlierSplitTrades(ts: seq<Trade>, dates: seq<int>, ws: seq<Window>)
    requires Fits(ws, |dates|) && |ws| > 0
    requires Fits(ws[..|ws| - 1], |dates|)
    requires forall k :: 0 <= k < |ts| ==> OutOfSampleTrade(ts[k], dates, ws[..|ws| - 1])
    ensures forall k :: 0 <= k < |ts| ==> OutOfSampleTrade(ts[k], dates, ws)
  {
    var init := ws[..|ws| - 1];
    forall k | 0 <= k < |ts| ensures OutOfSampleTrade(ts[k], dates, ws) {
      var i :| 0 <= i < |init| && TradeWithin(ts[k], dates[init[i].testStart], dates[init[i].testEnd]);
      assert ws[i] == init[i];
    }
  }

  /** The guarantee holds for a concatenation when it holds for both parts. */
  lemma ConcatOutOfSample(a: seq<Trade>, b: seq<Trade>, dates: seq<int>, ws: seq<Window>)
    requires Fits(ws, |dates|)
    requires forall k :: 0 <= k < |a| ==> OutOfSampleTrade(a[k], dates, ws)
    requires forall k :: 0 <= k < |b| ==> OutOfSampleTrade(b[k], dates, ws)
    ensures forall k :: 0 <= k < |a + b| ==> OutOfSampleTrade((a + b)[k], dates, ws)
  {
    forall k | 0 <= k < |a + b| ensures OutOfSampleTrade((a + b)[k], dates, ws) {
      if k >= |a| {
        assert (a + b)[k] == b[k - |a|];
      }
    }
  }

  /** Every aggregated trade comes from some split and lies in that split's
      test window, and every one returns at least minus the widest stop. */
  lemma {:induction false} OutOfSampleSpec(rows: seq<Row>, dates: seq<int>, ws: seq<Window>)
    requires PositiveRows(rows) && Fits(ws, |dates|)
    ensures forall k :: 0 <= k < |OutOfSample(rows, dates, ws)| ==> OutOfSampleTrade(OutOfSample(rows, dates, ws)[k], dates, ws)
  {
    if |ws| > 0 {
      var init := ws[..|ws| - 1];
      assert Fits(init, |dates|);
      OutOfSampleSpec(rows, dates, init);
      var a := OutOfSample(rows, dates, init);
      var w := ws[|ws| - 1];
      var b := SplitTrades(rows, dates, w);
      EarlierSplitTrades(a, dates, ws);
      LastSplitTrades(rows, dates, ws, w);
      ConcatOutOfSample(a, b, dates, ws);
      assert OutOfSample(rows, dates, ws) == a + b;
    }
  }

  /** Under the table's key every aggregated trade exits strictly after it entered. */
  lemma {:induction false} OutOfSampleChronology(rows: seq<Row>, dates: seq<int>, ws: seq<Window>)
    requires PositiveRows(rows) && Fits(ws, |dates|) && OneRowPerDay(rows)
    ensures ExitsAfterEntry(OutOfSample(rows, dates, ws))
  {
    if |ws| > 0 {
      var init := ws[..|ws| - 1];
      assert Fits(init, |dates|);
      OutOfSampleChronology(rows, dates, init);
      var w := ws[|ws| - 1];
      assert FitsOne(w, |dates|);
      SplitTradesChronology(rows, dates, w);
      ExitsAfterEntryConcat(OutOfSample(rows, dates, init), SplitTrades(rows, dates, w));
    }
  }

  // ----------------------------------------------------------------- KPIs

  /** The summary `calculate_kpi` computes; `annualReturn` is only printed by the source. */
  datatype Kpi = Kpi(totalTrades: nat, avgReturn: real, winRate: real, maxDrawdown: real, annualReturn: real)

  function ExitKey(t: Trade): real
  {
    t.exitDate as real
  }

  /** `cumsum()`: element `k` is the sum of the first `k + 1` values. */
  function CumSum(xs: seq<real>): (cs: seq<real>)
    ensures |cs| == |xs|
  {
    seq(|xs|, k requires 0 <= k < |xs| => Sum(xs[..k + 1]))
  }

  /** `cum_return - cum_return.cummax()` at each position. */
  function Drawdowns(cs: seq<real>): (dd: seq<real>)
    ensures |dd| == |cs|
  {
    seq(|cs|, j requires 0 <= j < |cs| => cs[j] - MaxOf(cs[..j + 1]))
  }

  /** `drawdown.min()` over the cumulative returns of `xs`. */
  function MaxDrawdown(xs: seq<real>): real
    requires |xs| > 0
  {
    MinOf(Drawdowns(CumSum(xs)))
  }

  /** `(exit_date - entry_date).dt.days` for every trade. */
  function HoldDays(ts: seq<Trade>): (hs: seq<real>)
    ensures |hs| == |ts|
    ensures forall k :: 0 <= k < |ts| ==> hs[k] == (ts[k].exitDate - ts[k].entryDate) as real
  {
    seq(|ts|, k requires 0 <= k < |ts| => (ts[k].exitDate - ts[k].entryDate) as real)
  }

  /** `avg_return * (252 / avg_hold_days)`, with 0 trades per year when the
      average holding period is not positive. */
  function Annualise(avg: real, avgHold: real): real
  {
    avg * (if avgHold > 0.0 then TradingDays / avgHold else 0.0)
  }

  function IsWin(r: real): bool
  {
    r > 0.0
  }

  /** `(returns > 0).mean()`. */
  function WinRate(rs: seq<real>): real
    requires |rs| > 0
  {
    Count(rs, IsWin) as real / |rs| as real
  }

  /** `calculate_kpi(trades)` for a non-empty trade log. */
  function Summarise(ts: seq<Trade>): Kpi
    requires |ts| > 0
    requires forall k :: 0 <= k < |ts| ==> ts[k].entryPrice > 0.0
  {
    var rs := Returns(ts);
    var sorted := SortBy(ts, ExitKey);
    SortedEntryPrices(ts);
    Kpi(|ts|, Mean(rs), WinRate(rs), MaxDrawdown(Returns(sorted)), AnnualReturn(ts))
  }

  /** `annual_return = avg_return * trades_per_year`. */
  function AnnualReturn(ts: seq<Trade>): real
    requires |ts| > 0
    requires forall k :: 0 <= k < |ts| ==> ts[k].entryPrice > 0.0
  {
    Annualise(Mean(Returns(ts)), Mean(HoldDays(ts)))
  }

  lemma SortedEntryPrices(ts: seq<Trade>)
    requires forall k :: 0 <= k < |ts| ==> ts[k].entryPrice > 0.0
    ensures forall k :: 0 <= k < |SortBy(ts, ExitKey)| ==> SortBy(ts, ExitKey)[k].entryPrice > 0.0
  {
    var s := SortBy(ts, ExitKey);
    forall k | 0 <= k < |s| ensures s[k].entryPrice > 0.0 {
      assert s[k] in multiset(ts);
    }
  }

  /** The win rate is a fraction in `[0, 1]`: zero exactly when no trade
      won and one exactly when every trade won. */
  lemma WinRateRange(rs: seq<real>)
    requires |rs| > 0
    ensures 0.0 <= WinRate(rs) <= 1.0
    ensures WinRate(rs) == 0.0 <==> Count(rs, IsWin) == 0
    ensures WinRate(rs) == 1.0 <==> Count(rs, IsWin) == |rs|
  {
    CountBound(rs, IsWin);
    var c := Count(rs, IsWin) as real;
    var n := |rs| as real;
    FractionRange(c, n);
  }

  lemma FractionRange(c: real, n: real)
    requires 0.0 <= c <= n && n > 0.0
    ensures 0.0 <= c / n <= 1.0
  {
    var q := c / n;
    assert q * n == c;
  }

  /** The average return is at least the smallest trade return. */
  lemma AvgReturnBound(ts: seq<Trade>, lo: real)
    requires |ts| > 0
    requires forall k :: 0 <= k < |ts| ==> ts[k].entryPrice > 0.0 && Return(ts[k]) >= lo
    ensures Summarise(ts).avgReturn >= lo
  {
    MeanBounds(Returns(ts), lo, MaxOf(Returns(ts)));
  }

  lemma SumSnoc(xs: seq<real>, k: nat)
    requires k < |xs|
    ensures Sum(xs[..k + 1]) == Sum(xs[..k]) + xs[k]
  {
    assert xs[..k + 1][..k] == xs[..k];
  }

  /** The running peak is reached at some earlier or equal position. */
  lemma PeakIsEarlier(cs: seq<real>, j: nat) returns (i: nat)
    requires j < |cs|
    ensures i <= j && MaxOf(cs[..j + 1]) == cs[i]
  {
    var m := MaxOf(cs[..j + 1]);
    assert m in cs[..j + 1];
    var i' :| 0 <= i' < j + 1 && cs[..j + 1][i'] == m;
    i := i';
  }

  /** No drawdown exceeds zero. */
  lemma MaxDrawdownNonPositive(xs: seq<real>)
    requires |xs| > 0
    ensures MaxDrawdown(xs) <= 0.0
  {
    var cs := CumSum(xs);
    var dd := Drawdowns(cs);
    assert cs[..1][0] == cs[0];
    assert dd[0] <= 0.0;
  }

  /** The maximum drawdown is no larger than the fall between any two
      positions of the cumulative return, the peak first. */
  lemma MaxDrawdownBelowFalls(xs: seq<real>)
    requires |xs| > 0
    ensures forall i, j :: 0 <= i <= j < |xs| ==> MaxDrawdown(xs) <= CumSum(xs)[j] - CumSum(xs)[i]
  {
    var cs := CumSum(xs);
    var dd := Drawdowns(cs);
    forall i, j | 0 <= i <= j < |xs| ensures MaxDrawdown(xs) <= cs[j] - cs[i] {
      assert cs[..j + 1][i] == cs[i];
      assert dd[j] <= cs[j] - cs[i];
    }
  }

  /** ... and equals one such fall. */
  lemma MaxDrawdownIsAFall(xs: seq<real>)
    requires |xs| > 0
    ensures exists i, j :: 0 <= i <= j < |xs| && MaxDrawdown(xs) == CumSum(xs)[j] - CumSum(xs)[i]
  {
    var cs := CumSum(xs);
    var j := DeepestFall(xs);
    var i := PeakIsEarlier(cs, j);
    assert 0 <= i <= j < |xs| && MaxDrawdown(xs) == cs[j] - cs[i];
  }

  /** A position where the deepest drawdown is reached. */
  lemma DeepestFall(xs: seq<real>) returns (j: nat)
    requires |xs| > 0
    ensures j < |xs| && MaxDrawdown(xs) == CumSum(xs)[j] - MaxOf(CumSum(xs)[..j + 1])
  {
    var dd := Drawdowns(CumSum(xs));
    assert MinOf(dd) in dd;
    j :| 0 <= j < |dd| && dd[j] == MinOf(dd);
  }

  /** Consecutive cumulative returns differ by the later trade's return. */
  lemma CumSumStep(xs: seq<real>, k: nat)
    requires 0 < k < |xs|
    ensures CumSum(xs)[k] - CumSum(xs)[k - 1] == xs[k]
  {
    SumSnoc(xs, k);
    assert xs[..k] == xs[..(k - 1) + 1];
  }

  lemma {:induction false} CumSumRises(xs: seq<real>, i: nat, j: nat)
    requires i <= j < |xs|
    requires forall k :: 0 < k < |xs| ==> xs[k] >= 0.0
    ensures CumSum(xs)[i] <= CumSum(xs)[j]
    decreases j - i
  {
    if i < j {
      CumSumRises(xs, i, j - 1);
      CumSumStep(xs, j);
    }
  }

  /** The maximum drawdown is zero exactly when no trade after the first lost
      money: the running maximum starts at the first cumulative return, not at
      zero, so a losing first trade is never counted as a drawdown. */
  lemma MaxDrawdownZeroIff(xs: seq<real>)
    requires |xs| > 0
    ensures MaxDrawdown(xs) == 0.0 <==> forall k :: 0 < k < |xs| ==> xs[k] >= 0.0
  {
    MaxDrawdownNonPositive(xs);
    MaxDrawdownBelowFalls(xs);
    if forall k :: 0 < k < |xs| ==> xs[k] >= 0.0 {
      MaxDrawdownIsAFall(xs);
      var i, j :| 0 <= i <= j < |xs| && MaxDrawdown(xs) == CumSum(xs)[j] - CumSum(xs)[i];
      CumSumRises(xs, i, j);
    } else {
      var k :| 0 < k < |xs| && xs[k] < 0.0;
      CumSumStep(xs, k);
    }
  }

  /** A positive holding period scales the average return by `252 / hold`,
      which keeps its sign. */
  lemma AnnualiseSign(avg: real, hold: real)
    requires hold > 0.0
    ensures Annualise(avg, hold) == avg * (TradingDays / hold)
    ensures Annualise(avg, hold) > 0.0 <==> avg > 0.0
    ensures Annualise(avg, hold) < 0.0 <==> avg < 0.0
  {
    var f := TradingDays / hold;
    assert f > 0.0;
    if avg > 0.0 {
      assert avg * f > 0.0;
    } else if avg < 0.0 {
      assert avg * f < 0.0;
    } else {
      assert avg * f == 0.0;
    }
  }

  /** With every trade exiting after it entered, the average holding period
      is at least one day. */
  lemma HoldAtLeastOneDay(ts: seq<Trade>)
    requires |ts| > 0
    requires forall k :: 0 <= k < |ts| ==> ts[k].entryDate < ts[k].exitDate
    ensures Mean(HoldDays(ts)) >= 1.0
  {
    var hs := HoldDays(ts);
    forall k | 0 <= k < |hs| ensures 1.0 <= hs[k] <= MaxOf(hs) {
      assert ts[k].exitDate - ts[k].entryDate >= 1;
    }
    MeanBounds(hs, 1.0, MaxOf(hs));
  }

  /** So the annualised return is the average return times
      `252 / avg_hold_days`, with the same sign. */
  lemma AnnualReturnSign(ts: seq<Trade>)
    requires |ts| > 0
    requires forall k :: 0 <= k < |ts| ==> ts[k].entryPrice > 0.0 && ts[k].entryDate < ts[k].exitDate
    ensures Mean(HoldDays(ts)) >= 1.0
    ensures AnnualReturn(ts) == Mean(Returns(ts)) * (TradingDays / Mean(HoldDays(ts)))
    ensures AnnualReturn(ts) > 0.0 <==> Mean(Returns(ts)) > 0.0
    ensures AnnualReturn(ts) < 0.0 <==> Mean(Returns(ts)) < 0.0
  {
    HoldAtLeastOneDay(ts);
    AnnualiseSign(Mean(Returns(ts)), Mean(HoldDays(ts)));
  }

  // ---------------------------------------------------- the whole analysis

  /** `walk_forward_analysis(n_splits)` on the price table: `None` for an
      empty table, too few dates, or no out-of-sample trade. */
  function Analyze(bars: seq<Bar>, n: nat): Option<Kpi>
    requires PositiveCloses(bars)
  {
    if |bars| == 0 then None
    else
      var rows := Annotate(bars);
      assert PositiveRows(rows);
      AnalyzeRows(rows, n)
  }

  /** The analysis of the annotated table: split its dates, then summarise. */
  function AnalyzeRows(rows: seq<Row>, n: nat): Option<Kpi>
    requires PositiveRows(rows)
  {
    var dates := SortedDates(rows);
    match Windows(|dates|, n)
    case None => None
    case Some(ws) =>
      WindowsFit(|dates|, n);
      Report(rows, dates, ws)
  }

  /** The summary of the out-of-sample trades of all splits, if there are any. */
  function Report(rows: seq<Row>, dates: seq<int>, ws: seq<Window>): Option<Kpi>
    requires PositiveRows(rows) && Fits(ws, |dates|)
  {
    var all := OutOfSample(rows, dates, ws);
    if |all| == 0 then None
    else
      OutOfSampleSpec(rows, dates, ws);
      Some(Summarise(all))
  }

  /** A report, when there is one, summarises trades no worse than the widest stop. */
  lemma ReportSpec(rows: seq<Row>, dates: seq<int>, ws: seq<Window>)
    requires PositiveRows(rows) && Fits(ws, |dates|)
    ensures Report(rows, dates, ws).Some? ==>
      var k := Report(rows, dates, ws).value;
      && k.totalTrades > 0
      && 0.0 <= k.winRate <= 1.0
      && k.avgReturn >= -WidestStop
      && k.maxDrawdown <= 0.0
    ensures OneRowPerDay(rows) && Report(rows, dates, ws).Some? ==>
      var k := Report(rows, dates, ws).value;
      && Mean(HoldDays(OutOfSample(rows, dates, ws))) >= 1.0
      && (k.annualReturn > 0.0 <==> k.avgReturn > 0.0)
      && (k.annualReturn < 0.0 <==> k.avgReturn < 0.0)
  {
    var all := OutOfSample(rows, dates, ws);
    if |all| > 0 {
      OutOfSampleSpec(rows, dates, ws);
      assert forall k :: 0 <= k < |all| ==> all[k].entryPrice > 0.0 && Return(all[k]) >= -WidestStop;
      SummariseBounds(all, -WidestStop);
      if OneRowPerDay(rows) {
        OutOfSampleChronology(rows, dates, ws);
        AnnualReturnSign(all);
      }
    }
  }

  /** A reported summary has at least one trade, a win rate in `[0, 1]`, an
      average return no worse than the widest stop in the grid, and a
      non-positive maximum drawdown. */
  lemma AnalyzeSpec(bars: seq<Bar>, n: nat)
    requires PositiveCloses(bars)
    ensures Analyze(bars, n).Some? ==>
      var k := Analyze(bars, n).value;
      && k.totalTrades > 0
      && 0.0 <= k.winRate <= 1.0
      && k.avgReturn >= -WidestStop
      && k.maxDrawdown <= 0.0
    ensures OneRowPerDay(Annotate(bars)) && Analyze(bars, n).Some? ==>
      var k := Analyze(bars, n).value;
      && (k.annualReturn > 0.0 <==> k.avgReturn > 0.0)
      && (k.annualReturn < 0.0 <==> k.avgReturn < 0.0)
  {
    if |bars| > 0 {
      var rows := Annotate(bars);
      assert PositiveRows(rows);
      var dates := SortedDates(rows);
      if Windows(|dates|, n).Some? {
        var ws := Windows(|dates|, n).value;
        WindowsFit(|dates|, n);
        ReportSpec(rows, dates, ws);
      }
    }
  }

  /** A summary of a non-empty log whose every return is at least `lo`
      counts its trades, has a win rate in `[0, 1]`, an average return of at
      least `lo` and a non-positive maximum drawdown. */
  lemma SummariseBounds(ts: seq<Trade>, lo: real)
    requires |ts| > 0
    requires forall k :: 0 <= k < |ts| ==> ts[k].entryPrice > 0.0 && Return(ts[k]) >= lo
    ensures Summarise(ts).totalTrades == |ts|
    ensures 0.0 <= Summarise(ts).winRate <= 1.0
    ensures Summarise(ts).avgReturn >= lo
    ensures Summarise(ts).maxDrawdown <= 0.0
  {
    WinRateRange(Returns(ts));
    AvgReturnBound(ts, lo);
    SortedEntryPrices(ts);
    MaxDrawdownNonPositive(Returns(SortBy(ts, ExitKey)));
  }

  /** Too few dates for even one split (fewer than two, and no more than
      the requested split count) means no summary. */
  lemma AnalyzeNeedsTwoDates(bars: seq<Bar>, n: nat)
    requires PositiveCloses(bars)
    requires |SortedDates(Annotate(bars))| < 2 && |SortedDates(Annotate(bars))| <= n
    ensures Analyze(bars, n).None?
  {
    WindowsNone(|SortedDates(Annotate(bars))|, n);
  }
}

=== FILE: wrappers.dfy ===
/** Optional values. An undefined moving average (pandas NaN) and a missing
    metric are both modelled as `None`. */
module Wrappers {

  datatype Option<+T> = None | Some(value: T) {

    /** The encapsulated value, or `default` when there is none. */
    function GetOr(default: T): T {
      match this
      case Some(v) => v
      case None => default
    }
  }
}
